=== FILE: README.md ===
# Recupio backend core, modelled in Dafny

Recupio is a recycling and donation backend. Facilities that take used
goods are imported from scraped map listings. Users find the facilities
that accept their items, record drop-offs, and get tax receipts for
donations. Premium users pay for subscriptions and switch on extra
features. This project models the logic that sits around the SQL calls.

- The three facility importers: the mapping of one JSON entry, the
  classification of a category, opening hours and their defaults, and the
  inserted/skipped counts.
- The condition and placeholder builders and the branch precedence of the
  facility listing endpoints, and the best-match search.
- The migration runner and the connection-string mask.
- The authentication, guest, premium, error and validation middleware,
  and the process-local registry of seen tokens.
- The handlers for authentication, password reset, payment methods,
  subscriptions, premium features and drop-offs. Each is a transition over
  tables.

Tables are sequences of rows. `queryRow` is the first matching row, and
`UPDATE`/`DELETE` map or filter the rows. A signed token is an entry of a
`Keyring` that maps a token to its claims; `jwt.verify` is membership plus
expiry. `bcrypt.compare` is a function parameter. Password hashes, uuids
and the clock come in as values: integer seconds, or a civil date for the
one-month subscription period.

One module per source file, plus shared modules:
- `Outcomes`: API errors and `Result`;
- `Text` and `TextFacts`: strings;
- `Tables`: row selections;
- `Sorting`: a stable insertion sort;
- `FacilityJson`: JSON truthiness;
- `Calendar`: JavaScript's `setMonth`;
- `Accounts` and `Billing`: the shared tables;
- `FacilityQueries`: the SQL text and values the facility listing and search send.

Three behaviours of the code are worth knowing up front:
- `register` does not check the password's length (auth/auth.api.ts:69-95);
- `login` does not record a login time (auth/auth.api.ts:48-66);
- the two guest middlewares attach different ids: shared/middleware.ts:65
  attaches the session's `session_id`, auth/auth.middleware.ts:129 the
  session row's `id`.

## Model

| member | source | states |
|---|---|---|
| ClockTime.ConvertToTime | facilities/data/import_json_data.ts:368-386 | the result always ends in ":00:00"; without a digit the hour is "NaN" (parseInt's NaN, no exception); otherwise the hour field is at least two digits, has no leading zero beyond the two-place padding, and reads back as `HourOf` |
| ClockTime.HourOf | facilities/data/import_json_data.ts:370-379 | the hour is missing (NaN) exactly when the trimmed input holds no digit |
| ClockTime.HourOfDigits | facilities/data/import_json_data.ts:371-379 | the hour is the number formed by all digits of the input, plus 12 when "PM" occurs and it is below 12, and 0 for 12 without "PM" |
| ClockTime.ReadingHour | facilities/data/import_json_data.ts:371-379 | for a numeral followed by a digit-free suffix, the hour is the numeral's value after the PM / midnight adjustment |
| ClockTime.ClockReading | facilities/data/import_json_data.ts:371-382 | on "H AM" / "H PM" with 1 <= H <= 12 the result is the 24-hour clock reading, zero-padded: "12 AM" is 00, "12 PM" is 12, "4 PM" is 16 |
| ClockTime.SuffixMarksAfternoon | facilities/data/import_json_data.ts:371 | a numeral followed by " PM" counts as afternoon, and one followed by " AM" does not |
| ClockTime.MinutesJoinHour | facilities/data/import_json_data.ts:372-382 | minutes are read as more digits of the hour: "H:MM AM" and "H:MM PM" both give the hour H*100+MM, with no PM adjustment |
| ClockTime.MinutesReadingDigits | facilities/data/import_json_data.ts:372 | the digits kept from "H:MM AM" are those of H followed by MM |
| JsonDataImport.DayOfWeek | facilities/data/import_json_data.ts:40-48 | a day found in the table has a number below 7; the lookup finds an inherited member exactly for the names of `Object.prototype`'s members, since the table is a plain object literal |
| JsonDataImport.DayTableBijective | facilities/data/import_json_data.ts:40-48 | the table maps a name to d exactly when d < 7 and the name is the d-th of Sunday..Saturday |
| JsonDataImport.ParseOpeningHours | facilities/data/import_json_data.ts:208-247 | an entry is skipped exactly when its day is `undefined` in the table; it fails the insert exactly when the day names an inherited member; a written row carries the day's number and is closed exactly when the hours are "Closed" |
| JsonDataImport.OpeningTimes | facilities/data/import_json_data.ts:214-225 | times are converted exactly when " to " occurs once in the hours (splitting yields two parts), from the parts before and after it; "Closed" and any other text keep 09:00:00 to 17:00:00 |
| JsonDataImport.Upsert | facilities/data/import_json_data.ts:227-246 | the upserted table holds, for each day, the last row that sets it, and no other day |
| JsonDataImport.HoursFromEntries | facilities/data/import_json_data.ts:208-247 | the hours fail exactly when some entry names an inherited member; otherwise they hold only days below 7, each from the last entry that names it |
| JsonDataImport.LastEntryWins | facilities/data/import_json_data.ts:208-247 | an entry naming a known day decides that day unless a later entry names the same day or the hours fail |
| JsonDataImport.InheritedDayFails | facilities/data/import_json_data.ts:210-211 | one entry whose day is an inherited member name such as "constructor" fails the facility's hours, wherever it stands |
| JsonDataImport.DefaultSchedule | facilities/data/import_json_data.ts:250-262 | seven rows: Monday to Friday 09:00-17:00 open; Saturday 10:00-16:00 and Sunday 12:00-16:00, both marked closed |
| JsonDataImport.DefaultHours | facilities/data/import_json_data.ts:250-267 | the default schedule keyed by day: exactly the days 0..6 |
| JsonDataImport.FacilityHours | facilities/data/import_json_data.ts:206-267 | a non-empty hours list decides the hours (or their failure) even if it names no known day; an absent or empty one gives the default schedule |
| JsonDataImport.TypeNames | facilities/data/import_json_data.ts:81-88 | the type set is the union over facilities of their `categories` when non-empty, else their truthy `categoryName` |
| JsonDataImport.FacilityRowOf | facilities/data/import_json_data.ts:140-182 | the row is verified; it has a location (longitude first) exactly when both coordinates are non-zero; the city defaults to "" only when there is no location; zip and state default to "" |
| JsonDataImport.AcceptedItemNames | facilities/data/import_json_data.ts:271-330 | the linked item names are exactly those marked accepted in some Recycling list |
| JsonDataImport.ImportOne | facilities/data/import_json_data.ts:140-330 | one facility writes its row, its type names, its hours and its accepted items, and fails exactly when its hours fail |
| JsonDataImport.InsertedIsNewKeys | facilities/data/import_json_data.ts:111-138 | the inserted count is the number of (name, address) keys new to the table plus the open facilities that have no key |
| JsonDataImport.ImportCounts | facilities/data/import_json_data.ts:111-351 | the run commits exactly when no inserted facility fails, and a failed run leaves the table as it was; on commit, inserted + skipped is the number of facilities, every closed facility is skipped, the table holds every open facility's key, and insertions add new keys only |
| Classify.StrictType | facilities/import-facilities.ts:162-170 | the class returned is mentioned by the category (unless mixed), and no class of higher priority is: recycling, then donation/charity/thrift, then waste/trash/disposal |
| Classify.LooseType | facilities/import-script.ts:202-210 | the same priority rule over the stems "recycl", "donat"/"charity"/"thrift", "waste"/"trash"/"dispos" |
| Classify.ClassificationUnique | facilities/import-cmd.ts:148-156 | the two contract clauses of a classifier fix its answer; the command-line importer's table is the endpoint's |
| Classify.StemsCoverKeywords | facilities/import-script.ts:202-210 | a category mentioning a keyword of a class mentions a stem of the same class |
| Classify.LooseNeverLater | facilities/import-script.ts:202-210 | the script never ranks a category later than the endpoint does |
| Classify.StemsDiffer | facilities/import-script.ts:205-207 | the tables differ: "recycle" is recycling for the script and mixed for the endpoint |
| ImportFacilities.DeductibleAnyCase | facilities/import-facilities.ts:173-176 | deductible exactly when the entry's own flag is set or its category spells "charity" or "donation" in any mix of cases |
| ImportFacilities.PickupAnyCase | facilities/import-facilities.ts:179-181 | pickup exactly when the entry's flag is set or its description spells "pickup" in any mix of cases; an entry without the flag whose description lacks the word offers none |
| Text.ContainsAnyCase | facilities/import-facilities.ts:180 | lower-casing and then searching for a lower-case word finds exactly the places where the word is spelled in any mix of cases |
| ImportFacilities.Tags | facilities/import-facilities.ts:184-189 | the tags are [categoryName] when it is non-empty, else [] |
| ImportFacilities.MapJsonToFacility | facilities/import-facilities.ts:134-159 | the phone prefers phoneUnformatted, then phone, then ""; the description is description, then categoryName, then ""; no accepted or rejected items; rating and coordinates default to 0; a falsy website becomes absent (`|| undefined`) |
| ImportFacilities.StoredRow | facilities/import-facilities.ts:90-110 | a non-empty name, address, city or state is written as it is and an empty one becomes its "Unknown ..." default; phone, website, hours and description are written when non-empty and NULL otherwise, coordinates when non-zero; every other column is unchanged |
| ImportFacilities.StoredRowIdempotent | facilities/import-facilities.ts:90-110 | inserting a stored row again would bind the same values: every default is itself truthy |
| ImportFacilities.StoredCoordinates | facilities/import-facilities.ts:90-110 | a stored coordinate is NULL exactly when the entry has no location or that coordinate is zero |
| ImportFacilities.MissingCategory | facilities/import-facilities.ts:163-189 | without a category the type is mixed, there are no tags, and the entry is deductible only by its own flag |
| ImportFacilities.DeductibleCategoryClass | facilities/import-facilities.ts:162-176 | a category that makes an entry deductible classifies it as recycling or donation |
| ImportFacilities.ImportRun | facilities/import-facilities.ts:78-118 | at most the first 50 entries are processed, one insert attempt each in order, and the count is the number processed, whether or not `ON CONFLICT DO NOTHING` kept the row |
| ImportCmd.CmdFacility | facilities/import-cmd.ts:56-78 | deductible exactly when the category contains "donation" ("charity" alone does not count); tags are [categoryName] or []; the phone and rating defaults are as in the endpoint |
| ImportCmd.IntToStringIff | facilities/import-cmd.ts:81-83 | printing an integer and reading it back are inverse |
| ImportCmd.PointRoundTrip | facilities/import-cmd.ts:81-83 | the point text "POINT(lng lat)" reads back as (longitude, latitude) |
| ImportCmd.PointColumn | facilities/import-cmd.ts:81-83 | the location is a point exactly when both coordinates are non-zero, and it reads back longitude first |
| ImportCmd.CmdRun | facilities/import-cmd.ts:54-132 | every entry is inserted in order and the count is the number of entries |
| ImportScript.ScriptFacility | facilities/import-script.ts:84-106 | name is title, then name, then "Unknown Facility"; address, city and state fall back to "Unknown ..."; zip is postalCode, then zip_code, then "00000"; phone is `phone`, then `phoneUnformatted`; the website is kept as it is; hours, description (then the category) and coordinates are NULL when falsy; item lists default to []; own tags win over the category; deductible when the flag is set or the category contains "donat"; the rating is never 0 |
| ImportScript.ScriptStored | facilities/import-script.ts:162-182 | phone, website, hours and description are written when non-empty and NULL otherwise, latitude and longitude when non-zero; every other column is written as mapped |
| ImportScript.ImportersStoreAlike | facilities/import-script.ts:162-182 | the script binds what the endpoint's insert (import-facilities.ts:90-110) binds for a record with non-empty name, address, city and state; the endpoint's insert absorbs the script's; both are idempotent |
| ImportScript.StoredOnlyTouchesLinks | facilities/import-script.ts:84-106 | on a mapped entry the insert's fallback to NULL changes only the phone and website, and applying it twice changes nothing |
| ImportScript.ScriptRun | facilities/import-script.ts:78-112 | a file that cannot be loaded gives the sample rows; otherwise the first 10 entries are mapped in order |
| ImportScript.DeductibleAcrossImporters | facilities/import-cmd.ts:76 | an entry the command marks deductible is deductible for the endpoint and the script as well |
| ImportScript.CharityOnlyForEndpoint | facilities/import-facilities.ts:173-176 | the category "charity" is deductible for the endpoint only |
| ImportScript.PhoneOrderAcrossImporters | facilities/import-script.ts:91 | with both numbers present the script keeps `phone` while the endpoint and the command keep `phoneUnformatted`; the records disagree exactly when the numbers differ |
| FacilityFilters.Emit | facilities/facilities.api.ts:103-135 | emitting a fragment with the next numbers keeps placeholders numbered 1, 2, ... one per parameter, and earlier bindings intact |
| FacilityFilters.EmitOne | facilities/facilities.api.ts:107-125 | a one-placeholder fragment gets number params.length+1 and is bound to its value |
| FacilityFilters.PageLimit | facilities/facilities.api.ts:98 | the limit is the given one when it is truthy, else 20; it is never 0 |
| FacilityFilters.PageOffset | facilities/facilities.api.ts:99 | the offset is the given one, else 0 |
| FacilityFilters.AddGet | facilities/facilities.api.ts:103-135 | a step of the listing builder keeps alignment, bindings and stage order |
| FacilityFilters.CityStep | facilities/facilities.api.ts:107-110 | the city filter comes first, as placeholder 1, when the city is truthy |
| FacilityFilters.ZipStep | facilities/facilities.api.ts:112-115 | the zip filter uses the next number, when the zip code is truthy |
| FacilityFilters.TypeStep | facilities/facilities.api.ts:118-125 | the type join uses the next number, when the type is truthy |
| FacilityFilters.LocationStep | facilities/facilities.api.ts:128-135 | the location filter uses the next three numbers, bound to lng, lat, radius, when all three are truthy |
| FacilityFilters.GetFiltersAligned | facilities/facilities.api.ts:103-135 | the k-th placeholder refers to the k-th parameter, each bound to its filter's request value, in the order city, zip, type, location |
| FacilityFilterFacts.GetFiltersPresent | facilities/facilities.api.ts:103-135 | each filter is emitted exactly when its inputs are truthy |
| FacilityFilters.Conditions | facilities/facilities.api.ts:118-139 | the type join never becomes a WHERE condition |
| FacilityFilters.Render | facilities/facilities.api.ts:107-135 | every condition renders as non-empty SQL |
| FacilityFilters.WhereClause | facilities/facilities.api.ts:137-139 | the clause is empty exactly when there is no condition; otherwise it is "WHERE " followed by text that, split at " AND ", gives back the rendered conditions in order |
| FacilityFilters.RenderNoAnd | facilities/facilities.api.ts:107-135 | a rendered condition with a space-free column never contains " AND ", so joining the conditions with " AND " can be undone |
| Text.SplitJoin | facilities/facilities.api.ts:138 | joining pieces that contain no separator and splitting at the separator gives the pieces back |
| FacilityFilters.GetWhereReadsBack | facilities/facilities.api.ts:103-139 | the listing's WHERE clause, when present, reads back as its conditions |
| FacilityFilters.SearchWhereReadsBack | facilities/facilities.api.ts:491-514 | the search builder's WHERE clause reads back as its conditions |
| FacilityQueries.ListSqlAsWritten | facilities/facilities.api.ts:170-182 | as written, the listing sends the join and the WHERE clause as the string values $1 and $2, then the limit and the offset, and none of the filter values |
| FacilityQueries.CountSqlAsWritten | facilities/facilities.api.ts:148-153 | as written, the count sends exactly the join and the WHERE clause as values |
| FacilityQueries.AsWrittenTextFixed | facilities/facilities.api.ts:148-182 | as written, every request sends the same SQL text, whatever its filters |
| FacilityQueries.AsWrittenStrings | facilities/facilities.api.ts:172-182 | the only strings the listing sends are the join text and the WHERE clause |
| FacilityQueries.FilterValueNotBound | facilities/facilities.api.ts:103-182 | a city filter such as "Paris" is emitted by the builder, yet its value is never sent |
| FacilityQueries.Statement | facilities/facilities.api.ts:160-170 | the intended statement contains the join and the WHERE clause as text, binds the builder's values in order, and then the limit and offset under the next two numbers |
| FacilityQueries.ListSqlBindsFilters | facilities/facilities.api.ts:103-170 | in the intended statement every fragment's placeholders refer to its request values, and the limit and offset follow at numbers n+1 and n+2 |
| FacilityQueries.StatementBinds | facilities/facilities.api.ts:103-170 | splicing a builder into a statement keeps every binding and adds the limit and offset after them |
| FacilityQueries.ListSqlSendsFilters | facilities/facilities.api.ts:103-170 | in the intended statement a truthy city, zip code or type is among the values sent |
| FacilityQueries.BoundValuesSent | facilities/facilities.api.ts:107-125 | each emitted city, zip or type fragment has its value among the parameters |
| FacilityQueries.SearchValuesMatchBuilder | facilities/facilities.api.ts:487-563 | the four fixed search statements bind, in the order their text names them, exactly the values the builder's placeholders refer to: type, pattern twice, zip code |
| FacilityFilters.Pattern | facilities/facilities.api.ts:487 | the search pattern is the text wrapped in '%' on both sides |
| FacilityFilters.SearchFilters | facilities/facilities.api.ts:487-516 | search placeholders are aligned and bound; the type condition comes before the search, which is always there, and zip after it |
| FacilityFilters.SearchAlwaysFiltered | facilities/facilities.api.ts:487-516 | the search query always has a WHERE clause |
| FacilitiesApi.NamesOf | facilities/facilities.api.ts:296-344 | the names are exactly those of the rows with the id |
| FacilitiesApi.JoinNames | facilities/facilities.api.ts:296-344 | the joined names are exactly those reachable through a link of the facility |
| FacilitiesApi.Enrich | facilities/facilities.api.ts:296-344 | the row is kept; is_verified is true only when the column is true; there are no rejected items; type and item names come from the link tables |
| FacilitiesApi.Mode | facilities/facilities.api.ts:360-388 | a non-empty item list wins over the zip code, and the zip code wins over no filter |
| FacilitiesApi.EnrichAll | facilities/facilities.api.ts:360-388 | each row is enriched in place |
| FacilitiesApi.ListFacilities | facilities/facilities.api.ts:360-388 | the result is the selected rows, each once, ordered by name and enriched |
| FacilitiesApi.MatchIffAccepts | facilities/facilities.api.ts:429-462 | a facility has a positive match count exactly when it accepts a requested item |
| FacilitiesApi.FindBestMatch | facilities/facilities.api.ts:429-462 | NotFound exactly when no facility in the zip code accepts a requested item; otherwise a facility whose match count no other candidate beats |
| Migrations.LeadingDigits | admin/migrations.api.ts:66-69 | the longest run of leading digits |
| Migrations.Version | admin/migrations.api.ts:66-69 | a version exists exactly when the name starts with a digit run followed by '_', and it is that run |
| Migrations.AppliedStrings | admin/migrations.api.ts:49 | the recorded versions are printed with integer toString |
| Migrations.PaddedVersionNeverSkipped | admin/migrations.api.ts:49-73 | a zero-padded version such as "001" never matches a recorded version, so it is attempted again |
| Migrations.Pending | admin/migrations.api.ts:56-58 | the ".up.sql" files, each once, in sorted order |
| Migrations.Statements | admin/migrations.api.ts:84 | the statements are the pieces between ';' that are not blank |
| Migrations.StatementsOfPiece | admin/migrations.api.ts:84 | a piece without ';' is one statement, or none when blank |
| Migrations.StatementsCons | admin/migrations.api.ts:84 | the statements of `a;b` are those of `a` followed by those of `b`: file order and multiplicity are kept |
| Migrations.TableAfter | admin/migrations.api.ts:93-96 | applying migrations only adds versions |
| Migrations.Attempt | admin/migrations.api.ts:84-103 | a file applies exactly when its statements run and its version is not yet in the table; a failure carries the statement error or the duplicate-key error |
| Migrations.Summary | admin/migrations.api.ts:116-121 | "No new migrations to apply" exactly when none was applied in this run |
| Migrations.ApplyAll | admin/migrations.api.ts:60-121 | success applies exactly the due files in order, each of whose statements all ran; a failure stops at a due file, reports only the files applied before it and that file's error |
| Migrations.FirstErrorFrom | admin/migrations.api.ts:85-90 | the statements from the k-th on run cleanly exactly when each does; otherwise the error is that of the first rejected one |
| Migrations.FirstError | admin/migrations.api.ts:85-90 | a file's statements run cleanly exactly when each does; otherwise the error is that of the first rejected one |
| Migrations.TemplateRunsOnlyEmpty | admin/migrations.api.ts:88 | sent through the template, a file's statements run exactly when there are none, and otherwise fail with the "$1" syntax error |
| Migrations.RunMigrations | admin/migrations.api.ts:36-121 | with each statement sent as SQL: success applies the due sorted ".up.sql" files, against the versions read once before the loop, and every statement of every applied file was accepted |
| Migrations.RanEveryStatement | admin/migrations.api.ts:85-90 | a file whose statements ran had each of them accepted |
| Migrations.RunMigrationsAsWritten | admin/migrations.api.ts:36-121 | as written: a run succeeds only when every file it applies has no statement, and a failure reports the "$1" syntax error or a duplicate version |
| Migrations.TemplateRanOnlyEmpty | admin/migrations.api.ts:85-90 | as written, the files that ran had no statements |
| Migrations.TemplateFailure | admin/migrations.api.ts:85-110 | as written, a failed file reports the "$1" syntax error or a duplicate version |
| ConnectionMask.MatchEnd | admin/direct-test.api.ts:24 | the scan finds the '@' that ends a match at the colon, or there is none |
| ConnectionMask.FindMatch | admin/direct-test.api.ts:24 | the match found is the leftmost one from the position, or there is none |
| ConnectionMask.Mask | admin/direct-test.api.ts:24 | a string without a match is unchanged; otherwise the leftmost match becomes ":***@" and everything around it is kept |
| ConnectionMask.MatchUnique | admin/direct-test.api.ts:24 | a colon starts at most one match |
| ConnectionMask.LeftmostOrNone | admin/direct-test.api.ts:24 | every string has a leftmost match or none |
| ConnectionMaskFacts.MaskIdempotent | admin/direct-test.api.ts:24 | masking twice is masking once |
| ConnectionMaskFacts.MaskedShape | admin/direct-test.api.ts:24 | the masked string keeps the text before the match and holds ":***@" where the match began |
| ConnectionMaskFacts.OnlyFirstMasked | admin/direct-test.api.ts:24 | only the first match is rewritten |
| ConnectionMaskFacts.MaskPassword | admin/direct-test.api.ts:24 | in "user:password@rest" exactly the password is replaced |
| ConnectionMaskFacts.MaskConnectionUrl | admin/direct-test.api.ts:24 | "postgres://u:p@h/db" becomes "postgres://u:***@h/db" |
| DirectTest.DirectTest | admin/direct-test.api.ts:26-45 | success exactly when the probe connected; the masked string is reported on both probe outcomes and not when the probe threw |
| SharedMiddleware.BearerToken | shared/middleware.ts:23 | the token of "Bearer t" is t |
| SharedMiddleware.Authenticate | shared/middleware.ts:15-44 | a missing header fails Unauthenticated; every later failure has the one message "Invalid authentication token"; success exactly when the token verifies and names an existing user, whose row gives the id and role |
| SharedMiddleware.IssuedTokenAuthenticates | shared/middleware.ts:23-37 | a token issued for a user authenticates as that user, with the row's current role, until it expires |
| SharedMiddleware.GuestAccess | shared/middleware.ts:47-68 | success exactly when the header names a session with expires_at > now; the guest id is the session id |
| SharedMiddleware.PremiumGate | shared/middleware.ts:71-88 | Unauthenticated exactly without a user id; PermissionDenied exactly with one whose user is missing or not premium; otherwise it passes |
| SharedMiddleware.RequestId | shared/middleware.ts:119 | a present, non-empty request id is used as it is; "unknown" stands in for a missing or empty one |
| SharedMiddleware.RequestIdReported | shared/middleware.ts:114-144 | every classified error's report carries the request id (or "unknown"), and ends with it for anything but an `APIError` |
| SharedMiddleware.Classify | shared/middleware.ts:114-144 | a database/connection message gives Internal; a duplicate message gives InvalidArgument; an APIError otherwise keeps its code with the request id appended; anything else gives Internal |
| SharedMiddleware.ErrorMiddleware | shared/middleware.ts:91-147 | values pass unchanged, and everything thrown comes out as the APIError `Classify` gives for it |
| SharedMiddleware.ClassifiedCodes | shared/middleware.ts:114-144 | only Internal, InvalidArgument or an APIError's own code comes out; the code is kept exactly when the message mentions neither the database nor a duplicate |
| SharedMiddleware.ApiErrorAboutDatabase | shared/middleware.ts:114-121 | a NotFound whose message mentions "database" comes out as Internal |
| SharedMiddleware.Validate | shared/middleware.ts:150-167 | an invalid_argument error is raised again with the same message as its cause; anything else passes through unchanged |
| SharedMiddleware.ValidateIdempotent | shared/middleware.ts:150-167 | passing through twice is passing once |
| Accounts.Issue | auth/auth.api.ts:59-61 | an issued token carries the user id and role and expires 24 hours after issue |
| Accounts.IssuedVerifies | auth/auth.api.ts:59-61 | an issued token verifies exactly until 24 hours after issue |
| Accounts.Safe | auth/auth.api.ts:63 | the returned user has every modelled column but the password hash, `last_activity` included |
| Accounts.SafeForgetsOnlyHash | auth/auth.api.ts:63 | two users look the same to a client exactly when they differ at most in their password hash |
| Accounts.UserById | auth/auth.middleware.ts:38-43 | a user found has the id, and none is found exactly when no row has it |
| Accounts.FirstUserById | auth/auth.middleware.ts:38-43 | the lookup finds the first row with the id |
| Accounts.UserByEmail | auth/auth.api.ts:51-53 | a user found has the email, and none is found exactly when no row has it |
| Accounts.FindLiveSession | shared/middleware.ts:55-59 | a session found is live with that id, and none is found exactly when none is live |
| Accounts.TouchSessions | auth/auth.middleware.ts:122-126 | only the rows with the session id get the access time |
| Accounts.TouchUser | auth/auth.middleware.ts:88-92 | only the user's row gets the activity time |
| AuthMiddleware.TokenKey | auth/auth.middleware.ts:70 | the key is the user id, ':' and the last 8 characters of the token (all of them when shorter) |
| AuthMiddleware.TokenKeyIff | auth/auth.middleware.ts:70 | two tokens of one user share a key exactly when their last 8 characters agree |
| AuthMiddleware.VerifyUser | auth/auth.middleware.ts:35-44 | an empty id finds no user, without a lookup; otherwise the lookup by id |
| AuthMiddleware.Enter | auth/auth.middleware.ts:71-77 | an entry with exp*1000 is added only under an absent key and with a non-zero exp; existing entries are never overwritten |
| AuthMiddleware.EnterIdempotent | auth/auth.middleware.ts:71-77 | entering a token twice is entering it once |
| AuthMiddleware.Authenticate | auth/auth.middleware.ts:50-99 | a missing header, a failed verification and an unknown or empty user all fail Unauthenticated; on success the row's id and role and the token's iat and exp are attached, the registry is updated, and a failed activity write is swallowed |
| AuthMiddleware.AdmitsLikeShared | auth/auth.middleware.ts:35-67 | this middleware admits what the shared one admits, except a token naming the empty user id |
| AuthMiddleware.ActivityFailureSwallowed | auth/auth.middleware.ts:88-92 | whether the activity write fails changes neither who is admitted nor the registry |
| AuthMiddleware.GuestAuthenticate | auth/auth.middleware.ts:101-133 | success exactly for a live session; the attached identity is the row id with role "guest" |
| AuthMiddleware.GuestMiddlewaresAgreeOnAccess | auth/auth.middleware.ts:110-129 | both guest middlewares admit the same requests; one attaches the row id, the other the session id |
| AuthMiddleware.InvalidateToken | auth/auth.middleware.ts:136-149 | true and the entry removed exactly when the token verifies and its key is registered; otherwise false with the registry unchanged |
| AuthMiddleware.InvalidateTwice | auth/auth.middleware.ts:141-145 | a second invalidation of the same token returns false |
| AuthMiddleware.AdmittedThenInvalidated | auth/auth.middleware.ts:70-77 | an admitted token with an expiry can later be invalidated while it still verifies |
| AuthMiddleware.InvalidatedStillAdmitted | auth/auth.middleware.ts:50-99 | invalidation is not revocation: an invalidated token is admitted again |
| AuthApi.Login | auth/auth.api.ts:48-66 | fails "Invalid credentials" exactly when no user has the email or the password does not match; otherwise a 24-hour token for that user and the user without its hash |
| AuthApi.LoginHidesWhichCheckFailed | auth/auth.api.ts:51-57 | an unknown email and a wrong password give the same answer |
| AuthApi.Register | auth/auth.api.ts:69-95 | AlreadyExists exactly when the email is taken; otherwise exactly one user with role 'standard' is appended and a 24-hour token issued for it |
| AuthApi.RegisterKeepsEmailsUnique | auth/auth.api.ts:72-84 | registration keeps emails unique |
| AuthApi.RegisterThenLogin | auth/auth.api.ts:48-95 | a registered user can log in with the password whose hash was stored |
| AuthApi.CreateGuestSession | auth/auth.api.ts:98-108 | one session is appended, expiring 24 hours after creation, and its id is returned |
| AuthApi.GuestSessionLifetime | auth/auth.api.ts:101-106 | a new session opens guest access for exactly 24 hours, with the ids each middleware attaches |
| AuthApi.Logout | auth/auth.api.ts:111-114 | always success, and no table or registry entry changes |
| AuthApi.LogoutKeepsTokenAdmitted | auth/auth.api.ts:111-114 | a token admitted before logout is admitted after it, with the same identity |
| AuthApi.UpgradeUser | auth/auth.api.ts:117-148 | the role update and a 'completed' payment happen first; NotFound exactly when no user has the id; otherwise the upgraded user without its hash |
| AuthApi.UpgradeUnknownUserRecordsPayment | auth/auth.api.ts:120-144 | an unknown id fails NotFound but leaves a completed payment behind |
| AuthApi.UpgradeUserChecked | auth/auth.api.ts:140-146 | an unknown id fails NotFound and changes no table; a known one upgrades as written |
| AuthApi.UpgradeLeavesPremiumGate | auth/auth.api.ts:120-124 | the role it sets is not what the premium gate reads, so gating is unchanged |
| Passwords.AtMostOneLiveLater | auth/password.api.ts:27-33 | at most one live token per user stays true as time passes |
| Passwords.LiveTokenOf | auth/password.api.ts:28-33 | a token found is live and the user's; none is found exactly when the user has none live |
| Passwords.SpendById | auth/password.api.ts:37-41 | only the row with the id is marked used |
| Passwords.ForgotPassword | auth/password.api.ts:9-58 | InvalidArgument exactly for an empty address or one without '@'; an unknown address succeeds and changes nothing; a known one appends a token expiring in 24 hours and changes no row except to spend it |
| Passwords.ForgotKeepsOneLive | auth/password.api.ts:27-51 | a reset request keeps at most one live token per user, and the requester's older tokens are dead |
| Passwords.TokenRow | auth/password.api.ts:74-80 | a row found carries the token live; none is found exactly when none does |
| Passwords.SetHash | auth/password.api.ts:100-105 | only the user's row gets the new hash |
| Passwords.SpendToken | auth/password.api.ts:106-110 | every row with the token is marked used |
| Passwords.ResetPassword | auth/password.api.ts:61-115 | a blank token, then a password shorter than 8, fail InvalidArgument before any lookup; an unknown, expired or used token fails InvalidArgument; a missing user fails NotFound; otherwise the hash is set and the token spent |
| Passwords.ResetTwiceFails | auth/password.api.ts:99-111 | a second reset with the same token fails InvalidArgument |
| Passwords.ForgotThenReset | auth/password.api.ts:44-111 | a token issued by a reset request resets the requester's hash within 24 hours |
| Billing.ActiveSubscription | payments/subscription.api.ts:69-73 | a subscription found is the user's and active; none exactly when the user has none |
| Billing.OwnedMethod | payments/payment-methods.api.ts:86-90 | a method found has the id and belongs to the user; none exactly when no such row exists |
| PaymentMethods.ListOrder | payments/payment-methods.api.ts:24 | the order is total and transitive: defaults first, then newer first |
| PaymentMethods.ListMethods | payments/payment-methods.api.ts:16-31 | the caller's methods, each once, in list order |
| PaymentMethods.DefaultsFirst | payments/payment-methods.api.ts:24 | a default method precedes every non-default one, and methods alike in that respect run from newest to oldest |
| PaymentMethods.Expiry | payments/payment-methods.api.ts:69-70 | a zero or absent expiry is stored as NULL |
| PaymentMethods.ClearDefaults | payments/payment-methods.api.ts:46-53 | the user's methods lose the default flag and other users' methods are untouched |
| PaymentMethods.AddMethod | payments/payment-methods.api.ts:34-80 | one row is appended, default exactly when isDefault is true; only then are the user's older defaults cleared, and otherwise nothing else changes |
| PaymentMethods.AddKeepsOneDefault | payments/payment-methods.api.ts:46-71 | adding keeps at most one default per user, and a method added as default is the user's only one |
| PaymentMethods.RemoveMethod | payments/payment-methods.api.ts:83-121 | NotFound unless the caller owns the method; InvalidArgument for the last method while a subscription is active; otherwise exactly the (id, user) rows go |
| PaymentMethods.RemoveKeepsAMethod | payments/payment-methods.api.ts:96-117 | while a subscription is active, removal never leaves the user without a method |
| Calendar.AddMonth | payments/subscription.api.ts:36-37 | setMonth(+1) keeps the day when the next month has it, and otherwise overflows into the month after |
| Calendar.AddMonthLength | payments/subscription.api.ts:36-37 | the step moves a date forward by the length of its month |
| Calendar.EndOfJanuary | payments/subscription.api.ts:37 | 31 January plus a month is 3 March, or 2 March in a leap year |
| Calendar.AddMonthAt | payments/subscription.api.ts:35-37 | the period end keeps the time of day and lies one month-length of days later |
| Subscriptions.SetPremium | payments/subscription.api.ts:51-55 | only the user's row becomes premium |
| Subscriptions.Subscribe | payments/subscription.api.ts:16-63 | NotFound exactly when the caller does not own the method; otherwise one active subscription ending a month later is appended and the user becomes premium |
| Subscriptions.SubscribeOpensPremium | payments/subscription.api.ts:36-55 | after subscribing the user has an active subscription and passes the premium gate |
| Subscriptions.Cancel | payments/subscription.api.ts:66-89 | NotFound exactly without an active subscription; otherwise that subscription is 'canceled' with cancel_at_period_end, and nothing else, is_premium included, changes |
| Subscriptions.CancelTwiceFails | payments/subscription.api.ts:69-85 | with one active subscription, a second cancel fails NotFound |
| Subscriptions.SubscribeThenCancel | payments/subscription.api.ts:16-89 | a subscription just taken out can be cancelled |
| Subscriptions.FeatureIds | payments/subscription.api.ts:96-98 | exactly the features the user switched on; empty exactly when there are none |
| Subscriptions.Aggregate | payments/subscription.api.ts:96-101 | the aggregate over the outer join is [NULL] when there are no features, never empty |
| Subscriptions.GetSubscription | payments/subscription.api.ts:92-120 | no subscription exactly when none is active; otherwise its fields, with the aggregate as written |
| Subscriptions.GetSubscriptionIntended | payments/subscription.api.ts:104-116 | the same answer, but listing exactly the user's features, with no NULL |
| Subscriptions.NoFeaturesAggregateNull | payments/subscription.api.ts:96-116 | a subscriber with no features gets [NULL] where the fallback meant [] |
| Subscriptions.AggregateWithFeatures | payments/subscription.api.ts:96-116 | with a feature switched on, the written and the intended answers agree |
| Premium.ListFeatures | premium/premium.api.ts:14-28 | the active features, each once, sorted by name |
| Premium.ActiveFeature | premium/premium.api.ts:45-49 | a feature found has the id and is active; none exactly when no such row exists |
| Premium.Activate | premium/premium.api.ts:31-64 | PermissionDenied for a non-premium user, checked first; then NotFound without an active feature; otherwise the pair is added once |
| Premium.ActivateIdempotent | premium/premium.api.ts:56-60 | activating again changes nothing |
| Premium.ActivateAgreesWithGate | premium/premium.api.ts:35-42 | the handler's premium check refuses exactly whom the premium gate refuses |
| Premium.Deactivate | premium/premium.api.ts:87-98 | the pair is removed, whether present or not, and every other row stays |
| Premium.DeactivateUndoesActivate | premium/premium.api.ts:56-97 | deactivating undoes a fresh activation |
| Premium.Joined | premium/premium.api.ts:72-76 | an activation joins exactly the active features with its id |
| Premium.Join | premium/premium.api.ts:72-76 | the joined rows are exactly the active features the user switched on, with their times |
| Premium.GetActiveFeatures | premium/premium.api.ts:67-84 | the active features the user switched on, newest first |
| Premium.ActivatedThenListed | premium/premium.api.ts:31-97 | an activated feature is listed, and once deactivated it is not |
| DropOffs.CreateDropOff | drop-offs/drop-offs.api.ts:61-85 | InvalidArgument exactly when some condition is not new/used/refurbished, before any insert; otherwise one drop-off and one item row per input, each with carbon offset 0 |
| DropOffs.ItemRows | drop-offs/drop-offs.api.ts:75-85 | the i-th row carries the i-th input and the new drop-off's id |
| DropOffs.ListDropOffs | drop-offs/drop-offs.api.ts:96-116 | PermissionDenied exactly when the caller asks for another user; otherwise exactly that user's drop-offs, newest first |
| DropOffs.ListReceipts | drop-offs/drop-offs.api.ts:215-230 | PermissionDenied exactly when the caller asks for another user; otherwise exactly that user's receipts, newest first |
| DropOffs.DropOffDetails | drop-offs/drop-offs.api.ts:129-144 | NotFound exactly when no drop-off has the id; otherwise it and exactly its items |
| DropOffs.CreateThenDetails | drop-offs/drop-offs.api.ts:69-144 | the details of a new drop-off are what was created |
| DropOffs.TotalValue | drop-offs/drop-offs.api.ts:171-175 | the sum is NULL exactly when the drop-off has no items |
| DropOffs.ReceiptNumber | drop-offs/drop-offs.api.ts:182 | "RECEIPT-" followed by a canonical numeral that reads back as the timestamp |
| DropOffs.ReceiptNumbersDistinct | drop-offs/drop-offs.api.ts:182-185 | different timestamps give different receipt numbers and storage paths |
| DropOffs.GenerateTaxReceipt | drop-offs/drop-offs.api.ts:154-207 | NotFound exactly when the caller owns no drop-off with the id; Internal exactly when the sum is NULL or zero; otherwise one receipt with the number, path-derived URL and total is appended |
| DropOffs.ReceiptHidesOthersDropOffs | drop-offs/drop-offs.api.ts:161-169 | another user's drop-off is answered as if it did not exist |

## Left out

- The SQL engine and PostGIS: tables are sequences; `ST_DWithin` and `ST_MakePoint` are not modelled, nor the `countQuery` and `facilitiesQuery` strings of `getFacilities`, which are built but never sent.
- Floating point: the miles-to-meters factor (the radius is kept in miles), `match_percentage` with `toFixed(2)`, monetary sums and fractional ratings. JSON numbers are integers, and truthiness is "non-zero".
- File-system and JSON reading, console logging, and the contents of the built-in sample list, which is a parameter of `ImportScript.ScriptRun`.
- bcrypt hashing and JWT signing/verification are abstract (a comparison parameter and a keyring); uuids and the clock are values passed in; time zones and daylight-saving time are ignored.
- Concurrency: the unsynchronised token registry is single-threaded state, and the two updates of `resetPassword` run in sequence.
- Column defaults are taken as given: a new user is not premium, and an omitted date column is the request time.
- Strings are sequences of code points, so a password's length is counted in code points, not UTF-16 units; case mapping is ASCII only.
- `COUNT` and `SUM` come back as numbers (the driver may hand back a numeric sum as a string).
- The authenticated caller id of a handler is a parameter; the framework's wiring of `auth` into handlers is not modelled.
- The receipt PDF stub and the storage upload: the public URL is a function of the path passed in.
- The card token parameter of `addPaymentMethod`, which the code does not read.
- `getPreferences` and guest/preferences.api.ts: its insert names three columns but supplies two values, so its effect is not defined.
- Pass-through read handlers, admin diagnostics and data loaders, and service wiring: these hold no logic beyond a query.
- The model assumes one working database holding every table. As written, the database imports do not all resolve: shared/db.ts exports only `db`, yet shared/middleware.ts:6, payments/subscription.api.ts:3, payments/payment-methods.api.ts:3 and drop-offs/drop-offs.api.ts:3 import `mainDB` from it, admin/direct-test.api.ts:2 imports `testConnection` from it, and auth/password.api.ts:3 imports `db` from auth/db.ts, which exports only `mainDB`, `authDB` and `sharedDB`.
- The handlers of drop-offs/drop-offs.api.ts read the caller as `auth.userID` (lines 40, 71, 101, 164, 199, 219), while both authentication middlewares attach `userId` (shared/middleware.ts:37, auth/auth.middleware.ts:80). The model takes the caller id as a parameter and so assumes the two names meet.
- Accounts.Safe: the users table's `created_at` and `updated_at` columns are not modelled, so the safe record does not carry the timestamps that `SELECT *` returns.
- JsonDataImport.ParseOpeningHours: an inherited member such as `Object.prototype.toString` bound as an INSERT parameter is taken to make the insert fail; the driver's serialisation of such a value is not modelled.
- FacilityFilters.SearchFilters: the builder of `searchFacilities` (facilities/facilities.api.ts:487-516) assembles a statement that is never run; the handler runs one of four fixed statements instead, whose values `FacilityQueries.SearchValues` gives. The builder is modelled because the fixed statements follow it.
- Text.LexLe orders strings by code point. The default `Array.prototype.sort` compares UTF-16 code units, which agrees with code-point order except for characters above U+FFFF. `ORDER BY name` in `FacilitiesApi.ListFacilities` and `Premium.ListFeatures` is taken to use a byte-order (C) collation; under another collation the database's order may differ.
- AuthApi.Register: answers with the full user record, `is_premium` false included, where the code returns id, name, email and role only.
- FacilitiesApi.FindBestMatch: among facilities with equal match counts, the database may return any; the model returns the first.
- FacilitiesApi.ListFacilities: the order between facilities of equal name is left to the sort and not pinned to the database's.
- ClockTime.ConvertToTime: reads the digits as an exact natural number. `parseInt` loses precision for digit runs beyond 2^53, and `toString` switches to exponent form from 1e21; neither limit is modelled (facilities/data/import_json_data.ts:372-381).
- ClockTime.MinutesJoinHour: shows that "7:30 AM" gives "730:00:00". It has no corrected counterpart, because the sample data spells whole hours only.
- ImportCmd.CmdRun: the insert calls `db.exec` as a plain function with the SQL string and 22 values (facilities/import-cmd.ts:106-129), where every other call on `db` is a tagged template. The model assumes this call binds the values to $1..$22 in order; if the driver takes the string as a template instead, the first insert fails and the run rolls back and exits.
- The `notes`, `distance` and `imageUrl` fields that the importers map and write (facilities/import-script.ts:96-99, facilities/import-facilities.ts:148-151, facilities/import-cmd.ts:68-71), and the `JSON.stringify(facility)` value the command stores in `extra_data` (facilities/import-cmd.ts:128), are not part of `MappedFacility`.
- JsonDataImport.ImportOne: the `open_time` and `close_time` columns are taken to accept any text. Hours without a digit give "NaN:00:00" and "7:30 AM" gives "730:00:00"; if the columns are of type TIME, Postgres rejects these values and the whole import rolls back, which the model does not show.
- FacilitiesApi.ListFacilities: item ids are assumed to be uuid-shaped. `ANY(${itemIds}::uuid[])` (facilities/facilities.api.ts:365) makes the query throw for any other id, and the handler has no try/catch; the model compares ids as strings and answers normally.
- FacilitiesApi.FindBestMatch: item ids are assumed to be uuid-shaped, as for ListFacilities. The casts at facilities/facilities.api.ts:435 and 451 throw for any other id; the model answers NotFound "No matching facilities" instead of that error.
- AuthApi.UpgradeUser: assumes that `payments.user_id` has no foreign key to `users`, a schema fact the sources do not show. With such a key, the payment INSERT (auth/auth.api.ts:127-137) throws for an unknown user: no payment row remains and the answer is the insert's error, not NotFound.

## Findings

| source | as written | input that shows it | evidently intended | confidence | as-written member | corrected member |
|---|---|---|---|---|---|---|
| auth/auth.api.ts:120-144 | the role update and a 'completed' payment are written before the user is looked up | `upgradeUser` with a userId no user row has: NotFound, yet a completed payment row for that id remains | check that the user exists first and fail without writing | medium, not executed; assumes `payments.user_id` has no foreign key to `users`, which the sources do not show | AuthApi.UpgradeUser (AuthApi.UpgradeUnknownUserRecordsPayment) | AuthApi.UpgradeUserChecked |
| admin/migrations.api.ts:84-90 | `db.exec` is a tagged template, so `${statement}` sends the SQL text "$1" with the statement bound as a value | any migration file with a statement, such as "CREATE TABLE t (x int);": the server rejects "$1" with a syntax error and the run fails at that file | each statement sent as SQL text (an unsafe raw execution) | high, not executed | Migrations.RunMigrationsAsWritten (Migrations.TemplateRunsOnlyEmpty) | Migrations.RunMigrations |
| facilities/facilities.api.ts:141-183 | `${typeJoin}` and `${whereClause}` are interpolated into `db.query`, so they are bound as string values $1 and $2, and `whereParams` is never passed; the text as sent reads `... FROM facilities f $1 $2 GROUP BY ...`, which does not parse, so the query fails on every request, with or without filters | `getFacilities` with city "Paris": the SQL text is the same as with no filter and "Paris" is not sent | the join and the WHERE clause spliced into the SQL text, `whereParams` bound, limit and offset numbered after them | high, not executed | FacilityQueries.ListSqlAsWritten (FacilityQueries.FilterValueNotBound) | FacilityQueries.ListSql (FacilityQueries.ListSqlBindsFilters) |
| payments/subscription.api.ts:95-116 | `array_agg(upf.feature_id)` over a LEFT JOIN yields `[NULL]` for a subscriber with no features, so the fallback to an empty list never applies | an active subscriber with no rows in user_premium_features gets `activeFeatures: [null]` | an empty list | high, not executed | Subscriptions.GetSubscription (Subscriptions.NoFeaturesAggregateNull) | Subscriptions.GetSubscriptionIntended |

=== FILE: accounts.dfy ===
/** The account state the authentication handlers and middleware share:
    the `users` and `guest_sessions` tables and signed tokens. Signing and
    verifying are abstract: a `Keyring` holds the tokens that carry a valid
    signature under the service secret, with the claims they carry. Times
    are integer seconds. */
module Accounts {
  import opened Outcomes
  import opened Tables

  /** The 24-hour lifetime of tokens, guest sessions and reset tokens. */
  const Day: int := 86400

  /** A row of `users`. */
  datatype User = User(
    id: string, name: string, email: string, passwordHash: string,
    role: string, isPremium: bool, lastActivity: Option<int>)

  /** A user as returned to clients: every modelled column but the
      password hash. */
  datatype SafeUser = SafeUser(
    id: string, name: string, email: string, role: string, isPremium: bool, lastActivity: Option<int>)

  /** The user without its `password_hash`. */
  function Safe(u: User): (s: SafeUser)
    ensures s.id == u.id && s.name == u.name && s.email == u.email
    ensures s.role == u.role && s.isPremium == u.isPremium && s.lastActivity == u.lastActivity
  {
    SafeUser(u.id, u.name, u.email, u.role, u.isPremium, u.lastActivity)
  }

  /** Two users look the same to a client exactly when they differ at most
      in their password hash. */
  lemma SafeForgetsOnlyHash(u: User, v: User)
    ensures Safe(u) == Safe(v) <==> u.(passwordHash := v.passwordHash) == v
  {
  }

  /** A row of `guest_sessions`: its own id and the session id handed to
      the client. */
  datatype GuestSession = GuestSession(id: string, sessionId: string, expiresAt: int, lastAccessed: Option<int>)

  /** The claims of a signed token; `exp` in seconds, absent when the token
      was signed without a lifetime. */
  datatype Claims = Claims(userId: string, role: string, iat: int, exp: Option<int>)

  /** The tokens with a valid signature under the service secret. */
  type Keyring = map<string, Claims>

  /** `jwt.verify`: the token's signature checks and its expiry, when it
      has one, lies ahead (a token is rejected from its `exp` second on). */
  predicate Verifies(keyring: Keyring, token: string, now: int) {
    token in keyring && (keyring[token].exp.None? || now < keyring[token].exp.value)
  }

  /** The claims `jwt.sign({userId, role}, secret, {expiresIn: "24h"})`
      puts in a token at time `now`. */
  function Issue(userId: string, role: string, now: int): (c: Claims)
    ensures c.userId == userId && c.role == role
    ensures c.exp.Some? && c.exp.value - now == Day
  {
    Claims(userId, role, now, Some(now + Day))
  }

  /** A token issued at `now` verifies exactly until 24 hours later, and
      carries the user id and role it was issued for. */
  lemma IssuedVerifies(keyring: Keyring, token: string, userId: string, role: string, now: int, t: int)
    ensures var k := keyring[token := Issue(userId, role, now)];
      (Verifies(k, token, t) <==> t < now + Day)
      && k[token].userId == userId && k[token].role == role
  {
  }

  /** `SELECT ... FROM users WHERE id = $1`. */
  function UserById(users: seq<User>, id: string): (r: Option<User>)
    ensures r.Some? ==> r.value in users && r.value.id == id
    ensures r.None? <==> forall u :: u in users ==> u.id != id
  {
    Lookup(users, (u: User) => u.id == id)
  }

  /** The lookup finds the first row with the id. */
  lemma FirstUserById(users: seq<User>, i: nat)
    requires i < |users| && forall j :: 0 <= j < i ==> users[j].id != users[i].id
    ensures UserById(users, users[i].id) == Some(users[i])
  {
    var f := First(users, (u: User) => u.id == users[i].id);
    assert f.Some? && f.value == i;
  }

  /** `SELECT ... FROM users WHERE email = $1`. */
  function UserByEmail(users: seq<User>, email: string): (r: Option<User>)
    ensures r.Some? ==> r.value in users && r.value.email == email
    ensures r.None? <==> forall u :: u in users ==> u.email != email
  {
    Lookup(users, (u: User) => u.email == email)
  }

  /** No two users share an email (what `register` keeps). */
  predicate UniqueEmails(users: seq<User>) {
    forall i, j :: 0 <= i < j < |users| ==> users[i].email != users[j].email
  }

  /** A live guest session: `session_id = $1 AND expires_at > NOW()`. */
  predicate LiveSession(s: GuestSession, sessionId: string, now: int) {
    s.sessionId == sessionId && s.expiresAt > now
  }

  function FindLiveSession(sessions: seq<GuestSession>, sessionId: string, now: int): (r: Option<GuestSession>)
    ensures r.Some? ==> r.value in sessions && LiveSession(r.value, sessionId, now)
    ensures r.None? <==> forall s :: s in sessions ==> !LiveSession(s, sessionId, now)
  {
    Lookup(sessions, (s: GuestSession) => LiveSession(s, sessionId, now))
  }

  /** `UPDATE guest_sessions SET last_accessed_at = NOW() WHERE session_id = $1`. */
  function TouchSessions(sessions: seq<GuestSession>, sessionId: string, now: int): (r: seq<GuestSession>)
    ensures |r| == |sessions|
    ensures forall i :: 0 <= i < |r| ==>
      r[i] == (if sessions[i].sessionId == sessionId then sessions[i].(lastAccessed := Some(now)) else sessions[i])
  {
    UpdateWhere(sessions, (s: GuestSession) => s.sessionId == sessionId,
      (s: GuestSession) => s.(lastAccessed := Some(now)))
  }

  /** `UPDATE users SET last_activity = NOW() WHERE id = $1`. */
  function TouchUser(users: seq<User>, id: string, now: int): (r: seq<User>)
    ensures |r| == |users|
    ensures forall i :: 0 <= i < |r| ==>
      r[i] == (if users[i].id == id then users[i].(lastActivity := Some(now)) else users[i])
  {
    UpdateWhere(users, (u: User) => u.id == id, (u: User) => u.(lastActivity := Some(now)))
  }

  /** An `Authorization` or session header the middleware accepts as
      present: set and non-empty. */
  predicate Present(header: Option<string>) {
    header.Some? && header.value != ""
  }
}

=== FILE: auth_api.dfy ===
/** The authentication endpoints as transitions over the `users`,
    `guest_sessions` and `payments` tables. A token is described by the
    claims it is signed with; password hashes and ids come in as values
    (bcrypt salts and uuids are random), and `compare` stands for
    `bcrypt.compare`. */
module AuthApi {
  import opened Outcomes
  import opened Accounts
  import opened Tables
  import SharedMiddleware
  import AuthMiddleware

  /** A login or registration answer: the claims of the issued token and
      the user without the password hash. */
  datatype Session = Session(claims: Claims, user: SafeUser)

  /** The credentials match: the first user with the email exists and the
      password matches its hash. */
  predicate Matches(users: seq<User>, email: string, password: string, compare: (string, string) -> bool) {
    UserByEmail(users, email).Some? && compare(password, UserByEmail(users, email).value.passwordHash)
  }

  /** `login`: one error for an unknown email and for a wrong password; on
      success a 24-hour token for the row's id and role. */
  function Login(users: seq<User>, email: string, password: string,
                 compare: (string, string) -> bool, now: int): (r: Result<Session>)
    ensures r.Err? <==> !Matches(users, email, password, compare)
    ensures r.Err? ==> r.error == ApiError(InvalidArgument, "Invalid credentials")
    ensures r.Ok? ==> exists u :: u in users && u.email == email && compare(password, u.passwordHash)
                                  && r.value == Session(Issue(u.id, u.role, now), Safe(u))
  {
    match UserByEmail(users, email)
    case None => Fail(InvalidArgument, "Invalid credentials")
    case Some(u) =>
      if !compare(password, u.passwordHash) then Fail(InvalidArgument, "Invalid credentials")
      else Ok(Session(Issue(u.id, u.role, now), Safe(u)))
  }

  /** A caller cannot tell an unknown email from a wrong password: both
      give the same answer. */
  lemma LoginHidesWhichCheckFailed(a: seq<User>, b: seq<User>, emailA: string, emailB: string,
                                   passwordA: string, passwordB: string,
                                   compare: (string, string) -> bool, now: int)
    requires UserByEmail(a, emailA).None?
    requires UserByEmail(b, emailB).Some? && !compare(passwordB, UserByEmail(b, emailB).value.passwordHash)
    ensures Login(a, emailA, passwordA, compare, now) == Login(b, emailB, passwordB, compare, now)
  {
  }

  /** The row `register` inserts: role 'standard'; `is_premium` is left
      to its default, taken to be false. */
  function NewUser(id: string, name: string, email: string, passwordHash: string): User {
    User(id, name, email, passwordHash, "standard", false, None)
  }

  datatype Registered = Registered(session: Session, users: seq<User>)

  /** `register`: `AlreadyExists` for a taken email; otherwise exactly one
      row is added, with role 'standard', and a 24-hour token issued for
      it. The password's length is not checked. */
  function Register(users: seq<User>, name: string, email: string, passwordHash: string,
                    newId: string, now: int): (r: Result<Registered>)
    ensures r.Err? <==> exists u :: u in users && u.email == email
    ensures r.Err? ==> r.error == ApiError(AlreadyExists, "Email already registered")
    ensures r.Ok? ==> r.value.users == users + [NewUser(newId, name, email, passwordHash)]
    ensures r.Ok? ==> r.value.session.claims == Issue(newId, "standard", now)
    ensures r.Ok? ==> r.value.session.user == SafeUser(newId, name, email, "standard", false, None)
  {
    if UserByEmail(users, email).Some? then Fail(AlreadyExists, "Email already registered")
    else
      var u := NewUser(newId, name, email, passwordHash);
      Ok(Registered(Session(Issue(newId, "standard", now), Safe(u)), users + [u]))
  }

  /** Registration keeps emails unique. */
  lemma RegisterKeepsEmailsUnique(users: seq<User>, name: string, email: string, passwordHash: string,
                                  newId: string, now: int)
    requires UniqueEmails(users)
    requires Register(users, name, email, passwordHash, newId, now).Ok?
    ensures UniqueEmails(Register(users, name, email, passwordHash, newId, now).value.users)
  {
    var users' := Register(users, name, email, passwordHash, newId, now).value.users;
    forall i, j | 0 <= i < j < |users'| ensures users'[i].email != users'[j].email {
      if j == |users| {
        assert users[i] in users;
      }
    }
  }

  /** A registered user can log in with the password whose hash was
      stored, and gets a token for the new id with role 'standard'. */
  lemma RegisterThenLogin(users: seq<User>, name: string, email: string, password: string,
                          passwordHash: string, newId: string, now: int,
                          compare: (string, string) -> bool, later: int)
    requires compare(password, passwordHash)
    requires Register(users, name, email, passwordHash, newId, now).Ok?
    ensures var users' := Register(users, name, email, passwordHash, newId, now).value.users;
      Login(users', email, password, compare, later)
        == Ok(Session(Issue(newId, "standard", later), SafeUser(newId, name, email, "standard", false, None)))
  {
    var users' := users + [NewUser(newId, name, email, passwordHash)];
    forall j | 0 <= j < |users| ensures users'[j].email != email {
      assert users'[j] == users[j] && users[j] in users;
    }
    assert users'[|users|].email == email;
    var f := First(users', (u: User) => u.email == email);
    assert f.Some? && f.value == |users|;
  }

  // ------------------------------------------------------ guest sessions

  /** `createGuestSession`: one row whose session expires 24 hours after
      creation; the client gets its session id. */
  function CreateGuestSession(sessions: seq<GuestSession>, rowId: string, sessionId: string, now: int)
    : (r: (string, seq<GuestSession>))
    ensures r.0 == sessionId
    ensures r.1 == sessions + [GuestSession(rowId, sessionId, now + Day, None)]
  {
    (sessionId, sessions + [GuestSession(rowId, sessionId, now + Day, None)])
  }

  /** A fresh session id opens guest access for exactly 24 hours; the
      shared middleware attaches the session id, the service's own the row
      id. */
  lemma GuestSessionLifetime(sessions: seq<GuestSession>, rowId: string, sessionId: string,
                             now: int, t: int, w: bool)
    requires sessionId != ""
    requires forall s :: s in sessions ==> s.sessionId != sessionId
    ensures var sessions' := CreateGuestSession(sessions, rowId, sessionId, now).1;
      (SharedMiddleware.GuestAccess(Some(sessionId), sessions', t).Ok? <==> t < now + Day)
      && (SharedMiddleware.GuestAccess(Some(sessionId), sessions', t).Ok? ==>
            SharedMiddleware.GuestAccess(Some(sessionId), sessions', t).value == sessionId
            && AuthMiddleware.GuestAuthenticate(Some(sessionId), sessions', t, w).value.0.userId == rowId)
  {
    var sessions' := sessions + [GuestSession(rowId, sessionId, now + Day, None)];
    var row := GuestSession(rowId, sessionId, now + Day, None);
    assert row in sessions';
    if t < now + Day {
      assert LiveSession(row, sessionId, t);
      var g := FindLiveSession(sessions', sessionId, t);
      assert g.Some? && g.value == row;
    }
  }

  // -------------------------------------------------------------- logout

  /** The state an authentication endpoint can touch. */
  datatype AuthState = AuthState(users: seq<User>, sessions: seq<GuestSession>, registry: AuthMiddleware.Registry)

  /** `logout`: always successful, and no table or registry entry is
      touched, the token's included. */
  function Logout(st: AuthState): (r: (bool, AuthState))
    ensures r.0
    ensures r.1.users == st.users && r.1.sessions == st.sessions && r.1.registry == st.registry
  {
    (true, st)
  }

  /** Since logout forgets nothing, a token admitted before it is admitted
      after it, with the same identity. */
  lemma LogoutKeepsTokenAdmitted(st: AuthState, header: Option<string>, keyring: Keyring, now: int, w: bool)
    ensures var st' := Logout(st).1;
      AuthMiddleware.Authenticate(header, keyring, st'.users, st'.registry, now, w)
        == AuthMiddleware.Authenticate(header, keyring, st.users, st.registry, now, w)
  {
  }

  // ------------------------------------------------------------- upgrade

  /** A row of `payments`. */
  datatype Payment = Payment(
    id: string, userId: string, amount: int, currency: string,
    paymentMethod: string, status: string, featureId: string)

  datatype PaymentDetails = PaymentDetails(featureId: string, amount: int, currency: string, paymentMethod: string)

  datatype Upgrade = Upgrade(result: Result<SafeUser>, users: seq<User>, payments: seq<Payment>)

  /** The payment `upgradeUser` records. */
  function CompletedPayment(paymentId: string, userId: string, d: PaymentDetails): Payment {
    Payment(paymentId, userId, d.amount, d.currency, d.paymentMethod, "completed", d.featureId)
  }

  /** `upgradeUser` as written: the role update and a 'completed' payment
      come first, and only then is the user looked up, so an unknown id
      fails `NotFound` after the payment has been recorded. */
  function UpgradeUser(users: seq<User>, payments: seq<Payment>, userId: string,
                       d: PaymentDetails, paymentId: string): (r: Upgrade)
    ensures |r.users| == |users|
    ensures forall i :: 0 <= i < |users| ==>
      r.users[i] == (if users[i].id == userId then users[i].(role := "premium") else users[i])
    ensures r.payments == payments + [CompletedPayment(paymentId, userId, d)]
    ensures r.result.Err? <==> forall u :: u in users ==> u.id != userId
    ensures r.result.Err? ==> r.result.error == ApiError(NotFound, "User not found")
    ensures r.result.Ok? ==> exists u :: u in users && u.id == userId
                                         && r.result.value == Safe(u.(role := "premium"))
  {
    var users' := UpdateWhere(users, (u: User) => u.id == userId, (u: User) => u.(role := "premium"));
    var payments' := payments + [CompletedPayment(paymentId, userId, d)];
    LookupAfterUpdate(users, (u: User) => u.id == userId, (u: User) => u.id == userId, (u: User) => u.(role := "premium"));
    match UserById(users', userId)
    case None => Upgrade(Fail(NotFound, "User not found"), users', payments')
    case Some(u) => Upgrade(Ok(Safe(u)), users', payments')
  }

  /** The discrepancy: upgrading an id no user has fails, yet a completed
      payment for that id is left behind. */
  lemma UpgradeUnknownUserRecordsPayment(users: seq<User>, payments: seq<Payment>, userId: string,
                                         d: PaymentDetails, paymentId: string)
    requires forall u :: u in users ==> u.id != userId
    ensures var r := UpgradeUser(users, payments, userId, d, paymentId);
      r.result.FailsWith(NotFound) && |r.payments| == |payments| + 1
      && r.payments[|payments|].status == "completed" && r.payments[|payments|].userId == userId
  {
  }

  /** `upgradeUser` with the existence check first: an unknown id fails
      `NotFound` and changes no table. */
  function UpgradeUserChecked(users: seq<User>, payments: seq<Payment>, userId: string,
                              d: PaymentDetails, paymentId: string): (r: Upgrade)
    ensures r.result.Err? <==> forall u :: u in users ==> u.id != userId
    ensures r.result.Err? ==> r.result.error == ApiError(NotFound, "User not found")
                              && r.users == users && r.payments == payments
    ensures r.result.Ok? ==> r == UpgradeUser(users, payments, userId, d, paymentId)
  {
    if UserById(users, userId).None? then Upgrade(Fail(NotFound, "User not found"), users, payments)
    else UpgradeUser(users, payments, userId, d, paymentId)
  }

  /** Upgrading sets the role, which no gate reads: the premium gate looks
      at `is_premium`, so an upgraded user is gated exactly as before. */
  lemma UpgradeLeavesPremiumGate(users: seq<User>, payments: seq<Payment>, userId: string,
                                 d: PaymentDetails, paymentId: string, auth: Option<SharedMiddleware.AuthData>)
    ensures SharedMiddleware.PremiumGate(auth, UpgradeUser(users, payments, userId, d, paymentId).users)
            == SharedMiddleware.PremiumGate(auth, users)
  {
    if auth.Some? && auth.value.userId != "" {
      LookupAfterUpdate(users, (u: User) => u.id == auth.value.userId, (u: User) => u.id == userId,
        (u: User) => u.(role := "premium"));
    }
  }
}

=== FILE: auth_middleware.dfy ===
/** The authentication service's own middleware and its process-local
    registry of seen tokens. The registry is keyed by the user id and the
    last eight characters of the token; a token is entered the first time
    it authenticates and removed by `invalidateToken`. */
module AuthMiddleware {
  import opened Outcomes
  import opened Text
  import opened Accounts
  import SharedMiddleware

  /** A registry entry: the user and the expiry in milliseconds. */
  datatype Entry = Entry(userId: string, expMillis: int)

  type Registry = map<string, Entry>

  /** The registry key of a token: `${userId}:${token.substr(-8)}`. */
  function TokenKey(userId: string, token: string): (k: string)
    ensures |k| == |userId| + 1 + (if |token| < 8 then |token| else 8)
    ensures k[..|userId|] == userId && k[|userId|] == ':'
  {
    userId + ":" + LastChars(token, 8)
  }

  /** Two tokens of one user share a key exactly when they end in the same
      eight characters (or are equal when shorter). */
  lemma TokenKeyIff(userId: string, a: string, b: string)
    ensures TokenKey(userId, a) == TokenKey(userId, b) <==> LastChars(a, 8) == LastChars(b, 8)
  {
    if TokenKey(userId, a) == TokenKey(userId, b) {
      assert LastChars(a, 8) == TokenKey(userId, a)[|userId| + 1..];
    }
  }

  /** `verifyUser`: no lookup at all for an empty id. */
  function VerifyUser(users: seq<User>, userId: string): (r: Option<User>)
    ensures userId == "" ==> r.None?
    ensures r.Some? ==> r.value in users && r.value.id == userId
    ensures userId != "" ==> (r.None? <==> forall u :: u in users ==> u.id != userId)
  {
    if userId == "" then None else UserById(users, userId)
  }

  /** The registry update: an entry is added only under a key that is
      absent and only when the token has a non-zero `exp`; an existing
      entry is never overwritten. */
  function Enter(registry: Registry, key: string, userId: string, exp: Option<int>): (r: Registry)
    ensures forall k :: k in registry ==> k in r && r[k] == registry[k]
    ensures r.Keys == (if key !in registry && exp.Some? && exp.value != 0 then registry.Keys + {key} else registry.Keys)
    ensures key in r && key !in registry ==> r[key] == Entry(userId, exp.value * 1000)
  {
    if key !in registry && exp.Some? && exp.value != 0 then registry[key := Entry(userId, exp.value * 1000)]
    else registry
  }

  /** Entering the same token twice is entering it once. */
  lemma EnterIdempotent(registry: Registry, key: string, userId: string, exp: Option<int>)
    ensures Enter(Enter(registry, key, userId, exp), key, userId, exp) == Enter(registry, key, userId, exp)
  {
  }

  /** The token verifies and `verifyUser` finds the user it names. */
  predicate Admits(header: string, keyring: Keyring, users: seq<User>, now: int) {
    var token := SharedMiddleware.TokenOf(header);
    Verifies(keyring, token, now) && VerifyUser(users, keyring[token].userId).Some?
  }

  /** What the middleware attaches: the row's id and role, and the token's
      issue and expiry times. */
  datatype AuthInfo = AuthInfo(userId: string, role: string, iat: Option<int>, exp: Option<int>)

  /** An admitted request: the identity and the updated state. */
  datatype Admitted = Admitted(auth: AuthInfo, registry: Registry, users: seq<User>)

  /** `authMiddleware`. `activityWritten` is whether the `last_activity`
      update succeeded; its failure is logged and swallowed. Every failure
      after the header check is reported with one message, and a failed
      request changes nothing. */
  function Authenticate(header: Option<string>, keyring: Keyring, users: seq<User>, registry: Registry,
                        now: int, activityWritten: bool): (r: Result<Admitted>)
    ensures !Present(header) ==> r == Fail(Unauthenticated, "Missing authorization header")
    ensures Present(header) && r.Err? ==> r.error == ApiError(Unauthenticated, "Invalid or expired authentication token")
    ensures r.Ok? <==> Present(header) && Admits(header.value, keyring, users, now)
    ensures r.Ok? ==>
      var token := SharedMiddleware.TokenOf(header.value);
      var c := keyring[token];
      var u := VerifyUser(users, c.userId).value;
      r.value.auth == AuthInfo(u.id, u.role, Some(c.iat), c.exp)
      && r.value.registry == Enter(registry, TokenKey(c.userId, token), c.userId, c.exp)
      && r.value.users == (if activityWritten then TouchUser(users, u.id, now) else users)
  {
    if !Present(header) then Fail(Unauthenticated, "Missing authorization header")
    else
      var token := SharedMiddleware.TokenOf(header.value);
      if !Verifies(keyring, token, now) then Fail(Unauthenticated, "Invalid or expired authentication token")
      else
        var c := keyring[token];
        match VerifyUser(users, c.userId)
        case None => Fail(Unauthenticated, "Invalid or expired authentication token")
        case Some(u) =>
          var reg := Enter(registry, TokenKey(c.userId, token), c.userId, c.exp);
          Ok(Admitted(AuthInfo(u.id, u.role, Some(c.iat), c.exp), reg,
                      if activityWritten then TouchUser(users, u.id, now) else users))
  }

  /** This middleware admits what the shared one admits, except a token
      naming the empty user id, which `verifyUser` refuses without a
      lookup. */
  lemma AdmitsLikeShared(header: Option<string>, keyring: Keyring, users: seq<User>,
                         registry: Registry, now: int, w: bool)
    ensures Authenticate(header, keyring, users, registry, now, w).Ok? <==>
      SharedMiddleware.Authenticate(header, keyring, users, now).Ok?
      && keyring[SharedMiddleware.TokenOf(header.value)].userId != ""
  {
  }

  /** Whether the activity update fails does not change who is admitted
      or the registry. */
  lemma ActivityFailureSwallowed(header: Option<string>, keyring: Keyring, users: seq<User>,
                                 registry: Registry, now: int)
    ensures var a := Authenticate(header, keyring, users, registry, now, true);
      var b := Authenticate(header, keyring, users, registry, now, false);
      a.Ok? == b.Ok? && (a.Ok? ==> a.value.auth == b.value.auth && a.value.registry == b.value.registry)
  {
  }

  /** `guestMiddleware` of the authentication service: the identity it
      attaches is the session row's own id with the role "guest". */
  function GuestAuthenticate(header: Option<string>, sessions: seq<GuestSession>, now: int,
                             accessWritten: bool): (r: Result<(AuthInfo, seq<GuestSession>)>)
    ensures !Present(header) ==> r == Fail(Unauthenticated, "Missing guest session header")
    ensures Present(header) && r.Err? ==> r.error == ApiError(Unauthenticated, "Invalid or expired guest session")
    ensures r.Ok? <==> Present(header) && exists s :: s in sessions && LiveSession(s, header.value, now)
    ensures r.Ok? ==> exists s :: s in sessions && LiveSession(s, header.value, now)
                                  && r.value.0 == AuthInfo(s.id, "guest", None, None)
    ensures r.Ok? ==> r.value.1 == (if accessWritten then TouchSessions(sessions, header.value, now) else sessions)
  {
    if !Present(header) then Fail(Unauthenticated, "Missing guest session header")
    else
      match FindLiveSession(sessions, header.value, now)
      case None => Fail(Unauthenticated, "Invalid or expired guest session")
      case Some(s) =>
        Ok((AuthInfo(s.id, "guest", None, None),
            if accessWritten then TouchSessions(sessions, header.value, now) else sessions))
  }

  /** The two guest middlewares admit the same requests but attach
      different ids: the shared one the client's session id, this one the
      row id. */
  lemma GuestMiddlewaresAgreeOnAccess(header: Option<string>, sessions: seq<GuestSession>, now: int, w: bool)
    ensures GuestAuthenticate(header, sessions, now, w).Ok? == SharedMiddleware.GuestAccess(header, sessions, now).Ok?
    ensures GuestAuthenticate(header, sessions, now, w).Ok? ==>
      var s := FindLiveSession(sessions, header.value, now).value;
      GuestAuthenticate(header, sessions, now, w).value.0.userId == s.id
      && SharedMiddleware.GuestAccess(header, sessions, now).value == s.sessionId
  {
  }

  /** `invalidateToken`: true, with the entry removed, exactly when the
      token verifies and its key is registered; otherwise false and the
      registry is unchanged. */
  function InvalidateToken(token: string, keyring: Keyring, registry: Registry, now: int): (r: (bool, Registry))
    ensures r.0 <==> Verifies(keyring, token, now) && TokenKey(keyring[token].userId, token) in registry
    ensures r.0 ==> r.1 == registry - {TokenKey(keyring[token].userId, token)}
    ensures !r.0 ==> r.1 == registry
  {
    if !Verifies(keyring, token, now) then (false, registry)
    else
      var key := TokenKey(keyring[token].userId, token);
      if key in registry then (true, registry - {key}) else (false, registry)
  }

  /** After an invalidation that returned true, invalidating the same
      token again returns false. */
  lemma InvalidateTwice(token: string, keyring: Keyring, registry: Registry, now: int, later: int)
    ensures var first := InvalidateToken(token, keyring, registry, now);
      first.0 ==> !InvalidateToken(token, keyring, first.1, later).0
  {
  }

  /** A token with an expiry that was admitted can be invalidated while it
      still verifies. */
  lemma AdmittedThenInvalidated(header: Option<string>, keyring: Keyring, users: seq<User>,
                                registry: Registry, now: int, w: bool, later: int)
    requires Authenticate(header, keyring, users, registry, now, w).Ok?
    requires keyring[SharedMiddleware.TokenOf(header.value)].exp.Some?
    requires keyring[SharedMiddleware.TokenOf(header.value)].exp.value != 0
    requires Verifies(keyring, SharedMiddleware.TokenOf(header.value), later)
    ensures var reg := Authenticate(header, keyring, users, registry, now, w).value.registry;
      InvalidateToken(SharedMiddleware.TokenOf(header.value), keyring, reg, later).0
  {
  }

  /** Invalidation is not revocation: the middleware never consults the
      registry before admitting, so an invalidated token is admitted again
      and re-entered. */
  lemma InvalidatedStillAdmitted(header: Option<string>, keyring: Keyring, users: seq<User>,
                                 registry: Registry, now: int, w: bool)
    requires Authenticate(header, keyring, users, registry, now, w).Ok?
    ensures var reg := InvalidateToken(SharedMiddleware.TokenOf(header.value), keyring, registry, now).1;
      Authenticate(header, keyring, users, reg, now, w).Ok?
  {
  }
}

=== FILE: billing.dfy ===
/** The billing tables the payment and premium handlers share:
    `payment_methods`, `subscriptions` and `user_premium_features`, with
    the lookups several handlers make. */
module Billing {
  import opened Outcomes
  import opened Tables
  import opened Calendar

  /** A row of `payment_methods`; `createdAt` is the insertion time in
      seconds. */
  datatype PaymentMethod = PaymentMethod(
    id: string, userId: string, kind: string, providerId: string, lastFour: string,
    expiryMonth: Option<int>, expiryYear: Option<int>, isDefault: bool, createdAt: int)

  /** A row of `subscriptions`. */
  datatype Subscription = Subscription(
    id: string, userId: string, planId: string, status: string,
    periodStart: Moment, periodEnd: Moment, cancelAtPeriodEnd: bool)

  /** A row of `user_premium_features`: a feature a user switched on. */
  datatype Activation = Activation(userId: string, featureId: string, activatedAt: int)

  predicate ActiveFor(s: Subscription, userId: string) {
    s.userId == userId && s.status == "active"
  }

  /** `SELECT ... FROM subscriptions WHERE user_id = $1 AND status = 'active'`. */
  function ActiveSubscription(subs: seq<Subscription>, userId: string): (r: Option<Subscription>)
    ensures r.Some? ==> r.value in subs && ActiveFor(r.value, userId)
    ensures r.None? <==> forall s :: s in subs ==> !ActiveFor(s, userId)
  {
    Lookup(subs, (s: Subscription) => ActiveFor(s, userId))
  }

  /** `SELECT * FROM payment_methods WHERE id = $1 AND user_id = $2`: the
      method exists and belongs to the user. */
  function OwnedMethod(methods: seq<PaymentMethod>, id: string, userId: string): (r: Option<PaymentMethod>)
    ensures r.Some? ==> r.value in methods && r.value.id == id && r.value.userId == userId
    ensures r.None? <==> forall m :: m in methods ==> !(m.id == id && m.userId == userId)
  {
    Lookup(methods, (m: PaymentMethod) => m.id == id && m.userId == userId)
  }
}

=== FILE: calendar.dfy ===
/** Civil dates of the proleptic Gregorian calendar and the month step of
    JavaScript's `Date.prototype.setMonth(getMonth() + 1)`: the day of the
    month is kept, and a day the next month lacks overflows into the month
    after it. Months are numbered 0 to 11, as in JavaScript. */
module Calendar {

  datatype CivilDate = CivilDate(year: int, month: int, day: int)

  /** A moment: a date and the seconds elapsed since its midnight. */
  datatype Moment = Moment(date: CivilDate, seconds: nat)

  predicate Leap(year: int) {
    year % 4 == 0 && (year % 100 != 0 || year % 400 == 0)
  }

  function DaysIn(year: int, month: int): (n: int)
    requires 0 <= month < 12
    ensures 28 <= n <= 31
  {
    if month == 1 then (if Leap(year) then 29 else 28)
    else if month == 3 || month == 5 || month == 8 || month == 10 then 30
    else 31
  }

  predicate Valid(d: CivilDate) {
    0 <= d.month < 12 && 1 <= d.day <= DaysIn(d.year, d.month)
  }

  /** The days of the months of `year` before `month`. */
  function DaysBeforeMonth(year: int, month: int): nat
    requires 0 <= month <= 12
  {
    if month == 0 then 0 else DaysBeforeMonth(year, month - 1) + DaysIn(year, month - 1)
  }

  /** The day number of 1 January of `year`, counted from 1 January 1970. */
  function YearStart(year: int): int
    decreases if year >= 1970 then year - 1970 else 1970 - year
  {
    if year == 1970 then 0
    else if year > 1970 then YearStart(year - 1) + DaysBeforeMonth(year - 1, 12)
    else YearStart(year + 1) - DaysBeforeMonth(year, 12)
  }

  /** The day number of a date, counted from 1 January 1970. */
  function Ordinal(d: CivilDate): int
    requires 0 <= d.month < 12
  {
    YearStart(d.year) + DaysBeforeMonth(d.year, d.month) + d.day - 1
  }

  /** The month after `month` of `year`, as (year, month). */
  function NextMonth(year: int, month: int): (r: (int, int))
    requires 0 <= month < 12
    ensures 0 <= r.1 < 12
    ensures r == (if month == 11 then (year + 1, 0) else (year, month + 1))
  {
    if month == 11 then (year + 1, 0) else (year, month + 1)
  }

  /** `setMonth(getMonth() + 1)` on a date. */
  function AddMonth(d: CivilDate): (r: CivilDate)
    requires Valid(d)
    ensures Valid(r)
    ensures var (y, m) := NextMonth(d.year, d.month);
      d.day <= DaysIn(y, m) ==> r == CivilDate(y, m, d.day)
    ensures var (y, m) := NextMonth(d.year, d.month);
      d.day > DaysIn(y, m) ==> r == CivilDate(NextMonth(y, m).0, NextMonth(y, m).1, d.day - DaysIn(y, m))
  {
    var (y, m) := NextMonth(d.year, d.month);
    if d.day <= DaysIn(y, m) then CivilDate(y, m, d.day)
    else
      var (y2, m2) := NextMonth(y, m);
      CivilDate(y2, m2, d.day - DaysIn(y, m))
  }

  /** The month step moves a date forward by exactly the length of its
      month, whether or not the day overflows. */
  lemma AddMonthLength(d: CivilDate)
    requires Valid(d)
    ensures Ordinal(AddMonth(d)) == Ordinal(d) + DaysIn(d.year, d.month)
  {
    var (y, m) := NextMonth(d.year, d.month);
    if d.month == 11 {
      assert YearStart(d.year + 1) == YearStart(d.year) + DaysBeforeMonth(d.year, 12);
    } else if d.day > DaysIn(y, m) {
      assert d.month < 10;
      assert DaysBeforeMonth(y, m + 1) == DaysBeforeMonth(d.year, d.month) + DaysIn(y, d.month) + DaysIn(y, m);
    }
  }

  /** The overflow: one month after 31 January 2023 is 3 March, and in
      the leap year 2024 it is 2 March. */
  lemma EndOfJanuary()
    ensures AddMonth(CivilDate(2023, 0, 31)) == CivilDate(2023, 2, 3)
    ensures AddMonth(CivilDate(2024, 0, 31)) == CivilDate(2024, 2, 2)
  {
  }

  /** The month step on a moment keeps the time of day. */
  function AddMonthAt(t: Moment): (r: Moment)
    requires Valid(t.date)
    ensures r.seconds == t.seconds && Valid(r.date)
    ensures Ordinal(r.date) == Ordinal(t.date) + DaysIn(t.date.year, t.date.month)
  {
    AddMonthLength(t.date);
    Moment(AddMonth(t.date), t.seconds)
  }
}

=== FILE: classify.dfy ===
/** Classification of a facility from its lower-cased category name. The
    import endpoint and the import command share one keyword table; the
    stand-alone import script uses shorter word stems. In every variant the
    classes are tried in the order recycling, donation, trash, and a
    category mentioning none of them is mixed. */
module Classify {
  import opened Text
  import opened FacilityJson

  /** The keywords of the import endpoint and the import command. */
  function StrictWords(t: FacilityType): seq<string> {
    match t
    case Recycling => ["recycling"]
    case Donation => ["donation", "charity", "thrift"]
    case Trash => ["waste", "trash", "disposal"]
    case Mixed => []
  }

  /** The word stems of the import script. */
  function LooseWords(t: FacilityType): seq<string> {
    match t
    case Recycling => ["recycl"]
    case Donation => ["donat", "charity", "thrift"]
    case Trash => ["waste", "trash", "dispos"]
    case Mixed => []
  }

  /** `determineFacilityType` of the import endpoint and the import command:
      the first class in priority order whose keywords the category
      mentions, mixed when there is none. */
  function StrictType(category: string): (r: FacilityType)
    ensures r != Mixed ==> Mentions(category, StrictWords(r))
    ensures forall t :: Rank(t) < Rank(r) ==> !Mentions(category, StrictWords(t))
  {
    MentionsOne(category, "recycling");
    MentionsThree(category, "donation", "charity", "thrift");
    MentionsThree(category, "waste", "trash", "disposal");
    assert Mentions(category, StrictWords(Mixed)) == false;
    if Contains(category, "recycling") then Recycling
    else if Contains(category, "donation") || Contains(category, "charity")
         || Contains(category, "thrift") then Donation
    else if Contains(category, "waste") || Contains(category, "trash")
         || Contains(category, "disposal") then Trash
    else Mixed
  }

  /** `determineType` of the import script, with the same shape over the
      word stems. */
  function LooseType(category: string): (r: FacilityType)
    ensures r != Mixed ==> Mentions(category, LooseWords(r))
    ensures forall t :: Rank(t) < Rank(r) ==> !Mentions(category, LooseWords(t))
  {
    MentionsOne(category, "recycl");
    MentionsThree(category, "donat", "charity", "thrift");
    MentionsThree(category, "waste", "trash", "dispos");
    assert Mentions(category, LooseWords(Mixed)) == false;
    if Contains(category, "recycl") then Recycling
    else if Contains(category, "donat") || Contains(category, "charity")
         || Contains(category, "thrift") then Donation
    else if Contains(category, "waste") || Contains(category, "trash")
         || Contains(category, "dispos") then Trash
    else Mixed
  }

  lemma MentionsOne(c: string, a: string)
    ensures Mentions(c, [a]) <==> Contains(c, a)
  {
    if Contains(c, a) {
      assert [a][0] == a;
    }
  }

  lemma MentionsThree(c: string, a: string, b: string, d: string)
    ensures Mentions(c, [a, b, d]) <==> Contains(c, a) || Contains(c, b) || Contains(c, d)
  {
    var ws := [a, b, d];
    if Contains(c, a) {
      assert Contains(c, ws[0]);
    } else if Contains(c, b) {
      assert Contains(c, ws[1]);
    } else if Contains(c, d) {
      assert Contains(c, ws[2]);
    }
  }

  /** The two ensures of a classifier pin it down: any class that is
      mentioned and beats every mentioned class is the one returned. */
  lemma ClassificationUnique(category: string, words: FacilityType -> seq<string>, r: FacilityType, r': FacilityType)
    requires words(Mixed) == []
    requires r != Mixed ==> Mentions(category, words(r))
    requires forall t :: Rank(t) < Rank(r) ==> !Mentions(category, words(t))
    requires r' != Mixed ==> Mentions(category, words(r'))
    requires forall t :: Rank(t) < Rank(r') ==> !Mentions(category, words(t))
    ensures r == r'
  {
    if Rank(r) < Rank(r') {
      assert !Mentions(category, words(r));
    } else if Rank(r') < Rank(r) {
      assert !Mentions(category, words(r'));
    }
  }

  /** A string containing `w` contains every prefix of `w`. */
  lemma ContainsPrefix(c: string, w: string, v: string)
    requires Contains(c, w) && |v| <= |w| && w[..|v|] == v
    ensures Contains(c, v)
  {
    var i :| 0 <= i <= |c| - |w| && OccursAt(c, w, i);
    assert c[i..i + |v|] == c[i..i + |w|][..|v|];
    assert OccursAt(c, v, i);
  }

  /** Every keyword starts with a stem of the same class. */
  lemma {:induction false} StemsCoverKeywords(c: string, t: FacilityType)
    requires Mentions(c, StrictWords(t))
    ensures Mentions(c, LooseWords(t))
  {
    var i :| 0 <= i < |StrictWords(t)| && Contains(c, StrictWords(t)[i]);
    var w := StrictWords(t)[i];
    var v := LooseWords(t)[i];
    assert |v| <= |w| && w[..|v|] == v;
    ContainsPrefix(c, w, v);
  }

  /** The import script never ranks a category later than the import
      endpoint does: whatever class the endpoint finds, the script finds
      it or an earlier one. */
  lemma LooseNeverLater(category: string)
    ensures Rank(LooseType(category)) <= Rank(StrictType(category))
  {
    var t := StrictType(category);
    if t != Mixed {
      StemsCoverKeywords(category, t);
    }
  }

  /** The two tables do differ: the category "recycle" is recycling for the
      import script and mixed for the import endpoint. */
  lemma StemsDiffer()
    ensures LooseType("recycle") == Recycling
    ensures StrictType("recycle") == Mixed
  {
    var c := "recycle";
    assert OccursAt(c, "recycl", 0);
    forall w | w in ["charity", "thrift", "waste", "trash"] ensures !Contains(c, w) {
      forall i | 0 <= i <= |c| - |w| ensures !OccursAt(c, w, i) {
        assert c[i] != w[0];
      }
    }
  }
}

=== FILE: clock_time.dfy ===
/** `convertToTime` of the JSON import: a scraped opening-hours reading
    such as "7 AM" becomes the SQL time "07:00:00". All digits of the
    reading form the hour and "PM" anywhere moves it to the afternoon. */
module ClockTime {
  import opened Outcomes
  import opened Text
  import opened TextFacts
  /** Whether the (trimmed, upper-cased) time string names the afternoon. */
  predicate IsPM(timeStr: string) {
    Contains(ToUpper(Trim(timeStr)), "PM")
  }

  /** The hour `convertToTime` computes, `None` standing for `NaN`: the
      integer spelled by all digits of the string, moved to the afternoon
      when "PM" appears and the hour is below 12, and 12 without "PM" read
      as midnight. */
  function HourOf(timeStr: string): (h: Option<nat>)
    ensures KeepDigits(Trim(timeStr)) == [] <==> h.None?
  {
    var digits := KeepDigits(Trim(timeStr));
    if digits == [] then None
    else
      var hour := ParseDigits(digits);
      if IsPM(timeStr) && hour < 12 then Some(hour + 12)
      else if !IsPM(timeStr) && hour == 12 then Some(0)
      else Some(hour)
  }

  /** `convertToTime`: "HH:00:00" with the hour zero-padded to two places
      and no further leading zero. With no digit at all, `parseInt` yields
      NaN, which prints as "NaN"; no exception is raised, so the "09:00:00"
      fallback is never reached. */
  function ConvertToTime(timeStr: string): (r: string)
    ensures |r| >= 8 && r[|r| - 6..] == ":00:00"
    ensures HourOf(timeStr).None? ==> r == "NaN:00:00"
    ensures HourOf(timeStr).Some? ==>
      var field := r[..|r| - 6];
      |field| >= 2 && AllDigits(field) && ParseDigits(field) == HourOf(timeStr).value
      && (|field| == 2 || field[0] != '0')
  {
    match HourOf(timeStr)
    case None => "NaN:00:00"
    case Some(h) =>
      var field := PadStart(NatToString(h), 2, '0');
      PadParse(NatToString(h));
      ParseNatToString(h);
      NatToStringIff(h, NatToString(h));
      assert (field + ":00:00")[..|field|] == field;
      field + ":00:00"
  }

  /** The 24-hour hour of a 12-hour clock reading, `1 <= h <= 12`. */
  function TwentyFourHour(h: nat, pm: bool): nat
    requires 1 <= h <= 12
  {
    (if h == 12 then 0 else h) + (if pm then 12 else 0)
  }

  /** On a well-formed reading such as "7 AM" or "12 PM", `convertToTime`
      agrees with the 12-hour to 24-hour clock conversion: "12 AM" is
      "00:00:00", "12 PM" is "12:00:00" and "4 PM" is "16:00:00". */
  lemma ClockReading(h: nat, pm: bool)
    requires 1 <= h <= 12
    ensures ConvertToTime(NatToString(h) + (if pm then " PM" else " AM"))
         == PadStart(NatToString(TwentyFourHour(h, pm)), 2, '0') + ":00:00"
  {
    var digits := NatToString(h);
    var suffix := if pm then " PM" else " AM";
    SuffixShape(pm);
    ReadingHour(digits, suffix);
    ParseNatToString(h);
    SuffixMarksAfternoon(digits, pm);
    assert HourOf(digits + suffix) == Some(TwentyFourHour(h, pm));
    ConvertOfHour(digits + suffix, TwentyFourHour(h, pm));
  }

  lemma SuffixShape(pm: bool)
    ensures var suffix := if pm then " PM" else " AM";
      suffix != [] && !IsJsWhitespace(suffix[|suffix| - 1])
      && (forall i :: 0 <= i < |suffix| ==> !IsDigit(suffix[i]))
      && (forall i :: 0 <= i < |suffix| ==> !IsLower(suffix[i]))
  {
  }

  lemma ConvertOfHour(s: string, h: nat)
    requires HourOf(s) == Some(h)
    ensures ConvertToTime(s) == PadStart(NatToString(h), 2, '0') + ":00:00"
  {
  }

  /** The hour read from a numeral followed by a digit-free suffix is the
      numeral's value, adjusted for "PM". */
  lemma ReadingHour(digits: string, suffix: string)
    requires digits != [] && AllDigits(digits)
    requires suffix != [] && !IsJsWhitespace(suffix[|suffix| - 1])
    requires forall i :: 0 <= i < |suffix| ==> !IsDigit(suffix[i])
    ensures HourOf(digits + suffix) ==
      var hour := ParseDigits(digits);
      var pm := IsPM(digits + suffix);
      Some(if pm && hour < 12 then hour + 12 else if !pm && hour == 12 then 0 else hour)
  {
    TrimReading(digits, suffix);
    DigitsOfReading(digits, suffix);
    HourOfDigits(digits + suffix, digits);
  }

  lemma HourOfDigits(s: string, digits: string)
    requires KeepDigits(Trim(s)) == digits && digits != []
    ensures HourOf(s) ==
      var hour := ParseDigits(digits);
      var pm := IsPM(s);
      Some(if pm && hour < 12 then hour + 12 else if !pm && hour == 12 then 0 else hour)
  {
  }

  /** A numeral followed by " PM" names the afternoon, one followed by
      " AM" does not. */
  lemma SuffixMarksAfternoon(digits: string, pm: bool)
    requires digits != [] && AllDigits(digits)
    ensures IsPM(digits + (if pm then " PM" else " AM")) == pm
  {
    var suffix := if pm then " PM" else " AM";
    SuffixShape(pm);
    var s := digits + suffix;
    assert IsDigit(digits[0]) && s[0] == digits[0];
    assert s[|s| - 1] == suffix[|suffix| - 1];
    NoTrim(s);
    assert forall i :: 0 <= i < |digits| ==> !IsLower(digits[i]) && digits[i] != 'P';
    NoLowerAppend(digits, suffix);
    UpperFixed(s);
    MarkerOf(s);
    if pm {
      PmMarked(digits);
    } else {
      AmUnmarked(digits);
    }
  }

  /** As written, the minutes of a reading are not dropped but read as
      further digits of the hour: "H:MM AM" and "H:MM PM" both give the
      hour H * 100 + MM, with no afternoon adjustment since that hour is at
      least 100; "7:30 AM" becomes "730:00:00". */
  lemma MinutesJoinHour(h: nat, mm: string, pm: bool)
    requires 1 <= h <= 12 && |mm| == 2 && AllDigits(mm)
    ensures ConvertToTime(NatToString(h) + ":" + mm + (if pm then " PM" else " AM"))
         == NatToString(h * 100 + ParseDigits(mm)) + ":00:00"
  {
    var digits := NatToString(h);
    var s := digits + ":" + mm + (if pm then " PM" else " AM");
    assert ParseDigits(digits + mm) == h * 100 + ParseDigits(mm) by {
      ParseNatToString(h);
      ParseTwoMore(digits, mm);
    }
    MinutesReadingDigits(digits, mm, pm);
    LongHour(s, digits + mm);
  }

  /** An hour of three digits or more is printed as it is, with no
      afternoon or midnight adjustment. */
  lemma LongHour(s: string, digits: string)
    requires KeepDigits(Trim(s)) == digits && digits != [] && ParseDigits(digits) >= 100
    ensures ConvertToTime(s) == NatToString(ParseDigits(digits)) + ":00:00"
  {
    HourOfDigits(s, digits);
    ConvertOfHour(s, ParseDigits(digits));
    LongNumeral(ParseDigits(digits));
  }

  lemma MinutesReadingDigits(digits: string, mm: string, pm: bool)
    requires digits != [] && AllDigits(digits) && AllDigits(mm)
    ensures var s := digits + ":" + mm + (if pm then " PM" else " AM");
      KeepDigits(Trim(s)) == digits + mm
  {
    var suffix := if pm then " PM" else " AM";
    SuffixShape(pm);
    var s := digits + ":" + mm + suffix;
    FirstLastOfReading(digits, mm, suffix);
    NoTrim(s);
    MinutesDigitsKept(digits, mm, suffix);
  }

  lemma MarkerOf(s: string)
    requires Trim(s) == s && ToUpper(s) == s
    ensures IsPM(s) == Contains(s, "PM")
  {
  }

}

=== FILE: direct_test.dfy ===
/** The direct connection test: the connection string it reports is masked
    with `replace(/:[^:@]*@/, ":***@")`, which rewrites the leftmost colon
    that is followed by an at-sign with no colon or at-sign in between. */
module ConnectionMask {
  import opened Outcomes

  /** `s[i..j + 1]` matches `/:[^:@]*@/`. */
  predicate MatchAt(s: string, i: int, j: int) {
    0 <= i < j < |s| && s[i] == ':' && s[j] == '@'
    && forall k :: i < k < j ==> s[k] != ':' && s[k] != '@'
  }

  /** Some match starts at `i`. */
  predicate MatchesAt(s: string, i: int) {
    exists j :: 0 <= j < |s| && MatchAt(s, i, j)
  }

  /** The match at `i` through `j` is the one a regex search finds first:
      none starts further left. */
  predicate Leftmost(s: string, i: int, j: int) {
    MatchAt(s, i, j) && forall k :: 0 <= k < i ==> !MatchesAt(s, k)
  }

  predicate NoMatch(s: string) {
    forall k :: 0 <= k < |s| ==> !MatchesAt(s, k)
  }

  /** The end of the match starting at the colon `s[i]`, scanning from `k`:
      the first colon or at-sign after it decides. */
  function MatchEnd(s: string, i: nat, k: nat): (r: Option<nat>)
    requires i < k <= |s| && s[i] == ':'
    requires forall m :: i < m < k ==> s[m] != ':' && s[m] != '@'
    decreases |s| - k
    ensures r.Some? ==> MatchAt(s, i, r.value)
    ensures r.None? ==> !MatchesAt(s, i)
  {
    if k == |s| then None
    else if s[k] == '@' then Some(k)
    else if s[k] == ':' then None
    else MatchEnd(s, i, k + 1)
  }

  /** The leftmost match starting at or after `i`. */
  function FindMatch(s: string, i: nat): (r: Option<(nat, nat)>)
    requires i <= |s|
    decreases |s| - i
    ensures r.Some? ==> i <= r.value.0 && MatchAt(s, r.value.0, r.value.1)
    ensures r.Some? ==> forall k :: i <= k < r.value.0 ==> !MatchesAt(s, k)
    ensures r.None? ==> forall k :: i <= k < |s| ==> !MatchesAt(s, k)
  {
    if i == |s| then None
    else if s[i] == ':' && MatchEnd(s, i, i + 1).Some? then Some((i, MatchEnd(s, i, i + 1).value))
    else FindMatch(s, i + 1)
  }

  /** The masked connection string: the leftmost match is replaced by
      ":***@" and everything around it is kept; without a match the string
      is returned unchanged. */
  function Mask(s: string): (r: string)
    ensures NoMatch(s) ==> r == s
    ensures forall i, j :: Leftmost(s, i, j) ==> r == s[..i] + ":***@" + s[j + 1..]
  {
    match FindMatch(s, 0)
    case None =>
      forall i, j | Leftmost(s, i, j) ensures false {
        assert MatchesAt(s, i);
      }
      s
    case Some((i, j)) =>
      assert MatchesAt(s, i);
      forall i', j' | Leftmost(s, i', j') ensures i' == i && j' == j {
        assert MatchesAt(s, i');
        MatchUnique(s, i, j, j');
      }
      s[..i] + ":***@" + s[j + 1..]
  }

  /** A colon starts at most one match: the first colon or at-sign after
      it ends it. */
  lemma MatchUnique(s: string, i: int, j: int, j': int)
    requires MatchAt(s, i, j) && MatchAt(s, i, j')
    ensures j == j'
  {
  }

  /** Every string has a leftmost match or none at all. */
  lemma LeftmostOrNone(s: string)
    ensures NoMatch(s) || exists i, j :: Leftmost(s, i, j)
  {
    var f := FindMatch(s, 0);
    if f.Some? {
      assert Leftmost(s, f.value.0, f.value.1);
    }
  }
}

/** Facts about the mask, kept apart from its definition. */
module ConnectionMaskFacts {
  import opened Outcomes
  import opened ConnectionMask

  /** Masking twice is masking once: the first match of a masked string is
      the ":***@" it already holds. */
  lemma MaskIdempotent(s: string)
    ensures Mask(Mask(s)) == Mask(s)
  {
    LeftmostOrNone(s);
    if !NoMatch(s) {
      var i, j :| Leftmost(s, i, j);
      var r := Mask(s);
      MaskedShape(s, i, j);
      PrefixKeepsNoMatch(s, r, i);
      assert Leftmost(r, i, i + 4);
      assert r[..i] + ":***@" + r[i + 5..] == r;
    }
  }

  /** The masked string holds ":***@" where the match began. */
  lemma MaskedShape(s: string, i: int, j: int)
    requires Leftmost(s, i, j)
    ensures var r := Mask(s);
      i + 5 <= |r| && r[..i] == s[..i] && r[i..i + 5] == ":***@" && MatchAt(r, i, i + 4)
  {
    var r := s[..i] + ":***@" + s[j + 1..];
    assert Mask(s) == r;
    assert r[..i] == s[..i];
    assert r[i..i + 5] == ":***@";
  }

  /** Two strings that agree before a colon at `i` have the same matches
      starting before `i`: each one ends before that colon. */
  lemma PrefixKeepsNoMatch(s: string, r: string, i: int)
    requires 0 <= i < |s| && i < |r| && s[..i] == r[..i] && s[i] == ':' && r[i] == ':'
    requires forall k :: 0 <= k < i ==> !MatchesAt(s, k)
    ensures forall k :: 0 <= k < i ==> !MatchesAt(r, k)
  {
    forall k | 0 <= k < i ensures !MatchesAt(r, k) {
      if MatchesAt(r, k) {
        var e :| 0 <= e < |r| && MatchAt(r, k, e);
        if e < i {
          assert s[k] == r[..i][k] && s[e] == r[..i][e];
          forall m | k < m < e ensures s[m] != ':' && s[m] != '@' {
            assert s[m] == r[..i][m];
          }
          assert MatchAt(s, k, e);
          assert MatchesAt(s, k);
        }
      }
    }
  }

  /** Only the first match is rewritten: a second password-like run after
      it is left in place. */
  lemma OnlyFirstMasked()
    ensures Mask("a:b@c:d@") == "a:***@c:d@"
  {
    var s := "a:b@c:d@";
    assert !MatchesAt(s, 0);
    assert MatchAt(s, 1, 3);
    assert Leftmost(s, 1, 3);
  }

  /** When the text before the password's colon holds no at-sign and the
      password holds no colon or at-sign, exactly the password is replaced,
      whatever colons come before it (such as the scheme's). */
  lemma MaskPassword(user: string, password: string, rest: string)
    requires forall k :: 0 <= k < |user| ==> user[k] != '@'
    requires forall k :: 0 <= k < |password| ==> password[k] != ':' && password[k] != '@'
    ensures Mask(user + ":" + password + "@" + rest) == user + ":***@" + rest
  {
    var s := user + ":" + password + "@" + rest;
    var i := |user|;
    var j := i + 1 + |password|;
    assert s[i] == ':' && s[j] == '@';
    forall m | i < m < j ensures s[m] != ':' && s[m] != '@' {
      assert s[m] == password[m - i - 1];
    }
    assert MatchAt(s, i, j);
    forall k | 0 <= k < i ensures !MatchesAt(s, k) {
    }
    assert Leftmost(s, i, j);
    assert s[..i] == user && s[j + 1..] == rest;
  }

  /** A connection URL keeps its scheme, user, host and database and loses
      only its password. */
  lemma MaskConnectionUrl()
    ensures Mask("postgres://u:p@h/db") == "postgres://u:***@h/db"
  {
    MaskPassword("postgres://u", "p", "h/db");
    assert "postgres://u" + ":" + "p" + "@" + "h/db" == "postgres://u:p@h/db";
    assert "postgres://u" + ":***@" + "h/db" == "postgres://u:***@h/db";
  }
}

/** `directTest`: the connectivity probe, then the masked connection string
    on both outcomes of the probe; a thrown error reports no string. */
module DirectTest {
  import opened Outcomes
  import opened ConnectionMask

  datatype DirectTestResponse = DirectTestResponse(
    success: bool, message: string, connectionString: Option<string>)

  /** `probe` is the outcome of `testConnection()`: whether it connected,
      or the error it threw. */
  function DirectTest(probe: Result<bool>, connStr: string): (r: DirectTestResponse)
    ensures r.success <==> probe == Ok(true)
    ensures r.connectionString.Some? <==> probe.Ok?
    ensures r.connectionString.Some? ==> r.connectionString.value == Mask(connStr)
    ensures probe.Err? ==> r.message == "Direct database test error: " + probe.error.message
  {
    match probe
    case Err(e) => DirectTestResponse(false, "Direct database test error: " + e.message, None)
    case Ok(connected) =>
      var masked := Mask(connStr);
      if connected then DirectTestResponse(true, "Direct database connection successful", Some(masked))
      else DirectTestResponse(false, "Direct database connection test failed, but no error was thrown", Some(masked))
  }
}

=== FILE: drop_offs.dfy ===
/** The drop-off handlers: recording a drop-off with its items, listing a
    user's drop-offs and receipts, the drop-off details, and issuing a tax
    receipt for an owned drop-off. `callerId` is the authenticated user's
    id; ids and times are supplied by the caller of the model. */
module DropOffs {
  import opened Outcomes
  import opened Text
  import opened Tables
  import opened Sorting

  /** An item as the client submits it. */
  datatype ItemInput = ItemInput(itemId: string, quantity: int, condition: string, estimatedValue: int)

  /** A row of `drop_offs`; `date` is `drop_off_date`. */
  datatype DropOff = DropOff(id: string, userId: string, facilityId: string, date: int)

  /** A row of `drop_off_items`. */
  datatype DropOffItem = DropOffItem(
    id: string, dropOffId: string, itemId: string, quantity: int,
    condition: string, estimatedValue: int, carbonOffset: int)

  /** A row of `tax_receipts`. */
  datatype TaxReceipt = TaxReceipt(
    id: string, dropOffId: string, userId: string, receiptNumber: string,
    date: int, taxYear: int, totalValue: int, url: string)

  predicate ValidCondition(c: string) {
    c == "new" || c == "used" || c == "refurbished"
  }

  /** The item rows of a new drop-off, the `i`-th drawing the id
      `newId(i)`; every carbon offset starts at zero. */
  function ItemRows(inputs: seq<ItemInput>, dropOffId: string, newId: nat -> string): (r: seq<DropOffItem>)
    ensures |r| == |inputs|
    ensures forall i :: 0 <= i < |inputs| ==>
      r[i] == DropOffItem(newId(i), dropOffId, inputs[i].itemId, inputs[i].quantity,
                          inputs[i].condition, inputs[i].estimatedValue, 0)
  {
    seq(|inputs|, i requires 0 <= i < |inputs| =>
      DropOffItem(newId(i), dropOffId, inputs[i].itemId, inputs[i].quantity,
                  inputs[i].condition, inputs[i].estimatedValue, 0))
  }

  datatype Created = Created(dropOffId: string, dropOffs: seq<DropOff>, items: seq<DropOffItem>)

  /** `createDropOff`: every condition is checked before anything is
      written; then one drop-off row and one item row per submitted item.
      The drop-off date is the insertion time. */
  function CreateDropOff(dropOffs: seq<DropOff>, items: seq<DropOffItem>, callerId: string,
                         facilityId: string, inputs: seq<ItemInput>, dropOffId: string,
                         newId: nat -> string, now: int): (r: Result<Created>)
    ensures r.Err? <==> exists i :: 0 <= i < |inputs| && !ValidCondition(inputs[i].condition)
    ensures r.Err? ==> r.error == ApiError(InvalidArgument, "Invalid item condition")
    ensures r.Ok? ==> (r.value.dropOffId == dropOffId
      && r.value.dropOffs == dropOffs + [DropOff(dropOffId, callerId, facilityId, now)]
      && r.value.items == items + ItemRows(inputs, dropOffId, newId))
  {
    if exists i :: 0 <= i < |inputs| && !ValidCondition(inputs[i].condition) then
      Fail(InvalidArgument, "Invalid item condition")
    else
      Ok(Created(dropOffId, dropOffs + [DropOff(dropOffId, callerId, facilityId, now)],
                 items + ItemRows(inputs, dropOffId, newId)))
  }

  /** `ORDER BY drop_off_date DESC`. */
  function LatestDropOff(): (le: (DropOff, DropOff) -> bool)
    ensures Total(le)
  {
    (a: DropOff, b: DropOff) => a.date >= b.date
  }

  /** `getUserDropOffs`: a user may read only their own drop-offs, newest
      first. */
  function ListDropOffs(dropOffs: seq<DropOff>, callerId: string, userId: string): (r: Result<seq<DropOff>>)
    ensures r.Err? <==> callerId != userId
    ensures r.Err? ==> r.error == ApiError(PermissionDenied, "Cannot access other users' drop-offs")
    ensures r.Ok? ==> SortedBy(r.value, LatestDropOff())
    ensures r.Ok? ==> multiset(r.value) == multiset(Where(dropOffs, (d: DropOff) => d.userId == userId))
  {
    if callerId != userId then Fail(PermissionDenied, "Cannot access other users' drop-offs")
    else Ok(Sort(Where(dropOffs, (d: DropOff) => d.userId == userId), LatestDropOff()))
  }

  /** `ORDER BY receipt_date DESC`. */
  function LatestReceipt(): (le: (TaxReceipt, TaxReceipt) -> bool)
    ensures Total(le)
  {
    (a: TaxReceipt, b: TaxReceipt) => a.date >= b.date
  }

  /** `getUserTaxReceipts`: a user may read only their own receipts, newest
      first. */
  function ListReceipts(receipts: seq<TaxReceipt>, callerId: string, userId: string): (r: Result<seq<TaxReceipt>>)
    ensures r.Err? <==> callerId != userId
    ensures r.Err? ==> r.error == ApiError(PermissionDenied, "Cannot access other users' receipts")
    ensures r.Ok? ==> SortedBy(r.value, LatestReceipt())
    ensures r.Ok? ==> multiset(r.value) == multiset(Where(receipts, (t: TaxReceipt) => t.userId == userId))
  {
    if callerId != userId then Fail(PermissionDenied, "Cannot access other users' receipts")
    else Ok(Sort(Where(receipts, (t: TaxReceipt) => t.userId == userId), LatestReceipt()))
  }

  /** `getDropOffDetails`: no caller is involved, so any drop-off is
      readable by id. */
  function DropOffDetails(dropOffs: seq<DropOff>, items: seq<DropOffItem>, id: string)
    : (r: Result<(DropOff, seq<DropOffItem>)>)
    ensures r.Err? <==> forall d :: d in dropOffs ==> d.id != id
    ensures r.Err? ==> r.error == ApiError(NotFound, "Drop-off not found")
    ensures r.Ok? ==> r.value.0 in dropOffs && r.value.0.id == id
    ensures r.Ok? ==> r.value.1 == Where(items, (x: DropOffItem) => x.dropOffId == id)
  {
    match Lookup(dropOffs, (d: DropOff) => d.id == id)
    case None => Fail(NotFound, "Drop-off not found")
    case Some(d) => Ok((d, Where(items, (x: DropOffItem) => x.dropOffId == id)))
  }

  /** A drop-off created under a fresh id reads back with the caller, the
      facility and exactly the submitted items, in order. */
  lemma CreateThenDetails(dropOffs: seq<DropOff>, items: seq<DropOffItem>, callerId: string,
                          facilityId: string, inputs: seq<ItemInput>, dropOffId: string,
                          newId: nat -> string, now: int)
    requires forall d :: d in dropOffs ==> d.id != dropOffId
    requires forall x :: x in items ==> x.dropOffId != dropOffId
    requires CreateDropOff(dropOffs, items, callerId, facilityId, inputs, dropOffId, newId, now).Ok?
    ensures var c := CreateDropOff(dropOffs, items, callerId, facilityId, inputs, dropOffId, newId, now).value;
      DropOffDetails(c.dropOffs, c.items, dropOffId)
        == Ok((DropOff(dropOffId, callerId, facilityId, now), ItemRows(inputs, dropOffId, newId)))
  {
    var c := CreateDropOff(dropOffs, items, callerId, facilityId, inputs, dropOffId, newId, now).value;
    var p := (d: DropOff) => d.id == dropOffId;
    forall j | 0 <= j < |dropOffs| ensures !p(c.dropOffs[j]) {
      assert c.dropOffs[j] == dropOffs[j] && dropOffs[j] in dropOffs;
    }
    var f := First(c.dropOffs, p);
    assert p(c.dropOffs[|dropOffs|]);
    assert f.Some? && f.value == |dropOffs|;
    var q := (x: DropOffItem) => x.dropOffId == dropOffId;
    var rows := ItemRows(inputs, dropOffId, newId);
    WhereAllOrNone(items, rows, q);
  }

  /** Filtering rows none of which pass, followed by rows all of which
      pass, keeps exactly the latter. */
  lemma {:induction false} WhereAllOrNone<T(!new)>(a: seq<T>, b: seq<T>, p: T -> bool)
    requires forall x :: x in a ==> !p(x)
    requires forall i :: 0 <= i < |b| ==> p(b[i])
    ensures Where(a + b, p) == b
    decreases |b|
  {
    if b == [] {
      assert a + b == a;
      WhereNone(a, p);
    } else {
      var b' := b[..|b| - 1];
      assert a + b == (a + b') + [b[|b| - 1]];
      WhereAllOrNone(a, b', p);
      WhereSnoc(a + b', b[|b| - 1], p);
      assert b == b' + [b[|b| - 1]];
    }
  }

  /** Filtering rows none of which pass keeps nothing. */
  lemma WhereNone<T(!new)>(a: seq<T>, p: T -> bool)
    requires forall x :: x in a ==> !p(x)
    ensures Where(a, p) == []
  {
    if Where(a, p) != [] {
      assert Where(a, p)[0] in Where(a, p);
    }
  }

  // --------------------------------------------------------- tax receipt

  /** `SELECT SUM(estimated_value) ... WHERE drop_off_id = $1`: NULL over
      no rows. */
  function SumValues(items: seq<DropOffItem>): int {
    if items == [] then 0 else items[0].estimatedValue + SumValues(items[1..])
  }

  function TotalValue(items: seq<DropOffItem>, dropOffId: string): (r: Option<int>)
    ensures r.None? <==> forall x :: x in items ==> x.dropOffId != dropOffId
  {
    var rows := Where(items, (x: DropOffItem) => x.dropOffId == dropOffId);
    if rows == [] then None
    else
      assert rows[0] in rows;
      Some(SumValues(rows))
  }

  /** The receipt number: "RECEIPT-" and the time in milliseconds. */
  function ReceiptNumber(millis: nat): (r: string)
    ensures |r| > 8
    ensures r[..8] == "RECEIPT-" && Canonical(r[8..]) && ParseDigits(r[8..]) == millis
  {
    ParseNatToString(millis);
    "RECEIPT-" + NatToString(millis)
  }

  /** Two receipts issued at different milliseconds have different numbers,
      and so different storage paths. */
  lemma ReceiptNumbersDistinct(a: nat, b: nat)
    requires a != b
    ensures ReceiptNumber(a) != ReceiptNumber(b)
    ensures ReceiptNumber(a) + ".pdf" != ReceiptNumber(b) + ".pdf"
  {
    var x, y := ReceiptNumber(a) + ".pdf", ReceiptNumber(b) + ".pdf";
    assert x[..|x| - 4] == ReceiptNumber(a);
    assert y[..|y| - 4] == ReceiptNumber(b);
  }

  datatype Issued = Issued(url: string, receipts: seq<TaxReceipt>)

  /** `generateTaxReceipt`. `urlOf` is the bucket's public URL of a path;
      the PDF is a placeholder and the upload is left out. Only the
      drop-off's owner gets a receipt, and only for a non-zero total. */
  function GenerateTaxReceipt(dropOffs: seq<DropOff>, items: seq<DropOffItem>, receipts: seq<TaxReceipt>,
                              callerId: string, dropOffId: string, receiptId: string,
                              millis: nat, today: int, year: int, urlOf: string -> string): (r: Result<Issued>)
    ensures r.FailsWith(NotFound) <==> forall d :: d in dropOffs ==> !(d.id == dropOffId && d.userId == callerId)
    ensures r.FailsWith(NotFound) ==> r.error.message == "Drop-off not found or unauthorized access"
    ensures r.FailsWith(Internal) <==>
      (exists d :: d in dropOffs && d.id == dropOffId && d.userId == callerId)
      && (TotalValue(items, dropOffId).None? || TotalValue(items, dropOffId) == Some(0))
    ensures r.FailsWith(Internal) ==> r.error.message == "Failed to calculate total value"
    ensures r.Err? ==> r.FailsWith(NotFound) || r.FailsWith(Internal)
    ensures r.Ok? ==> var total := TotalValue(items, dropOffId).value;
      var url := urlOf(ReceiptNumber(millis) + ".pdf");
      r.value == Issued(url, receipts + [TaxReceipt(receiptId, dropOffId, callerId, ReceiptNumber(millis),
                                                    today, year, total, url)])
  {
    match Lookup(dropOffs, (d: DropOff) => d.id == dropOffId && d.userId == callerId)
    case None => Fail(NotFound, "Drop-off not found or unauthorized access")
    case Some(_) =>
      match TotalValue(items, dropOffId)
      case None => Fail(Internal, "Failed to calculate total value")
      case Some(total) =>
        if total == 0 then Fail(Internal, "Failed to calculate total value")
        else
          var number := ReceiptNumber(millis);
          var url := urlOf(number + ".pdf");
          Ok(Issued(url, receipts + [TaxReceipt(receiptId, dropOffId, callerId, number, today, year, total, url)]))
  }

  /** Another user's drop-off is answered exactly like a missing one. */
  lemma ReceiptHidesOthersDropOffs(dropOffs: seq<DropOff>, items: seq<DropOffItem>, receipts: seq<TaxReceipt>,
                                   callerId: string, dropOffId: string, receiptId: string,
                                   millis: nat, today: int, year: int, urlOf: string -> string)
    requires forall d :: d in dropOffs && d.id == dropOffId ==> d.userId != callerId
    ensures GenerateTaxReceipt(dropOffs, items, receipts, callerId, dropOffId, receiptId, millis, today, year, urlOf)
      == GenerateTaxReceipt([], items, receipts, callerId, dropOffId, receiptId, millis, today, year, urlOf)
  {
  }
}

=== FILE: facilities_api.dfy ===
/** The facility listing endpoints over abstract tables: enrichment of a
    facility row with its type names and accepted item names, the branch
    precedence of `listFacilities`, and the best-match search. */
module FacilitiesApi {
  import opened Outcomes
  import opened Text
  import opened FacilityJson
  import opened Tables
  import opened Sorting

  /** A row of the `facilities` table; `is_verified` may be NULL. */
  datatype FacilityRow = FacilityRow(
    id: string, name: string, description: Option<string>,
    address: string, city: string, state: string, zipCode: string,
    phone: Option<string>, website: Option<string>, email: Option<string>,
    imageUrl: Option<string>, isVerified: Option<bool>)

  /** A link table row (`facility_items`, `facility_type_mappings`): the
      facility id and the id of the linked row. */
  datatype Link = Link(facilityId: string, targetId: string)

  /** A named row (`items`, `facility_types`). */
  datatype Named = Named(id: string, name: string)

  datatype Db = Db(
    facilities: seq<FacilityRow>,
    facilityItems: seq<Link>, items: seq<Named>,
    typeMappings: seq<Link>, facilityTypes: seq<Named>)

  /** The facility object the endpoints return. */
  datatype Facility = Facility(
    row: FacilityRow, isVerified: bool,
    types: seq<string>, acceptedItems: seq<string>, rejectedItems: seq<string>)

  /** The names of the rows of `named` whose id is `id`. */
  function NamesOf(named: seq<Named>, id: string): (r: seq<string>)
    ensures forall n :: n in r <==> Named(id, n) in named
  {
    if named == [] then []
    else
      assert named == [named[0]] + named[1..];
      (if named[0].id == id then [named[0].name] else []) + NamesOf(named[1..], id)
  }

  /** `SELECT t.name FROM links l JOIN named t ON l.target = t.id WHERE
      l.facility = id`, one name per joined pair. */
  function JoinNames(links: seq<Link>, named: seq<Named>, id: string): (r: seq<string>)
    ensures forall n :: n in r <==> exists t :: Link(id, t) in links && Named(t, n) in named
  {
    if links == [] then []
    else
      assert links == [links[0]] + links[1..];
      var here := if links[0].facilityId == id then NamesOf(named, links[0].targetId) else [];
      var rest := JoinNames(links[1..], named, id);
      assert forall n :: n in here <==> links[0].facilityId == id && Named(links[0].targetId, n) in named;
      here + rest
  }

  /** `enrichFacilityData`: the row's columns, `is_verified` read as a
      boolean (NULL is false), the type names and accepted item names from
      the link tables, and no rejected items. */
  function Enrich(row: FacilityRow, db: Db): (f: Facility)
    ensures f.row == row
    ensures f.isVerified <==> row.isVerified == Some(true)
    ensures f.rejectedItems == []
    ensures forall n :: n in f.types <==>
      exists t :: Link(row.id, t) in db.typeMappings && Named(t, n) in db.facilityTypes
    ensures forall n :: n in f.acceptedItems <==>
      exists t :: Link(row.id, t) in db.facilityItems && Named(t, n) in db.items
  {
    Facility(row, row.isVerified == Some(true),
      JoinNames(db.typeMappings, db.facilityTypes, row.id),
      JoinNames(db.facilityItems, db.items, row.id),
      [])
  }

  // ------------------------------------------------------ listFacilities

  /** Which query `listFacilities` runs. */
  datatype ListMode = ByItems(itemIds: seq<string>) | ByZip(zipCode: string) | Everything

  /** A non-empty item list wins over the zip code, which wins over no
      filter at all. */
  function Mode(zipCode: Option<string>, itemIds: Option<seq<string>>): (m: ListMode)
    ensures m.ByItems? <==> itemIds.Some? && |itemIds.value| > 0
    ensures m.ByItems? ==> m.itemIds == itemIds.value
    ensures m.ByZip? <==> !(itemIds.Some? && |itemIds.value| > 0) && Truthy(zipCode)
    ensures m.ByZip? ==> m.zipCode == zipCode.value
  {
    if itemIds.Some? && |itemIds.value| > 0 then ByItems(itemIds.value)
    else if Truthy(zipCode) then ByZip(zipCode.value)
    else Everything
  }

  /** The facility accepts one of the requested items. */
  predicate AcceptsAny(db: Db, row: FacilityRow, itemIds: seq<string>) {
    exists l :: l in db.facilityItems && l.facilityId == row.id && l.targetId in itemIds
  }

  /** The rows a mode selects. */
  predicate Selected(db: Db, m: ListMode, row: FacilityRow) {
    match m
    case ByItems(ids) => AcceptsAny(db, row, ids)
    case ByZip(z) => row.zipCode == z
    case Everything => true
  }

  /** `ORDER BY f.name`. */
  function ByName(): (le: (FacilityRow, FacilityRow) -> bool)
    ensures Total(le)
  {
    forall x: FacilityRow, y: FacilityRow ensures LexLe(x.name, y.name) || LexLe(y.name, x.name) {
      LexLeTotal(x.name, y.name);
    }
    (x: FacilityRow, y: FacilityRow) => LexLe(x.name, y.name)
  }

  function EnrichAll(rows: seq<FacilityRow>, db: Db): (r: seq<Facility>)
    ensures |r| == |rows| && forall i :: 0 <= i < |rows| ==> r[i] == Enrich(rows[i], db)
  {
    if rows == [] then [] else [Enrich(rows[0], db)] + EnrichAll(rows[1..], db)
  }

  /** `listFacilities`: the selected rows, each once, ordered by name, and
      enriched. */
  function ListFacilities(db: Db, zipCode: Option<string>, itemIds: Option<seq<string>>): (r: seq<Facility>)
    ensures var m := Mode(zipCode, itemIds);
      exists rows: seq<FacilityRow> ::
        SortedBy(rows, ByName()) && multiset(rows) == multiset(Where(db.facilities, row => Selected(db, m, row)))
        && r == EnrichAll(rows, db)
  {
    var m := Mode(zipCode, itemIds);
    var rows := Sort(Where(db.facilities, row => Selected(db, m, row)), ByName());
    EnrichAll(rows, db)
  }

  // ------------------------------------------------------- findBestMatch

  /** `COUNT(fi.item_id)`: the link rows joining the facility to one of the
      requested items. */
  function MatchCount(db: Db, row: FacilityRow, itemIds: seq<string>): nat {
    Count(db.facilityItems, (l: Link) => l.facilityId == row.id && l.targetId in itemIds)
  }

  /** A facility takes part in the match: it is in the requested zip code,
      when one is given, and accepts at least one requested item (the inner
      join drops the others). */
  predicate Candidate(db: Db, row: FacilityRow, itemIds: seq<string>, zipCode: Option<string>) {
    (Truthy(zipCode) ==> row.zipCode == zipCode.value) && MatchCount(db, row, itemIds) >= 1
  }

  /** A facility has a positive match count exactly when it accepts one of
      the requested items, so the best match is drawn from the facilities
      `listFacilities` returns for the same item list. */
  lemma MatchIffAccepts(db: Db, row: FacilityRow, itemIds: seq<string>)
    ensures MatchCount(db, row, itemIds) >= 1 <==> AcceptsAny(db, row, itemIds)
  {
    var p := (l: Link) => l.facilityId == row.id && l.targetId in itemIds;
    var w := Where(db.facilityItems, p);
    if |w| >= 1 {
      assert w[0] in w;
    }
    if AcceptsAny(db, row, itemIds) {
      var l :| l in db.facilityItems && l.facilityId == row.id && l.targetId in itemIds;
      assert l in w;
    }
  }

  /** Row `i` is a candidate whose match count no other candidate beats. */
  predicate Best(db: Db, itemIds: seq<string>, zipCode: Option<string>, i: int) {
    0 <= i < |db.facilities| && Candidate(db, db.facilities[i], itemIds, zipCode)
    && forall j :: 0 <= j < |db.facilities| && Candidate(db, db.facilities[j], itemIds, zipCode) ==>
         MatchCount(db, db.facilities[j], itemIds) <= MatchCount(db, db.facilities[i], itemIds)
  }

  /** `findBestMatch`: a candidate facility with the largest match count,
      or `NotFound` when there is no candidate. Among equal counts the
      database may return any; the model returns the first. */
  method FindBestMatch(db: Db, itemIds: seq<string>, zipCode: Option<string>) returns (r: Result<Facility>)
    ensures r.Err? <==> forall i :: 0 <= i < |db.facilities| ==> !Candidate(db, db.facilities[i], itemIds, zipCode)
    ensures r.Err? ==> r.error == ApiError(NotFound, "No matching facilities")
    ensures r.Ok? ==> exists i :: Best(db, itemIds, zipCode, i) && r.value == Enrich(db.facilities[i], db)
  {
    var best: Option<nat> := None;
    var bestCount: nat := 0;
    for i := 0 to |db.facilities|
      invariant best.None? ==> forall j :: 0 <= j < i ==> !Candidate(db, db.facilities[j], itemIds, zipCode)
      invariant best.Some? ==> best.value < i && Candidate(db, db.facilities[best.value], itemIds, zipCode)
      invariant best.Some? ==> bestCount == MatchCount(db, db.facilities[best.value], itemIds)
      invariant best.Some? ==> forall j :: 0 <= j < i && Candidate(db, db.facilities[j], itemIds, zipCode) ==>
        MatchCount(db, db.facilities[j], itemIds) <= bestCount
    {
      var row := db.facilities[i];
      if Candidate(db, row, itemIds, zipCode) {
        var c := MatchCount(db, row, itemIds);
        if best.None? || c > bestCount {
          best := Some(i);
          bestCount := c;
        }
      }
    }
    if best.None? {
      return Fail(NotFound, "No matching facilities");
    }
    assert Best(db, itemIds, zipCode, best.value);
    r := Ok(Enrich(db.facilities[best.value], db));
  }
}

=== FILE: facility_filters.dfy ===
/** The condition builders of the facility listing endpoints. Each filter
    that applies emits an SQL fragment whose placeholders are numbered
    `$k` with `k` one more than the number of parameters pushed so far,
    and then pushes its values; the model keeps the fragments as data and
    proves that the placeholders stay aligned with the parameter list. */
module FacilityFilters {
  import opened Outcomes
  import opened Text
  import opened FacilityJson

  /** A bound parameter. A radius is pushed after a miles-to-meters
      conversion by the factor 1609.34, kept here as the miles value. */
  datatype Param = Str(s: string) | Number(n: int) | Miles(r: int)

  /** An emitted fragment with its placeholder numbers. */
  datatype Fragment =
    | Equals(column: string, slot: nat)
    | TypeJoin(slot: nat)
    | Within(lngSlot: nat, latSlot: nat, radiusSlot: nat)
    | Search(slot: nat)

  /** The placeholders a fragment introduces, left to right. The search
      fragment uses its one placeholder twice. */
  function Slots(fr: Fragment): seq<nat> {
    match fr
    case Equals(_, k) => [k]
    case TypeJoin(k) => [k]
    case Within(a, b, c) => [a, b, c]
    case Search(k) => [k]
  }

  /** All placeholders of a fragment list in emission order. */
  function AllSlots(frs: seq<Fragment>): seq<nat> {
    if frs == [] then [] else AllSlots(frs[..|frs| - 1]) + Slots(frs[|frs| - 1])
  }

  /** The fragments and parameters built so far. */
  datatype Builder = Builder(fragments: seq<Fragment>, params: seq<Param>)

  /** Placeholders are numbered 1, 2, ... in emission order and there is one
      parameter per placeholder, so placeholder `k` refers to `params[k-1]`. */
  predicate Numbered(b: Builder) {
    var slots := AllSlots(b.fragments);
    |slots| == |b.params| && forall i :: 0 <= i < |slots| ==> slots[i] == i + 1
  }

  /** Placeholder `k` is bound to `v`. */
  predicate Binds(b: Builder, k: nat, v: Param) {
    1 <= k <= |b.params| && b.params[k - 1] == v
  }

  /** The next placeholder number, `params.length + 1`. */
  function Next(b: Builder): nat {
    |b.params| + 1
  }

  /** Emits `fr` and pushes `ps`; `fr` must use the next `|ps|` numbers. */
  function Emit(b: Builder, fr: Fragment, ps: seq<Param>): (r: Builder)
    requires Numbered(b)
    requires |Slots(fr)| == |ps|
    requires forall i :: 0 <= i < |ps| ==> Slots(fr)[i] == Next(b) + i
    ensures Numbered(r)
    ensures r.fragments == b.fragments + [fr] && r.params == b.params + ps
    ensures forall k, v :: Binds(b, k, v) ==> Binds(r, k, v)
  {
    var frs := b.fragments + [fr];
    assert frs[..|frs| - 1] == b.fragments;
    var slots := AllSlots(frs);
    assert slots == AllSlots(b.fragments) + Slots(fr);
    forall i | 0 <= i < |slots| ensures slots[i] == i + 1 {
      if i < |b.params| {
        assert slots[i] == AllSlots(b.fragments)[i];
      } else {
        assert slots[i] == Slots(fr)[i - |b.params|];
        assert Slots(fr)[i - |b.params|] == Next(b) + (i - |b.params|);
      }
    }
    Builder(frs, b.params + ps)
  }

  /** Emits a one-placeholder fragment bound to `v`. */
  function EmitOne(b: Builder, fr: Fragment, v: Param): (r: Builder)
    requires Numbered(b) && Slots(fr) == [Next(b)]
    ensures Numbered(r)
    ensures r.fragments == b.fragments + [fr] && r.params == b.params + [v]
    ensures Binds(r, Next(b), v)
    ensures forall k, w :: Binds(b, k, w) ==> Binds(r, k, w)
  {
    Emit(b, fr, [v])
  }

  const Empty := Builder([], [])

  // ------------------------------------------------------- getFacilities

  /** The query parameters of `getFacilities`; numbers are truthy when
      present and non-zero. */
  datatype FacilityQuery = FacilityQuery(
    kind: Option<string>, city: Option<string>, zipCode: Option<string>,
    limit: Option<int>, offset: Option<int>,
    lat: Option<int>, lng: Option<int>, radius: Option<int>)

  /** `params.limit || 20`: any falsy limit, zero included, becomes 20. */
  function PageLimit(q: FacilityQuery): (r: int)
    ensures r != 0
    ensures r == 20 <==> !NumTruthy(q.limit) || q.limit.value == 20
    ensures NumTruthy(q.limit) ==> r == q.limit.value
  {
    NumOr(q.limit, 20)
  }

  /** `params.offset || 0`. */
  function PageOffset(q: FacilityQuery): (r: int)
    ensures r == (if q.offset.Some? then q.offset.value else 0)
  {
    NumOr(q.offset, 0)
  }

  /** The location filter applies only when latitude, longitude and radius
      are all truthy. */
  predicate NearBy(q: FacilityQuery) {
    NumTruthy(q.lat) && NumTruthy(q.lng) && NumTruthy(q.radius)
  }

  /** The position of each fragment kind in `getFacilities`. */
  function GetStage(fr: Fragment): nat {
    match fr
    case Equals(c, _) => if c == "city" then 0 else 1
    case TypeJoin(_) => 2
    case Within(_, _, _) => 3
    case Search(_) => 4
  }

  /** Every fragment of `frs` has a strictly larger stage than the ones
      before it. */
  predicate InOrder(frs: seq<Fragment>, stage: Fragment -> nat) {
    forall i, j :: 0 <= i < j < |frs| ==> stage(frs[i]) < stage(frs[j])
  }

  /** The fragment is one `getFacilities` emits, bound to the value the
      request supplied for it. */
  predicate GetBound(b: Builder, fr: Fragment, q: FacilityQuery) {
    match fr
    case Equals(c, k) =>
      (c == "city" && Truthy(q.city) && Binds(b, k, Str(q.city.value)))
      || (c == "zip_code" && Truthy(q.zipCode) && Binds(b, k, Str(q.zipCode.value)))
    case TypeJoin(k) => Truthy(q.kind) && Binds(b, k, Str(q.kind.value))
    case Within(x, y, r) =>
      NearBy(q) && Binds(b, x, Number(q.lng.value)) && Binds(b, y, Number(q.lat.value))
      && Binds(b, r, Miles(q.radius.value))
    case Search(_) => false
  }

  /** Some fragment compares `column`. */
  predicate HasColumn(frs: seq<Fragment>, column: string) {
    exists i :: 0 <= i < |frs| && frs[i].Equals? && frs[i].column == column
  }

  predicate HasJoin(frs: seq<Fragment>) {
    exists i :: 0 <= i < |frs| && frs[i].TypeJoin?
  }

  predicate HasWithin(frs: seq<Fragment>) {
    exists i :: 0 <= i < |frs| && frs[i].Within?
  }

  /** A fragment kind occurs in a concatenation iff it occurs in a part. */
  lemma HasAppend(a: seq<Fragment>, e: seq<Fragment>, column: string)
    ensures HasColumn(a + e, column) <==> HasColumn(a, column) || HasColumn(e, column)
    ensures HasJoin(a + e) <==> HasJoin(a) || HasJoin(e)
    ensures HasWithin(a + e) <==> HasWithin(a) || HasWithin(e)
  {
    var s := a + e;
    assert forall i :: 0 <= i < |a| ==> s[i] == a[i];
    assert forall i :: 0 <= i < |e| ==> s[|a| + i] == e[i];
    if HasColumn(s, column) {
      var i :| 0 <= i < |s| && s[i].Equals? && s[i].column == column;
      if i >= |a| {
        assert e[i - |a|] == s[i];
      }
    }
    if HasJoin(s) {
      var i :| 0 <= i < |s| && s[i].TypeJoin?;
      if i >= |a| {
        assert e[i - |a|] == s[i];
      }
    }
    if HasWithin(s) {
      var i :| 0 <= i < |s| && s[i].Within?;
      if i >= |a| {
        assert e[i - |a|] == s[i];
      }
    }
  }

  /** What holds of the `getFacilities` builder before the step of stage
      `stage`: placeholders aligned, every fragment bound to its request
      value, and fragments of earlier stages only, in stage order. */
  predicate GetSoFar(b: Builder, q: FacilityQuery, stage: nat) {
    Numbered(b) && InOrder(b.fragments, GetStage)
    && forall i :: 0 <= i < |b.fragments| ==> GetBound(b, b.fragments[i], q) && GetStage(b.fragments[i]) < stage
  }

  /** A fragment bound under `b` stays bound once more parameters are
      pushed. */
  lemma BoundGrows(b: Builder, r: Builder, fr: Fragment, q: FacilityQuery)
    requires |b.params| <= |r.params| && r.params[..|b.params|] == b.params
    requires GetBound(b, fr, q)
    ensures GetBound(r, fr, q)
  {
    forall k: nat, v | Binds(b, k, v) ensures Binds(r, k, v) {
      assert r.params[k - 1] == r.params[..|b.params|][k - 1];
    }
  }

  /** A builder good before one stage is good before any later one. */
  lemma SoFarLater(b: Builder, q: FacilityQuery, s: nat, s': nat)
    requires GetSoFar(b, q, s) && s <= s'
    ensures GetSoFar(b, q, s')
  {
  }

  /** One step of `getFacilities`: emits `fr` and pushes `ps`. */
  function AddGet(b: Builder, q: FacilityQuery, fr: Fragment, ps: seq<Param>): (r: Builder)
    requires GetSoFar(b, q, GetStage(fr))
    requires |Slots(fr)| == |ps|
    requires forall i :: 0 <= i < |ps| ==> Slots(fr)[i] == Next(b) + i
    requires GetBound(Builder(b.fragments + [fr], b.params + ps), fr, q)
    ensures GetSoFar(r, q, GetStage(fr) + 1)
    ensures r.fragments == b.fragments + [fr]
  {
    var r := Emit(b, fr, ps);
    assert r.params[..|b.params|] == b.params;
    forall i | 0 <= i < |r.fragments|
      ensures GetBound(r, r.fragments[i], q) && GetStage(r.fragments[i]) < GetStage(fr) + 1
    {
      if i < |b.fragments| {
        assert r.fragments[i] == b.fragments[i];
        BoundGrows(b, r, b.fragments[i], q);
      }
    }
    r
  }

  /** `[fr]` when `c` holds, else nothing. */
  function Opt(c: bool, fr: Fragment): seq<Fragment> {
    if c then [fr] else []
  }

  function CityStep(q: FacilityQuery): (r: Builder)
    ensures GetSoFar(r, q, 1)
    ensures r.fragments == Opt(Truthy(q.city), Equals("city", 1))
  {
    if Truthy(q.city) then AddGet(Empty, q, Equals("city", 1), [Str(q.city.value)]) else Empty
  }

  function ZipStep(b: Builder, q: FacilityQuery): (r: Builder)
    requires GetSoFar(b, q, 1)
    ensures GetSoFar(r, q, 2)
    ensures r.fragments == b.fragments + Opt(Truthy(q.zipCode), Equals("zip_code", Next(b)))
  {
    if Truthy(q.zipCode) then AddGet(b, q, Equals("zip_code", Next(b)), [Str(q.zipCode.value)])
    else SoFarLater(b, q, 1, 2); b
  }

  function TypeStep(b: Builder, q: FacilityQuery): (r: Builder)
    requires GetSoFar(b, q, 2)
    ensures GetSoFar(r, q, 3)
    ensures r.fragments == b.fragments + Opt(Truthy(q.kind), TypeJoin(Next(b)))
  {
    if Truthy(q.kind) then AddGet(b, q, TypeJoin(Next(b)), [Str(q.kind.value)])
    else SoFarLater(b, q, 2, 3); b
  }

  function LocationStep(b: Builder, q: FacilityQuery): (r: Builder)
    requires GetSoFar(b, q, 3)
    ensures GetSoFar(r, q, 4)
    ensures r.fragments == b.fragments + Opt(NearBy(q), Within(Next(b), Next(b) + 1, Next(b) + 2))
  {
    if NearBy(q) then
      var n := Next(b);
      AddGet(b, q, Within(n, n + 1, n + 2), [Number(q.lng.value), Number(q.lat.value), Miles(q.radius.value)])
    else SoFarLater(b, q, 3, 4); b
  }

  /** The `getFacilities` builder: city, then zip code, then the type join,
      then the location filter, each only when its inputs are truthy. */
  function GetFilters(q: FacilityQuery): Builder {
    LocationStep(TypeStep(ZipStep(CityStep(q), q), q), q)
  }

  /** The placeholders of `getFacilities` are numbered consecutively from
      1, placeholder `k` is bound to the request value of its filter, and
      the filters come in the order city, zip code, type, location. */
  lemma GetFiltersAligned(q: FacilityQuery)
    ensures var b := GetFilters(q);
      Numbered(b)
      && (forall i :: 0 <= i < |b.fragments| ==> GetBound(b, b.fragments[i], q))
      && InOrder(b.fragments, GetStage)
  {
  }

  /** The fragment kinds `getFacilities` emits, without placeholders. */
  function Shape(fr: Fragment): Fragment {
    match fr
    case Equals(c, _) => Equals(c, 0)
    case TypeJoin(_) => TypeJoin(0)
    case Within(_, _, _) => Within(0, 0, 0)
    case Search(_) => Search(0)
  }

  function Shapes(frs: seq<Fragment>): (r: seq<Fragment>)
    ensures |r| == |frs| && forall i :: 0 <= i < |frs| ==> r[i] == Shape(frs[i])
  {
    seq(|frs|, i requires 0 <= i < |frs| => Shape(frs[i]))
  }

  /** The WHERE conditions: every fragment but the type join, which goes
      into the JOIN clause instead. */
  function Conditions(frs: seq<Fragment>): (r: seq<Fragment>)
    ensures forall i :: 0 <= i < |r| ==> !r[i].TypeJoin?
    ensures forall i :: 0 <= i < |r| ==> r[i] in frs
    ensures |r| <= |frs|
  {
    if frs == [] then []
    else if frs[0].TypeJoin? then Conditions(frs[1..])
    else [frs[0]] + Conditions(frs[1..])
  }

  /** The SQL text of a condition. */
  function Render(fr: Fragment): (r: string)
    ensures r != ""
  {
    match fr
    case Equals(c, k) => c + " = $" + NatToString(k)
    case TypeJoin(k) => "ft.name = $" + NatToString(k)
    case Within(a, b, c) =>
      "ST_DWithin(location, ST_SetSRID(ST_MakePoint($" + NatToString(a) + ", $" + NatToString(b)
      + "), 4326), $" + NatToString(c) + ")"
    case Search(k) => "(f.name ILIKE $" + NatToString(k) + " OR f.address ILIKE $" + NatToString(k) + ")"
  }

  function RenderAll(frs: seq<Fragment>): (r: seq<string>)
    ensures |r| == |frs|
    ensures forall i :: 0 <= i < |frs| ==> r[i] == Render(frs[i])
  {
    if frs == [] then [] else [Render(frs[0])] + RenderAll(frs[1..])
  }

  /** A fragment whose column, if it has one, is a plain identifier
      without spaces; every column the endpoints compare is. */
  predicate Plain(fr: Fragment) {
    fr.Equals? ==> forall i :: 0 <= i < |fr.column| ==> fr.column[i] != ' '
  }

  /** No space in `t` is followed by an "A". */
  predicate NoSpaceA(t: string) {
    forall j :: 0 <= j < |t| - 1 ==> t[j] == ' ' ==> t[j + 1] != 'A'
  }

  lemma NoSpaceAConcat(a: string, b: string)
    requires NoSpaceA(a) && NoSpaceA(b) && (b == [] || b[0] != 'A')
    ensures NoSpaceA(a + b)
  {
    var t := a + b;
    forall j | 0 <= j < |t| - 1 && t[j] == ' ' ensures t[j + 1] != 'A' {
      if j + 1 < |a| {
        assert t[j] == a[j] && t[j + 1] == a[j + 1];
      } else if j + 1 > |a| {
        assert t[j] == b[j - |a|] && t[j + 1] == b[j + 1 - |a|];
      }
    }
  }

  /** A numeral has no space at all. */
  lemma NumeralNoSpaceA(k: nat)
    ensures NoSpaceA(NatToString(k))
    ensures var d := NatToString(k); d[0] != 'A' && d[|d| - 1] != ' ' && d[|d| - 1] != 'A'
  {
    var d := NatToString(k);
    assert IsDigit(d[0]) && IsDigit(d[|d| - 1]);
    forall j | 0 <= j < |d| - 1 ensures d[j] != ' ' {
      assert IsDigit(d[j]);
    }
  }

  /** A rendered plain condition cannot take part in an " AND ": it holds
      no space followed by "A" and does not end in a space. */
  lemma RenderNoAnd(fr: Fragment)
    requires Plain(fr)
    ensures var t := Render(fr); NoSpaceA(t) && t[|t| - 1] != ' '
    ensures Separable(Render(fr), " AND ")
  {
    match fr {
      case Equals(c, k) => EqualsNoAnd(c, k);
      case TypeJoin(k) => TypeJoinNoAnd(k);
      case Within(a, b, c) => WithinNoAnd(a, b, c);
      case Search(k) => SearchNoAnd(k);
    }
    AndSeparable(Render(fr));
  }

  lemma EqualsNoAnd(c: string, k: nat)
    requires Plain(Equals(c, k))
    ensures var t := Render(Equals(c, k)); NoSpaceA(t) && t[|t| - 1] != ' '
  {
    var d := NatToString(k);
    NumeralNoSpaceA(k);
    assert NoSpaceA(c) by {
      forall j | 0 <= j < |c| - 1 ensures c[j] != ' ' { }
    }
    NoSpaceAConcat(c, " = $");
    NoSpaceAConcat(c + " = $", d);
  }

  lemma TypeJoinNoAnd(k: nat)
    ensures var t := Render(TypeJoin(k)); NoSpaceA(t) && t[|t| - 1] != ' '
  {
    NumeralNoSpaceA(k);
    NoSpaceAConcat("ft.name = $", NatToString(k));
  }

  lemma WithinNoAnd(a: nat, b: nat, c: nat)
    ensures var t := Render(Within(a, b, c)); NoSpaceA(t) && t[|t| - 1] != ' '
  {
    NumeralNoSpaceA(a);
    NumeralNoSpaceA(b);
    NumeralNoSpaceA(c);
    WithinLiterals();
    var p1 := "ST_DWithin(location, ST_SetSRID(ST_MakePoint($" + NatToString(a);
    NoSpaceAConcat("ST_DWithin(location, ST_SetSRID(ST_MakePoint($", NatToString(a));
    var p2 := p1 + ", $";
    NoSpaceAConcat(p1, ", $");
    var p3 := p2 + NatToString(b);
    NoSpaceAConcat(p2, NatToString(b));
    var p4 := p3 + "), 4326), $";
    NoSpaceAConcat(p3, "), 4326), $");
    var p5 := p4 + NatToString(c);
    NoSpaceAConcat(p4, NatToString(c));
    NoSpaceAConcat(p5, ")");
  }

  /** The fixed pieces of the location condition. */
  lemma WithinLiterals()
    ensures NoSpaceA("ST_DWithin(location, ST_SetSRID(ST_MakePoint($")
    ensures NoSpaceA("), 4326), $")
  {
    FunctionCallsLiteral();
    NoSpaceAConcat("ST_DWithin(location,", " ST_SetSRID(ST_MakePoint($");
    assert "ST_DWithin(location, ST_SetSRID(ST_MakePoint($"
      == "ST_DWithin(location," + " ST_SetSRID(ST_MakePoint($";
    NoSpaceAConcat("), 4326),", " $");
    assert "), 4326), $" == "), 4326)," + " $";
  }

  lemma FunctionCallsLiteral()
    ensures NoSpaceA("ST_DWithin(location,")
    ensures NoSpaceA(" ST_SetSRID(ST_MakePoint($")
  {
    var a, b := "ST_DWithin(location,", " ST_SetSRID(ST_MakePoint($";
    forall j | 0 < j < |b| ensures b[j] != ' ' { }
    forall j | 0 <= j < |a| ensures a[j] != ' ' { }
  }

  lemma SearchNoAnd(k: nat)
    ensures var t := Render(Search(k)); NoSpaceA(t) && t[|t| - 1] != ' '
  {
    var d := NatToString(k);
    NumeralNoSpaceA(k);
    var l1 := "(f.name ILIKE $";
    var l2 := " OR f.address ILIKE $";
    NoSpaceAConcat(l1, d);
    NoSpaceAConcat(l1 + d, l2);
    NoSpaceAConcat(l1 + d + l2, d);
    NoSpaceAConcat(l1 + d + l2 + d, ")");
  }

  /** A text with no space before an "A" that does not end in a space is
      separable by " AND ". */
  lemma AndSeparable(t: string)
    requires |t| > 0 && NoSpaceA(t) && t[|t| - 1] != ' '
    ensures Separable(t, " AND ")
  {
    var sep := " AND ";
    forall j | 0 <= j < |t| ensures !OccursAt(t + sep, sep, j) {
      var w := (t + sep)[j..j + |sep|];
      if t[j] != ' ' {
        assert w[0] == t[j];
      } else {
        assert j + 1 < |t|;
        assert w[1] == t[j + 1];
      }
    }
  }

  /** `WHERE c1 AND c2 ...`, or nothing when there is no condition. The
      conditions can be read back in order by splitting at " AND ". */
  function WhereClause(conds: seq<Fragment>): (r: string)
    ensures r == "" <==> conds == []
    ensures conds != [] ==> |r| > 6 && r[..6] == "WHERE "
    ensures conds != [] && (forall i :: 0 <= i < |conds| ==> Plain(conds[i])) ==>
      Split(r[6..], " AND ") == RenderAll(conds)
  {
    if conds == [] then ""
    else
      var body := Join(RenderAll(conds), " AND ");
      var s := "WHERE " + body;
      assert s[..6] == "WHERE " && s[6..] == body;
      if forall i :: 0 <= i < |conds| ==> Plain(conds[i]) then
        var parts := RenderAll(conds);
        assert forall i :: 0 <= i < |parts| ==> Separable(parts[i], " AND ") by {
          forall i | 0 <= i < |parts| ensures Separable(parts[i], " AND ") {
            RenderNoAnd(conds[i]);
          }
        }
        SplitJoin(parts, " AND ");
        s
      else s
  }

  /** The WHERE clause built from plain fragments reads back as its
      conditions. */
  lemma PlainWhereReadsBack(frs: seq<Fragment>)
    requires forall i :: 0 <= i < |frs| ==> Plain(frs[i])
    ensures var conds := Conditions(frs);
      conds != [] ==> Split(WhereClause(conds)[6..], " AND ") == RenderAll(conds)
  {
    var conds := Conditions(frs);
    forall i | 0 <= i < |conds| ensures Plain(conds[i]) {
      var j :| 0 <= j < |frs| && frs[j] == conds[i];
    }
  }

  /** Every fragment `getFacilities` emits is plain. */
  lemma GetFiltersPlain(q: FacilityQuery)
    ensures var frs := GetFilters(q).fragments; forall i :: 0 <= i < |frs| ==> Plain(frs[i])
  {
    var b := TypeStep(ZipStep(CityStep(q), q), q);
    SoFarPlain(LocationStep(b, q), q, 4);
  }

  lemma SoFarPlain(b: Builder, q: FacilityQuery, stage: nat)
    requires GetSoFar(b, q, stage)
    ensures forall i :: 0 <= i < |b.fragments| ==> Plain(b.fragments[i])
  {
    forall i | 0 <= i < |b.fragments| ensures Plain(b.fragments[i]) {
      assert GetBound(b, b.fragments[i], q);
    }
  }

  /** The WHERE clause of `getFacilities` reads back as its conditions. */
  lemma GetWhereReadsBack(q: FacilityQuery)
    ensures var conds := Conditions(GetFilters(q).fragments);
      conds != [] ==> Split(WhereClause(conds)[6..], " AND ") == RenderAll(conds)
  {
    GetFiltersPlain(q);
    PlainWhereReadsBack(GetFilters(q).fragments);
  }

  // ---------------------------------------------------- searchFacilities

  /** The position of each fragment kind in `searchFacilities`. */
  function SearchStage(fr: Fragment): nat {
    match fr
    case Equals(c, _) => if c == "ft.name" then 0 else 2
    case Search(_) => 1
    case _ => 3
  }

  /** The search text wrapped for `ILIKE`: `%q%`. */
  function Pattern(q: string): (r: string)
    ensures |r| == |q| + 2 && r[0] == '%' && r[|r| - 1] == '%' && r[1..|r| - 1] == q
  {
    "%" + q + "%"
  }

  /** The fragment is one `searchFacilities` emits, bound to its value. */
  predicate SearchBound(b: Builder, fr: Fragment, q: string, kind: Option<string>, zipCode: Option<string>) {
    match fr
    case Equals(c, k) =>
      (c == "ft.name" && Truthy(kind) && Binds(b, k, Str(kind.value)))
      || (c == "f.zip_code" && Truthy(zipCode) && Binds(b, k, Str(zipCode.value)))
    case Search(k) => Binds(b, k, Str(Pattern(q)))
    case _ => false
  }

  /** The `searchFacilities` builder: the type condition when a type is
      given, then the name-or-address search, always, then the zip code. */
  function SearchFilters(q: string, kind: Option<string>, zipCode: Option<string>): (b: Builder)
    ensures Numbered(b)
    ensures forall i :: 0 <= i < |b.fragments| ==> SearchBound(b, b.fragments[i], q, kind, zipCode)
    ensures InOrder(b.fragments, SearchStage)
    ensures exists i :: 0 <= i < |b.fragments| && b.fragments[i].Search?
    ensures |b.fragments| == 1 + (if Truthy(kind) then 1 else 0) + (if Truthy(zipCode) then 1 else 0)
  {
    var b1 := if Truthy(kind) then AddSearch(Empty, q, kind, zipCode, Equals("ft.name", 1), Str(kind.value)) else Empty;
    var b2 := AddSearch(b1, q, kind, zipCode, Search(Next(b1)), Str(Pattern(q)));
    assert b2.fragments[|b1.fragments|].Search?;
    if Truthy(zipCode) then
      var r := AddSearch(b2, q, kind, zipCode, Equals("f.zip_code", Next(b2)), Str(zipCode.value));
      assert r.fragments[|b1.fragments|].Search?;
      r
    else b2
  }

  /** What holds of the `searchFacilities` builder before the step of
      stage `stage`, as `GetSoFar` for `getFacilities`. */
  predicate SearchSoFar(b: Builder, q: string, kind: Option<string>, zipCode: Option<string>, stage: nat) {
    Numbered(b) && InOrder(b.fragments, SearchStage)
    && forall i :: 0 <= i < |b.fragments| ==>
         SearchBound(b, b.fragments[i], q, kind, zipCode) && SearchStage(b.fragments[i]) < stage
  }

  /** A fragment bound under `b` stays bound once more parameters are
      pushed. */
  lemma SearchBoundGrows(b: Builder, r: Builder, fr: Fragment, q: string, kind: Option<string>, zipCode: Option<string>)
    requires |b.params| <= |r.params| && r.params[..|b.params|] == b.params
    requires SearchBound(b, fr, q, kind, zipCode)
    ensures SearchBound(r, fr, q, kind, zipCode)
  {
    forall k: nat, v | Binds(b, k, v) ensures Binds(r, k, v) {
      assert r.params[k - 1] == r.params[..|b.params|][k - 1];
    }
  }

  /** One step of `searchFacilities`: emits `fr` bound to `v`. */
  function AddSearch(b: Builder, q: string, kind: Option<string>, zipCode: Option<string>,
                     fr: Fragment, v: Param): (r: Builder)
    requires SearchSoFar(b, q, kind, zipCode, SearchStage(fr))
    requires Slots(fr) == [Next(b)]
    requires SearchBound(Builder(b.fragments + [fr], b.params + [v]), fr, q, kind, zipCode)
    ensures SearchSoFar(r, q, kind, zipCode, SearchStage(fr) + 1)
    ensures r.fragments == b.fragments + [fr] && r.params == b.params + [v]
  {
    var r := EmitOne(b, fr, v);
    assert r.params[..|b.params|] == b.params;
    forall i | 0 <= i < |r.fragments|
      ensures SearchBound(r, r.fragments[i], q, kind, zipCode) && SearchStage(r.fragments[i]) < SearchStage(fr) + 1
    {
      if i < |b.fragments| {
        assert r.fragments[i] == b.fragments[i];
        SearchBoundGrows(b, r, b.fragments[i], q, kind, zipCode);
      }
    }
    r
  }

  /** The search query always has a WHERE clause. */
  lemma SearchAlwaysFiltered(q: string, kind: Option<string>, zipCode: Option<string>)
    ensures WhereClause(Conditions(SearchFilters(q, kind, zipCode).fragments)) != ""
  {
    var frs := SearchFilters(q, kind, zipCode).fragments;
    var i :| 0 <= i < |frs| && frs[i].Search?;
    SearchKept(frs, i);
  }

  /** Every fragment the search builder emits is plain. */
  lemma SearchFiltersPlain(q: string, kind: Option<string>, zipCode: Option<string>)
    ensures var frs := SearchFilters(q, kind, zipCode).fragments;
      forall i :: 0 <= i < |frs| ==> Plain(frs[i])
  {
    SearchBoundPlain(SearchFilters(q, kind, zipCode), q, kind, zipCode);
  }

  lemma SearchBoundPlain(b: Builder, q: string, kind: Option<string>, zipCode: Option<string>)
    requires forall i :: 0 <= i < |b.fragments| ==> SearchBound(b, b.fragments[i], q, kind, zipCode)
    ensures forall i :: 0 <= i < |b.fragments| ==> Plain(b.fragments[i])
  {
    forall i | 0 <= i < |b.fragments| ensures Plain(b.fragments[i]) {
      assert SearchBound(b, b.fragments[i], q, kind, zipCode);
    }
  }

  /** The WHERE clause of the search builder reads back as its
      conditions. */
  lemma SearchWhereReadsBack(q: string, kind: Option<string>, zipCode: Option<string>)
    ensures var conds := Conditions(SearchFilters(q, kind, zipCode).fragments);
      Split(WhereClause(conds)[6..], " AND ") == RenderAll(conds)
  {
    SearchAlwaysFiltered(q, kind, zipCode);
    SearchFiltersPlain(q, kind, zipCode);
    PlainWhereReadsBack(SearchFilters(q, kind, zipCode).fragments);
  }

  lemma {:induction false} SearchKept(frs: seq<Fragment>, i: nat)
    requires i < |frs| && frs[i].Search?
    ensures Conditions(frs) != []
  {
    if i > 0 && frs[0].TypeJoin? {
      SearchKept(frs[1..], i - 1);
    }
  }
}

/** Which filters the `getFacilities` builder emits. */
module FacilityFilterFacts {
  import opened Outcomes
  import opened FacilityJson
  import opened FacilityFilters

  /** Appending an optional fragment adds its kind and nothing else. */
  lemma PresenceStep(a: seq<Fragment>, c: bool, fr: Fragment, column: string)
    ensures HasColumn(a + Opt(c, fr), column) <==> HasColumn(a, column) || (c && fr.Equals? && fr.column == column)
    ensures HasJoin(a + Opt(c, fr)) <==> HasJoin(a) || (c && fr.TypeJoin?)
    ensures HasWithin(a + Opt(c, fr)) <==> HasWithin(a) || (c && fr.Within?)
  {
    HasAppend(a, Opt(c, fr), column);
    if c {
      assert Opt(c, fr)[0] == fr;
    }
  }

  /** Each filter of `getFacilities` is emitted exactly when its inputs are
      truthy. */
  lemma GetFiltersPresent(q: FacilityQuery)
    ensures HasColumn(GetFilters(q).fragments, "city") <==> Truthy(q.city)
    ensures HasColumn(GetFilters(q).fragments, "zip_code") <==> Truthy(q.zipCode)
    ensures HasJoin(GetFilters(q).fragments) <==> Truthy(q.kind)
    ensures HasWithin(GetFilters(q).fragments) <==> NearBy(q)
  {
    var b1 := CityStep(q);
    var b2 := ZipStep(b1, q);
    var b3 := TypeStep(b2, q);
    OptsPresent(Truthy(q.city), Truthy(q.zipCode), Truthy(q.kind), NearBy(q), Next(b1), Next(b2), Next(b3));
  }

  /** The four optional fragments of `getFacilities`, in their order: each
      kind is present iff its condition holds. */
  lemma OptsPresent(c1: bool, c2: bool, c3: bool, c4: bool, k1: nat, k2: nat, n: nat)
    ensures var frs := Opt(c1, Equals("city", 1)) + Opt(c2, Equals("zip_code", k1))
                       + Opt(c3, TypeJoin(k2)) + Opt(c4, Within(n, n + 1, n + 2));
      (HasColumn(frs, "city") <==> c1) && (HasColumn(frs, "zip_code") <==> c2)
      && (HasJoin(frs) <==> c3) && (HasWithin(frs) <==> c4)
  {
    var f1 := Opt(c1, Equals("city", 1));
    var f2 := f1 + Opt(c2, Equals("zip_code", k1));
    var f3 := f2 + Opt(c3, TypeJoin(k2));
    PresenceStep([], c1, Equals("city", 1), "zip_code");
    PresenceStep([], c1, Equals("city", 1), "city");
    assert [] + f1 == f1;
    PresenceStep(f1, c2, Equals("zip_code", k1), "city");
    PresenceStep(f1, c2, Equals("zip_code", k1), "zip_code");
    PresenceStep(f2, c3, TypeJoin(k2), "city");
    PresenceStep(f2, c3, TypeJoin(k2), "zip_code");
    PresenceStep(f3, c4, Within(n, n + 1, n + 2), "city");
    PresenceStep(f3, c4, Within(n, n + 1, n + 2), "zip_code");
  }
}

=== FILE: facility_json.dfy ===
/** The facility records of the scraped map-listing JSON file that the import
    scripts read, and the JavaScript truthiness rules they apply to its
    fields. Absent string fields are `None`; a present but empty string is
    falsy too. Numbers are modelled as integers (zero is falsy); flags whose
    type is `any` are kept as their truthiness. */
module FacilityJson {
  import opened Outcomes
  import opened Text

  datatype Location = Location(lat: int, lng: int)

  /** One `openingHours` entry, e.g. `{day: "Monday", hours: "7 AM to 4 PM"}`. */
  datatype HoursEntry = HoursEntry(day: string, hours: string)

  datatype JsonFacility = JsonFacility(
    title: Option<string>,
    name: Option<string>,
    categoryName: Option<string>,
    categories: Option<seq<string>>,
    address: Option<string>,
    city: Option<string>,
    state: Option<string>,
    postalCode: Option<string>,
    zipCodeField: Option<string>,
    phone: Option<string>,
    phoneUnformatted: Option<string>,
    url: Option<string>,
    website: Option<string>,
    hours: Option<string>,
    description: Option<string>,
    totalScore: Option<int>,
    rating: Option<int>,
    location: Option<Location>,
    permanentlyClosed: bool,
    taxDeductible: bool,
    pickupAvailable: bool,
    tags: Option<seq<string>>,
    acceptedItems: Option<seq<string>>,
    rejectedItems: Option<seq<string>>,
    openingHours: Option<seq<HoursEntry>>,
    recycling: seq<seq<(string, bool)>>)

  /** The facility kinds of the `facilities.type` column. */
  datatype FacilityType = Donation | Recycling | Trash | Mixed

  /** A string field is truthy when present and non-empty. */
  predicate Truthy(v: Option<string>) {
    v.Some? && v.value != ""
  }

  /** `v || d` for a string field and a string default. */
  function Or(v: Option<string>, d: string): (r: string)
    ensures Truthy(v) ==> r == v.value
    ensures !Truthy(v) ==> r == d
  {
    if Truthy(v) then v.value else d
  }

  /** `a || b` for two optional string fields. */
  function OrElse(a: Option<string>, b: Option<string>): (r: Option<string>)
    ensures Truthy(a) ==> r == a
    ensures !Truthy(a) ==> r == b
  {
    if Truthy(a) then a else b
  }

  /** A numeric field is truthy when present and non-zero. */
  predicate NumTruthy(v: Option<int>) {
    v.Some? && v.value != 0
  }

  /** `v || d` for a numeric field. */
  function NumOr(v: Option<int>, d: int): (r: int)
    ensures NumTruthy(v) ==> r == v.value
    ensures !NumTruthy(v) ==> r == d
  {
    if NumTruthy(v) then v.value else d
  }

  /** `json.location?.lat`, `json.location?.lng`. */
  function Lat(f: JsonFacility): Option<int> {
    if f.location.Some? then Some(f.location.value.lat) else None
  }

  function Lng(f: JsonFacility): Option<int> {
    if f.location.Some? then Some(f.location.value.lng) else None
  }

  /** `json.categoryName?.toLowerCase() || ''`. */
  function LowerCategory(f: JsonFacility): (r: string)
    ensures f.categoryName.None? ==> r == ""
    ensures f.categoryName.Some? ==> r == ToLower(f.categoryName.value)
  {
    if f.categoryName.Some? then ToLower(f.categoryName.value) else ""
  }

  /** `json.description?.toLowerCase().includes('pickup')`, false when absent. */
  predicate MentionsPickup(f: JsonFacility) {
    f.description.Some? && Contains(ToLower(f.description.value), "pickup")
  }

  /** Some word of `words` occurs in `c`. */
  predicate Mentions(c: string, words: seq<string>) {
    exists i :: 0 <= i < |words| && Contains(c, words[i])
  }

  /** Priority rank of a classification: a smaller rank is checked first. */
  function Rank(t: FacilityType): nat {
    match t
    case Recycling => 0
    case Donation => 1
    case Trash => 2
    case Mixed => 3
  }

  /** The facility record the import scripts build from a JSON entry, before
      it is inserted. */
  datatype MappedFacility = MappedFacility(
    name: string,
    kind: FacilityType,
    address: string,
    city: string,
    state: string,
    zipCode: string,
    phone: Option<string>,
    website: Option<string>,
    hours: Option<string>,
    acceptedItems: seq<string>,
    rejectedItems: seq<string>,
    rating: int,
    latitude: Option<int>,
    longitude: Option<int>,
    tags: seq<string>,
    description: Option<string>,
    taxDeductible: bool,
    pickupAvailable: bool)
}

=== FILE: facility_queries.dfy ===
/** The statements `getFacilities` and `searchFacilities` send. Encore's
    `db.query` is a tagged template: every `${...}` becomes a placeholder
    `$k` and its value is bound as the k-th parameter; it never becomes SQL
    text. Whitespace inside the statements is normalised to single spaces. */
module FacilityQueries {
  import opened Outcomes
  import opened Text
  import opened FacilityJson
  import opened FacilityFilters
  import opened FacilityFilterFacts

  /** A statement as the driver receives it. */
  datatype Sql = Sql(text: string, params: seq<Param>)

  const ListSelect :=
    "SELECT f.id, f.name, f.description, f.address, f.city, f.state, f.zip_code, "
    + "f.phone, f.website, f.email, f.image_url, f.is_verified FROM facilities f"

  const ListOrder := "GROUP BY f.id ORDER BY f.name ASC"

  const TypeJoinPrefix :=
    "JOIN facility_type_mappings ftm ON f.id = ftm.facility_id "
    + "JOIN facility_types ft ON ftm.type_id = ft.id AND "

  /** The WHERE conditions of a request. */
  function Conds(q: FacilityQuery): seq<Fragment> {
    Conditions(GetFilters(q).fragments)
  }

  /** The `typeJoin` string: the two joins ending in the type condition,
      whose placeholder follows those of city and zip code; empty without a
      type. */
  function JoinText(q: FacilityQuery): string {
    if Truthy(q.kind) then TypeJoinPrefix + Render(TypeJoin(Next(ZipStep(CityStep(q), q)))) else ""
  }

  // ------------------------------------------------------------ as written

  /** The two statements as written. `typeJoin` and `whereClause` are
      interpolated, so they are bound as the string values $1 and $2; the
      listing binds the limit and offset as $3 and $4; `whereParams` is
      never passed. */
  function CountSqlAsWritten(q: FacilityQuery): (r: Sql)
    ensures r.params == [Str(JoinText(q)), Str(WhereClause(Conds(q)))]
  {
    Sql(CountSelect + " $1 $2", [Str(JoinText(q)), Str(WhereClause(Conds(q)))])
  }

  const CountSelect := "SELECT COUNT(DISTINCT f.id) AS total FROM facilities f"

  function ListSqlAsWritten(q: FacilityQuery): (r: Sql)
    ensures r.params == CountSqlAsWritten(q).params + [Number(PageLimit(q)), Number(PageOffset(q))]
  {
    AsWritten(JoinText(q), WhereClause(Conds(q)), PageLimit(q), PageOffset(q))
  }

  /** The listing statement as written, for any join and WHERE clause. */
  function AsWritten(join: string, where: string, limit: int, offset: int): (r: Sql)
    ensures |r.params| == 4 && r.params[2] == Number(limit) && r.params[3] == Number(offset)
  {
    Sql(ListSelect + " $1 $2 " + ListOrder + " LIMIT $3 OFFSET $4",
        [Str(join), Str(where), Number(limit), Number(offset)])
  }

  /** Every request sends the same statement texts, whatever its filters. */
  lemma AsWrittenTextFixed(q1: FacilityQuery, q2: FacilityQuery)
    ensures CountSqlAsWritten(q1).text == CountSqlAsWritten(q2).text
    ensures ListSqlAsWritten(q1).text == ListSqlAsWritten(q2).text
  {
  }

  /** The only strings sent are the join and the WHERE clause themselves. */
  lemma AsWrittenStrings(join: string, where: string, limit: int, offset: int, v: string)
    ensures Str(v) in AsWritten(join, where, limit, offset).params <==> v == join || v == where
  {
  }

  /** A city of up to six characters is a filter, yet it is not among the
      values sent: the strings sent are the empty or longer join and WHERE
      clause. A request for the city "Paris" shows it. */
  lemma FilterValueNotBound(q: FacilityQuery)
    requires Truthy(q.city) && |q.city.value| <= 6
    ensures HasColumn(GetFilters(q).fragments, "city")
    ensures Str(q.city.value) !in ListSqlAsWritten(q).params
  {
    GetFiltersPresent(q);
    AsWrittenStrings(JoinText(q), WhereClause(Conds(q)), PageLimit(q), PageOffset(q), q.city.value);
    var w := WhereClause(Conds(q));
    assert |w| == 0 || |w| > 6;
    assert |JoinText(q)| == 0 || |JoinText(q)| > 6;
  }

  // -------------------------------------------------------------- intended

  /** `join` and `where` spliced between `head` and `tail`. */
  function Splice(head: string, join: string, where: string, tail: string): (r: string)
    ensures Contains(r, join) && Contains(r, where)
  {
    Infix(head, join, " " + where + tail);
    Infix(head + join + " ", where, tail);
    assert head + join + (" " + where + tail) == head + join + " " + where + tail;
    head + join + " " + where + tail
  }

  /** The end of the listing statement, with the limit and offset under
      placeholders `n + 1` and `n + 2`. */
  function Paging(n: nat): string {
    " " + ListOrder + " LIMIT $" + NatToString(n + 1) + " OFFSET $" + NatToString(n + 2)
  }

  /** A statement with `join` and `where` spliced in after the select list,
      binding `ps` and then the limit and offset under the next two
      placeholder numbers. */
  function Statement(join: string, where: string, ps: seq<Param>, limit: int, offset: int): (r: Sql)
    ensures |r.params| == |ps| + 2 && r.params[..|ps|] == ps
    ensures r.params[|ps|] == Number(limit) && r.params[|ps| + 1] == Number(offset)
    ensures Contains(r.text, join) && Contains(r.text, where)
  {
    Sql(Splice(ListSelect + " ", join, where, Paging(|ps|)), ps + [Number(limit), Number(offset)])
  }

  /** The listing statement as evidently intended: the join and the WHERE
      clause spliced into the text, the builder's parameters bound. */
  function ListSql(q: FacilityQuery): Sql {
    Statement(JoinText(q), WhereClause(Conds(q)), GetFilters(q).params, PageLimit(q), PageOffset(q))
  }

  /** Every placeholder of the intended statement is bound to the request
      value it stands for: each filter's own placeholders as the builder
      numbered them, then the limit and the offset; the WHERE clause and
      the join are part of the text. */
  lemma ListSqlBindsFilters(q: FacilityQuery)
    ensures var b, r := GetFilters(q), ListSql(q);
      var sent := Builder(b.fragments, r.params);
      (forall i :: 0 <= i < |b.fragments| ==> GetBound(sent, b.fragments[i], q))
      && Binds(sent, |b.params| + 1, Number(PageLimit(q)))
      && Binds(sent, |b.params| + 2, Number(PageOffset(q)))
      && Contains(r.text, WhereClause(Conds(q))) && Contains(r.text, JoinText(q))
  {
    GetFiltersAligned(q);
    StatementBinds(GetFilters(q), q, JoinText(q), WhereClause(Conds(q)), PageLimit(q), PageOffset(q));
  }

  /** Splicing a builder's conditions into a statement keeps every
      fragment bound and binds the limit and offset after them. */
  lemma StatementBinds(b: Builder, q: FacilityQuery, join: string, where: string, limit: int, offset: int)
    requires forall i :: 0 <= i < |b.fragments| ==> GetBound(b, b.fragments[i], q)
    ensures var sent := Builder(b.fragments, Statement(join, where, b.params, limit, offset).params);
      (forall i :: 0 <= i < |b.fragments| ==> GetBound(sent, b.fragments[i], q))
      && Binds(sent, |b.params| + 1, Number(limit)) && Binds(sent, |b.params| + 2, Number(offset))
  {
    var sent := Builder(b.fragments, Statement(join, where, b.params, limit, offset).params);
    forall i | 0 <= i < |b.fragments| ensures GetBound(sent, b.fragments[i], q) {
      BoundGrows(b, sent, b.fragments[i], q);
    }
  }

  /** A truthy city, zip code or type is among the values the intended
      statement sends. */
  lemma ListSqlSendsFilters(q: FacilityQuery)
    ensures Truthy(q.city) ==> Str(q.city.value) in ListSql(q).params
    ensures Truthy(q.zipCode) ==> Str(q.zipCode.value) in ListSql(q).params
    ensures Truthy(q.kind) ==> Str(q.kind.value) in ListSql(q).params
  {
    GetFiltersAligned(q);
    GetFiltersPresent(q);
    var b := GetFilters(q);
    BoundValuesSent(b, q);
    var join, where := JoinText(q), WhereClause(Conds(q));
    if Truthy(q.city) {
      StatementSends(join, where, b.params, PageLimit(q), PageOffset(q), Str(q.city.value));
    }
    if Truthy(q.zipCode) {
      StatementSends(join, where, b.params, PageLimit(q), PageOffset(q), Str(q.zipCode.value));
    }
    if Truthy(q.kind) {
      StatementSends(join, where, b.params, PageLimit(q), PageOffset(q), Str(q.kind.value));
    }
  }

  /** Every builder parameter is sent with the statement. */
  lemma StatementSends(join: string, where: string, ps: seq<Param>, limit: int, offset: int, v: Param)
    requires v in ps
    ensures v in Statement(join, where, ps, limit, offset).params
  {
    var k :| 0 <= k < |ps| && ps[k] == v;
    assert Statement(join, where, ps, limit, offset).params[..|ps|][k] == v;
  }

  /** The value of each bound filter fragment is among the parameters. */
  lemma BoundValuesSent(b: Builder, q: FacilityQuery)
    requires forall i :: 0 <= i < |b.fragments| ==> GetBound(b, b.fragments[i], q)
    ensures HasColumn(b.fragments, "city") ==> q.city.Some? && Str(q.city.value) in b.params
    ensures HasColumn(b.fragments, "zip_code") ==> q.zipCode.Some? && Str(q.zipCode.value) in b.params
    ensures HasJoin(b.fragments) ==> q.kind.Some? && Str(q.kind.value) in b.params
  {
    if HasColumn(b.fragments, "city") {
      var i :| 0 <= i < |b.fragments| && b.fragments[i].Equals? && b.fragments[i].column == "city";
      assert GetBound(b, b.fragments[i], q);
      assert b.params[b.fragments[i].slot - 1] in b.params;
    }
    if HasColumn(b.fragments, "zip_code") {
      var i :| 0 <= i < |b.fragments| && b.fragments[i].Equals? && b.fragments[i].column == "zip_code";
      assert GetBound(b, b.fragments[i], q);
      assert b.params[b.fragments[i].slot - 1] in b.params;
    }
    if HasJoin(b.fragments) {
      var i :| 0 <= i < |b.fragments| && b.fragments[i].TypeJoin?;
      assert GetBound(b, b.fragments[i], q);
      assert b.params[b.fragments[i].slot - 1] in b.params;
    }
  }

  // ------------------------------------------------------------- search

  /** The values `searchFacilities` binds: one of four fixed statements,
      chosen by whether a type and a zip code are given, the pattern bound
      twice. The builder above them assembles a statement that is never
      run. */
  function SearchValues(q: string, kind: Option<string>, zipCode: Option<string>): seq<Param> {
    var p := Str(Pattern(q));
    if Truthy(kind) && Truthy(zipCode) then [Str(kind.value), p, p, Str(zipCode.value)]
    else if Truthy(kind) then [Str(kind.value), p, p]
    else if Truthy(zipCode) then [p, p, Str(zipCode.value)]
    else [p, p]
  }

  /** The placeholder numbers a fragment's text names, left to right: the
      search condition names its one placeholder twice. */
  function Uses(fr: Fragment): seq<nat> {
    match fr
    case Search(k) => [k, k]
    case _ => Slots(fr)
  }

  /** The placeholder numbers the conditions name, in text order. */
  function Refs(frs: seq<Fragment>): seq<nat> {
    if frs == [] then [] else Refs(frs[..|frs| - 1]) + Uses(frs[|frs| - 1])
  }

  /** The values `vs` are those the placeholders of `b`'s conditions refer
      to, in text order. */
  predicate BindsInTextOrder(b: Builder, vs: seq<Param>) {
    var refs := Refs(b.fragments);
    |refs| == |vs| && forall i :: 0 <= i < |vs| ==> Binds(b, refs[i], vs[i])
  }

  /** The fixed statements bind, in text order, exactly the values the
      unused builder's placeholders refer to. */
  lemma SearchValuesMatchBuilder(q: string, kind: Option<string>, zipCode: Option<string>)
    ensures BindsInTextOrder(SearchFilters(q, kind, zipCode), SearchValues(q, kind, zipCode))
  {
    if Truthy(kind) && Truthy(zipCode) {
      MatchBoth(q, kind, zipCode);
    } else if Truthy(kind) {
      MatchKind(q, kind, zipCode);
    } else if Truthy(zipCode) {
      MatchZip(q, kind, zipCode);
    } else {
      MatchNone(q, kind, zipCode);
    }
  }

  lemma MatchBoth(q: string, kind: Option<string>, zipCode: Option<string>)
    requires Truthy(kind) && Truthy(zipCode)
    ensures BindsInTextOrder(SearchFilters(q, kind, zipCode), SearchValues(q, kind, zipCode))
  {
    SearchShapeBoth(q, kind, zipCode);
    MatchThree(SearchFilters(q, kind, zipCode), Str(kind.value), Str(Pattern(q)), Str(zipCode.value));
  }

  lemma MatchKind(q: string, kind: Option<string>, zipCode: Option<string>)
    requires Truthy(kind) && !Truthy(zipCode)
    ensures BindsInTextOrder(SearchFilters(q, kind, zipCode), SearchValues(q, kind, zipCode))
  {
    SearchShapeKind(q, kind, zipCode);
    MatchTwo(SearchFilters(q, kind, zipCode), Equals("ft.name", 1), Search(2), Str(kind.value), Str(Pattern(q)));
  }

  lemma MatchZip(q: string, kind: Option<string>, zipCode: Option<string>)
    requires !Truthy(kind) && Truthy(zipCode)
    ensures BindsInTextOrder(SearchFilters(q, kind, zipCode), SearchValues(q, kind, zipCode))
  {
    SearchShapeZip(q, kind, zipCode);
    MatchTwo(SearchFilters(q, kind, zipCode), Search(1), Equals("f.zip_code", 2), Str(Pattern(q)), Str(zipCode.value));
  }

  lemma MatchNone(q: string, kind: Option<string>, zipCode: Option<string>)
    requires !Truthy(kind) && !Truthy(zipCode)
    ensures BindsInTextOrder(SearchFilters(q, kind, zipCode), SearchValues(q, kind, zipCode))
  {
    SearchShapeNone(q, kind, zipCode);
    assert SearchValues(q, kind, zipCode) == [Str(Pattern(q)), Str(Pattern(q))];
    MatchOne(SearchFilters(q, kind, zipCode), Str(Pattern(q)));
  }

  lemma MatchThree(b: Builder, t: Param, p: Param, z: Param)
    requires b == Builder([Equals("ft.name", 1), Search(2), Equals("f.zip_code", 3)], [t, p, z])
    ensures BindsInTextOrder(b, [t, p, p, z])
  {
    RefsOfThree(Equals("ft.name", 1), Search(2), Equals("f.zip_code", 3));
  }

  lemma MatchTwo(b: Builder, f1: Fragment, f2: Fragment, v1: Param, v2: Param)
    requires b == Builder([f1, f2], [v1, v2])
    requires (f1 == Search(1) && f2 == Equals("f.zip_code", 2)) || (f1 == Equals("ft.name", 1) && f2 == Search(2))
    ensures BindsInTextOrder(b, if f1.Search? then [v1, v1, v2] else [v1, v2, v2])
  {
    RefsOfTwo(f1, f2);
  }

  lemma MatchOne(b: Builder, p: Param)
    requires b == Builder([Search(1)], [p])
    ensures BindsInTextOrder(b, [p, p])
  {
    RefsOfOne(Search(1));
  }

  lemma RefsOfOne(a: Fragment)
    ensures Refs([a]) == Uses(a)
  {
    assert Refs([a]) == Refs([]) + Uses(a);
  }

  lemma RefsOfTwo(a: Fragment, b: Fragment)
    ensures Refs([a, b]) == Uses(a) + Uses(b)
  {
    assert [a, b][..1] == [a];
    RefsOfOne(a);
  }

  lemma RefsOfThree(a: Fragment, b: Fragment, c: Fragment)
    ensures Refs([a, b, c]) == Uses(a) + Uses(b) + Uses(c)
  {
    assert [a, b, c][..2] == [a, b];
    RefsOfTwo(a, b);
  }

  lemma SearchShapeBoth(q: string, kind: Option<string>, zipCode: Option<string>)
    requires Truthy(kind) && Truthy(zipCode)
    ensures var b := SearchFilters(q, kind, zipCode);
      b == Builder([Equals("ft.name", 1), Search(2), Equals("f.zip_code", 3)],
                   [Str(kind.value), Str(Pattern(q)), Str(zipCode.value)])
  {
    var b := SearchFilters(q, kind, zipCode);
    assert b.fragments == [Equals("ft.name", 1)] + [Search(2)] + [Equals("f.zip_code", 3)];
    assert b.params == [Str(kind.value)] + [Str(Pattern(q))] + [Str(zipCode.value)];
  }

  lemma SearchShapeKind(q: string, kind: Option<string>, zipCode: Option<string>)
    requires Truthy(kind) && !Truthy(zipCode)
    ensures var b := SearchFilters(q, kind, zipCode);
      b == Builder([Equals("ft.name", 1), Search(2)], [Str(kind.value), Str(Pattern(q))])
  {
    var b := SearchFilters(q, kind, zipCode);
    assert b.fragments == [Equals("ft.name", 1)] + [Search(2)];
    assert b.params == [Str(kind.value)] + [Str(Pattern(q))];
  }

  lemma SearchShapeZip(q: string, kind: Option<string>, zipCode: Option<string>)
    requires !Truthy(kind) && Truthy(zipCode)
    ensures var b := SearchFilters(q, kind, zipCode);
      b == Builder([Search(1), Equals("f.zip_code", 2)], [Str(Pattern(q)), Str(zipCode.value)])
  {
    var b := SearchFilters(q, kind, zipCode);
    assert b.fragments == [Search(1)] + [Equals("f.zip_code", 2)];
    assert b.params == [Str(Pattern(q))] + [Str(zipCode.value)];
  }

  lemma SearchShapeNone(q: string, kind: Option<string>, zipCode: Option<string>)
    requires !Truthy(kind) && !Truthy(zipCode)
    ensures var b := SearchFilters(q, kind, zipCode);
      b == Builder([Search(1)], [Str(Pattern(q))])
  {
  }
}

=== FILE: import_cmd.dfy ===
/** The command-line importer: every JSON entry is mapped inline (with a
    narrower tax-deductible rule than the import endpoint) and inserted with
    a PostGIS point "POINT(lng lat)" when both coordinates are non-zero. */
module ImportCmd {
  import opened Outcomes
  import opened Text
  import opened FacilityJson
  import opened Classify
  import opened Tables

  /** The facility record the command builds for one entry. Only a category
      mentioning "donation" makes it tax deductible, and only a description
      mentioning "pickup" offers pickup. */
  function CmdFacility(f: JsonFacility): (m: MappedFacility)
    ensures m.name == Or(f.title, "") && m.kind == StrictType(LowerCategory(f))
    ensures m.zipCode == Or(f.postalCode, "")
    ensures m.phone.Some?
    ensures Truthy(f.phoneUnformatted) ==> m.phone.value == f.phoneUnformatted.value
    ensures !Truthy(f.phoneUnformatted) ==> m.phone.value == Or(f.phone, "")
    ensures m.website == f.website
    ensures m.description == Some(Or(OrElse(f.description, f.categoryName), ""))
    ensures m.rating == NumOr(f.totalScore, 0)
    ensures m.latitude == Some(NumOr(Lat(f), 0)) && m.longitude == Some(NumOr(Lng(f), 0))
    ensures |m.tags| <= 1 && (m.tags == [] <==> !Truthy(f.categoryName))
    ensures m.tags != [] ==> m.tags[0] == f.categoryName.value
    ensures m.taxDeductible <==> Contains(LowerCategory(f), "donation")
    ensures m.pickupAvailable <==> MentionsPickup(f)
  {
    MappedFacility(
      Or(f.title, ""),
      StrictType(LowerCategory(f)),
      Or(f.address, ""),
      Or(f.city, ""),
      Or(f.state, ""),
      Or(f.postalCode, ""),
      Some(Or(OrElse(f.phoneUnformatted, f.phone), "")),
      f.website,
      Some(Or(f.hours, "")),
      [],
      [],
      NumOr(f.totalScore, 0),
      Some(NumOr(Lat(f), 0)),
      Some(NumOr(Lng(f), 0)),
      if Truthy(f.categoryName) then [f.categoryName.value] else [],
      Some(Or(OrElse(f.description, f.categoryName), "")),
      Contains(LowerCategory(f), "donation"),
      MentionsPickup(f))
  }

  // ------------------------------------------------------------ the point

  /** `${n}` for an integer, read back: an optional minus sign followed by
      a canonical numeral, with "-0" refused. */
  function ParseInt(t: string): (r: Option<int>)
  {
    if |t| > 1 && t[0] == '-' && Canonical(t[1..]) && t[1] != '0' then Some(0 - ParseDigits(t[1..]))
    else if Canonical(t) then Some(ParseDigits(t))
    else None
  }

  /** Printing and reading back an integer are inverse: `ParseInt` accepts
      exactly the spellings `IntToString` produces. */
  lemma IntToStringIff(i: int, t: string)
    ensures IntToString(i) == t <==> ParseInt(t) == Some(i)
  {
    if i < 0 {
      NegativeIff(i, t);
    } else {
      NatToStringIff(i, t);
      if |t| > 1 && t[0] == '-' && Canonical(t[1..]) && t[1] != '0' {
        LeadingDigitPositive(t[1..]);
      }
    }
  }

  lemma NegativeIff(i: int, t: string)
    requires i < 0
    ensures IntToString(i) == t <==> ParseInt(t) == Some(i)
  {
    var n := NatToString(-i);
    ParseNatToString(-i);
    if IntToString(i) == t {
      assert t[1..] == n;
      assert n[0] != '0';
    }
    if ParseInt(t) == Some(i) {
      NatToStringIff(-i, t[1..]);
      assert "-" + t[1..] == t;
    }
  }

  /** The point text: longitude first, then latitude, separated by one
      space. */
  function PointText(lng: int, lat: int): string {
    "POINT(" + IntToString(lng) + " " + IntToString(lat) + ")"
  }

  /** Reads "POINT(x y)" back as `(x, y)`. */
  function ParsePoint(s: string): (r: Option<(int, int)>)
  {
    if |s| >= 7 && s[..6] == "POINT(" && s[|s| - 1] == ')' then
      var parts := Split(s[6..|s| - 1], " ");
      if |parts| == 2 && ParseInt(parts[0]).Some? && ParseInt(parts[1]).Some? then
        Some((ParseInt(parts[0]).value, ParseInt(parts[1]).value))
      else None
    else None
  }

  /** A printed integer holds no space. */
  lemma IntToStringNoSpace(i: int)
    ensures forall k :: 0 <= k < |IntToString(i)| ==> IntToString(i)[k] != ' '
  {
    var n := if i < 0 then -i else i;
    assert AllDigits(NatToString(n));
    if i < 0 {
      assert IntToString(i) == "-" + NatToString(n);
    }
  }

  /** Splitting "a b" at its one space gives back `a` and `b`. */
  lemma SplitAtSpace(a: string, b: string)
    requires forall k :: 0 <= k < |a| ==> a[k] != ' '
    requires forall k :: 0 <= k < |b| ==> b[k] != ' '
    ensures Split(a + " " + b, " ") == [a, b]
  {
    var s := a + " " + b;
    assert OccursAt(s, " ", |a|);
    var i := IndexOf(s, " ").value;
    forall j | 0 <= j < |a| ensures !OccursAt(s, " ", j) {
      assert s[j..j + 1] == [a[j]];
    }
    assert i == |a|;
    assert s[|a| + 1..] == b;
    assert !Contains(b, " ") by {
      forall j | 0 <= j <= |b| - 1 ensures !OccursAt(b, " ", j) {
        assert b[j..j + 1] == [b[j]];
      }
    }
    SplitInTwo(s, " ");
    assert s[..|a|] == a;
  }

  /** The point text is read back as the coordinates it was printed from. */
  lemma PointRoundTrip(lng: int, lat: int)
    ensures ParsePoint(PointText(lng, lat)) == Some((lng, lat))
  {
    var a := IntToString(lng);
    var b := IntToString(lat);
    var s := PointText(lng, lat);
    assert s[..6] == "POINT(";
    assert s[6..|s| - 1] == a + " " + b;
    IntToStringNoSpace(lng);
    IntToStringNoSpace(lat);
    SplitAtSpace(a, b);
    IntToStringIff(lng, a);
    IntToStringIff(lat, b);
  }

  /** The `location` value: a point only when both coordinates are truthy,
      that is non-zero, and NULL otherwise. */
  function PointColumn(lat: int, lng: int): (r: Option<string>)
    ensures r.Some? <==> lat != 0 && lng != 0
    ensures r.Some? ==> ParsePoint(r.value) == Some((lng, lat))
  {
    if lat != 0 && lng != 0 then
      PointRoundTrip(lng, lat);
      Some(PointText(lng, lat))
    else None
  }

  /** One inserted row: the record and its location. */
  function CmdRow(f: JsonFacility): (MappedFacility, Option<string>) {
    var m := CmdFacility(f);
    (m, PointColumn(m.latitude.value, m.longitude.value))
  }

  /** The command's loop: every entry is inserted, in order, and the final
      count is the number of entries. */
  method CmdRun(fs: seq<JsonFacility>) returns (rows: seq<(MappedFacility, Option<string>)>, count: nat)
    ensures count == |rows| == |fs|
    ensures forall i :: 0 <= i < count ==> rows[i] == CmdRow(fs[i])
  {
    rows := MapFirst(fs, |fs|, CmdRow);
    count := |rows|;
  }
}

=== FILE: import_facilities.dfy ===
/** The facility import endpoint: each of the first 50 JSON entries is
    mapped to a facility record and inserted with `ON CONFLICT DO NOTHING`,
    the insert itself replacing falsy values by fixed defaults. */
module ImportFacilities {
  import opened Outcomes
  import opened Text
  import opened FacilityJson
  import opened Classify
  import opened Tables

  const ImportLimit: nat := 50

  /** `determineTaxDeductible`: the category mentions a charity or a
      donation, or the entry says so itself. */
  function TaxDeductible(f: JsonFacility): bool
  {
    var category := LowerCategory(f);
    Contains(category, "charity") || Contains(category, "donation") || f.taxDeductible
  }

  /** `determinePickupAvailable`: the entry says so, or its description
      mentions "pickup". */
  function PickupAvailable(f: JsonFacility): bool
  {
    f.pickupAvailable || MentionsPickup(f)
  }

  /** An entry is deductible exactly when it says so or its category spells
      "charity" or "donation" in any mix of upper and lower case. */
  lemma DeductibleAnyCase(f: JsonFacility)
    ensures TaxDeductible(f) <==>
      f.taxDeductible
      || (f.categoryName.Some? && (SpelledAnyCase(f.categoryName.value, "charity")
                                   || SpelledAnyCase(f.categoryName.value, "donation")))
  {
    if f.categoryName.Some? {
      ContainsAnyCase(f.categoryName.value, "charity");
      ContainsAnyCase(f.categoryName.value, "donation");
    }
  }

  /** An entry offers pickup exactly when it says so or its description
      spells "pickup" in any mix of upper and lower case; in particular an
      entry without the flag whose description lacks the word does not. */
  lemma PickupAnyCase(f: JsonFacility)
    ensures PickupAvailable(f) <==>
      f.pickupAvailable || (f.description.Some? && SpelledAnyCase(f.description.value, "pickup"))
  {
    if f.description.Some? {
      ContainsAnyCase(f.description.value, "pickup");
    }
  }

  /** `determineTags`: the category name alone, when it is non-empty. */
  function Tags(f: JsonFacility): (r: seq<string>)
    ensures |r| <= 1
    ensures r == [] <==> !Truthy(f.categoryName)
    ensures r != [] ==> r[0] == f.categoryName.value
  {
    if Truthy(f.categoryName) then [f.categoryName.value] else []
  }

  /** `mapJSONToFacility`. */
  function MapJsonToFacility(f: JsonFacility): (m: MappedFacility)
    ensures m.name == Or(f.title, "") && m.address == Or(f.address, "")
    ensures m.kind == StrictType(LowerCategory(f))
    ensures m.phone.Some?
    ensures Truthy(f.phoneUnformatted) ==> m.phone.value == f.phoneUnformatted.value
    ensures !Truthy(f.phoneUnformatted) ==> m.phone.value == Or(f.phone, "")
    ensures m.description == Some(Or(OrElse(f.description, f.categoryName), ""))
    ensures m.acceptedItems == [] && m.rejectedItems == []
    ensures m.rating == NumOr(f.totalScore, 0)
    ensures m.latitude == Some(NumOr(Lat(f), 0)) && m.longitude == Some(NumOr(Lng(f), 0))
    ensures m.tags == Tags(f)
    ensures m.taxDeductible == TaxDeductible(f) && m.pickupAvailable == PickupAvailable(f)
    ensures NullIfFalsy(f.website, m.website)
  {
    MappedFacility(
      Or(f.title, ""),
      StrictType(LowerCategory(f)),
      Or(f.address, ""),
      Or(f.city, ""),
      Or(f.state, ""),
      Or(f.postalCode, ""),
      Some(Or(OrElse(f.phoneUnformatted, f.phone), "")),
      OrNull(f.website),
      Some(Or(f.hours, "")),
      [],
      [],
      NumOr(f.totalScore, 0),
      Some(NumOr(Lat(f), 0)),
      Some(NumOr(Lng(f), 0)),
      Tags(f),
      Some(Or(OrElse(f.description, f.categoryName), "")),
      TaxDeductible(f),
      PickupAvailable(f))
  }

  /** `w` is what `v || null` binds for a text column: the value itself
      when it is truthy, NULL otherwise. */
  predicate NullIfFalsy(v: Option<string>, w: Option<string>) {
    (w.Some? <==> Truthy(v)) && (w.Some? ==> w == v)
  }

  /** The same for a number column, where 0 is falsy. */
  predicate NumNullIfFalsy(v: Option<int>, w: Option<int>) {
    (w.Some? <==> NumTruthy(v)) && (w.Some? ==> w == v)
  }

  /** `v || null` for an optional string column. */
  function OrNull(v: Option<string>): (r: Option<string>)
    ensures NullIfFalsy(v, r)
  {
    if Truthy(v) then v else None
  }

  /** `v || null` for an optional number column. */
  function NumOrNull(v: Option<int>): (r: Option<int>)
    ensures NumNullIfFalsy(v, r)
  {
    if NumTruthy(v) then v else None
  }

  /** `v || d` for a required text column. */
  function TextOr(v: string, d: string): (r: string)
    ensures v != "" ==> r == v
    ensures v == "" ==> r == d
  {
    if v != "" then v else d
  }

  /** The row the insert writes: an empty name, address or city becomes
      "Unknown Facility", "Unknown Address" or "Unknown City", an empty state
      "Unknown", and empty optional text or a zero coordinate NULL; every
      non-empty value is written as it is, and the other columns are
      unchanged. */
  function StoredRow(m: MappedFacility): (r: MappedFacility)
    ensures m.name != "" ==> r.name == m.name
    ensures m.name == "" ==> r.name == "Unknown Facility"
    ensures m.address != "" ==> r.address == m.address
    ensures m.address == "" ==> r.address == "Unknown Address"
    ensures m.city != "" ==> r.city == m.city
    ensures m.city == "" ==> r.city == "Unknown City"
    ensures m.state != "" ==> r.state == m.state
    ensures m.state == "" ==> r.state == "Unknown"
    ensures NullIfFalsy(m.phone, r.phone) && NullIfFalsy(m.website, r.website)
    ensures NullIfFalsy(m.hours, r.hours) && NullIfFalsy(m.description, r.description)
    ensures NumNullIfFalsy(m.latitude, r.latitude) && NumNullIfFalsy(m.longitude, r.longitude)
    ensures r.kind == m.kind && r.zipCode == m.zipCode && r.rating == m.rating && r.tags == m.tags
    ensures r.acceptedItems == m.acceptedItems && r.rejectedItems == m.rejectedItems
    ensures r.taxDeductible == m.taxDeductible && r.pickupAvailable == m.pickupAvailable
  {
    m.(name := TextOr(m.name, "Unknown Facility"),
       address := TextOr(m.address, "Unknown Address"),
       city := TextOr(m.city, "Unknown City"),
       state := TextOr(m.state, "Unknown"),
       phone := OrNull(m.phone),
       website := OrNull(m.website),
       hours := OrNull(m.hours),
       rating := m.rating,
       latitude := NumOrNull(m.latitude),
       longitude := NumOrNull(m.longitude),
       description := OrNull(m.description))
  }

  /** A stored row is stored again unchanged: every default the insert
      substitutes is itself truthy. */
  lemma StoredRowIdempotent(m: MappedFacility)
    ensures StoredRow(StoredRow(m)) == StoredRow(m)
  {
  }

  /** Imported coordinates are NULL exactly when the entry has no location
      or a zero coordinate. */
  lemma StoredCoordinates(f: JsonFacility)
    ensures var r := StoredRow(MapJsonToFacility(f));
      (r.latitude.None? <==> !NumTruthy(Lat(f)))
      && (r.longitude.None? <==> !NumTruthy(Lng(f)))
      && (r.latitude.Some? ==> r.latitude == Lat(f))
  {
  }

  /** An entry without a category is mixed, untagged, and tax deductible
      only if it says so itself. */
  lemma MissingCategory(f: JsonFacility)
    requires f.categoryName.None?
    ensures var m := MapJsonToFacility(f);
      m.kind == Mixed && m.tags == [] && m.taxDeductible == f.taxDeductible
  {
    assert LowerCategory(f) == "";
    assert !Contains("", "charity") && !Contains("", "donation");
  }

  /** A category that makes an entry tax deductible places it in the
      recycling or donation class: "charity" and "donation" are donation
      keywords and only "recycling" is tried before them. */
  lemma DeductibleCategoryClass(f: JsonFacility)
    requires Contains(LowerCategory(f), "charity") || Contains(LowerCategory(f), "donation")
    ensures StrictType(LowerCategory(f)) in {Recycling, Donation}
  {
    var c := LowerCategory(f);
    if Contains(c, "donation") {
      assert Contains(c, StrictWords(Donation)[0]);
    } else {
      assert Contains(c, StrictWords(Donation)[1]);
    }
    assert Mentions(c, StrictWords(Donation));
  }

  /** The row written for one entry. */
  function ImportedRow(f: JsonFacility): MappedFacility {
    StoredRow(MapJsonToFacility(f))
  }

  /** The import loop over the first 50 entries: one insert attempt per
      processed entry, in order, and the returned count is the number
      processed, whether or not `ON CONFLICT DO NOTHING` kept the row. */
  method ImportRun(fs: seq<JsonFacility>) returns (rows: seq<MappedFacility>, count: nat)
    ensures count == |rows| == (if |fs| < ImportLimit then |fs| else ImportLimit)
    ensures forall i :: 0 <= i < count ==> rows[i] == ImportedRow(fs[i])
  {
    rows := MapFirst(fs, ImportLimit, ImportedRow);
    count := |rows|;
  }
}

=== FILE: import_json_data.dfy ===
/** The JSON-to-database import endpoint for facilities (import of the
    scraped map listings): the conversion of "7 AM"-style times, the day
    table, opening-hours parsing with its defaults, the set of facility types
    created, the row written per facility and the inserted/skipped counts. */
module JsonDataImport {
  import opened Outcomes
  import opened Text
  import opened FacilityJson
  import opened ClockTime

  const DefaultOpen: string := "09:00:00"
  const DefaultClose: string := "17:00:00"

  // ------------------------------------------------------- days of week

  /** The members every object literal inherits from `Object.prototype`. */
  const PrototypeKeys: set<string> := {
    "constructor", "__proto__", "hasOwnProperty", "isPrototypeOf", "propertyIsEnumerable",
    "toString", "toLocaleString", "valueOf",
    "__defineGetter__", "__defineSetter__", "__lookupGetter__", "__lookupSetter__"}

  /** What `dayOfWeekMap[day]` yields: one of the seven day numbers, an
      inherited member (a function, or the prototype itself for
      `__proto__`), or `undefined`. */
  datatype DayLookup = DayNumber(n: nat) | Inherited | Undefined

  /** `dayOfWeekMap[day]`: Sunday is 0, Monday 1, ..., Saturday 6; the
      table is a plain object literal, so the prototype's member names are
      found too. */
  function DayOfWeek(day: string): (r: DayLookup)
    ensures r.DayNumber? ==> r.n < 7
    ensures r.Inherited? <==> day in PrototypeKeys
  {
    if day == "Sunday" then DayNumber(0)
    else if day == "Monday" then DayNumber(1)
    else if day == "Tuesday" then DayNumber(2)
    else if day == "Wednesday" then DayNumber(3)
    else if day == "Thursday" then DayNumber(4)
    else if day == "Friday" then DayNumber(5)
    else if day == "Saturday" then DayNumber(6)
    else if day in PrototypeKeys then Inherited
    else Undefined
  }

  /** The English name of a day number. */
  function DayName(d: nat): string
    requires d < 7
  {
    ["Sunday", "Monday", "Tuesday", "Wednesday", "Thursday", "Friday", "Saturday"][d]
  }

  /** The day table is exactly the inverse of the seven day names. */
  lemma DayTableBijective(day: string, d: nat)
    ensures DayOfWeek(day) == DayNumber(d) <==> d < 7 && day == DayName(d)
  {
  }

  // ------------------------------------------------------ opening hours

  datatype HoursRow = HoursRow(dayOfWeek: nat, openTime: string, closeTime: string, isClosed: bool)

  /** What one `openingHours` entry does: nothing, an upsert of a
      `facility_hours` row, or an insert that fails. */
  datatype EntryEffect = Skipped | Written(row: HoursRow) | Failed

  /** One `openingHours` entry. An entry whose day is `undefined` in the
      table is skipped; "Closed" marks the day closed. An inherited member
      is not `undefined`, so the entry goes on to the insert with that
      member bound as the day number, a value that is not a number, and the
      insert fails. */
  function ParseOpeningHours(e: HoursEntry): (r: EntryEffect)
    ensures r.Skipped? <==> DayOfWeek(e.day).Undefined?
    ensures r.Failed? <==> e.day in PrototypeKeys
    ensures r.Written? ==> r.row.dayOfWeek == DayOfWeek(e.day).n
    ensures r.Written? ==> (r.row.isClosed <==> e.hours == "Closed")
  {
    match DayOfWeek(e.day)
    case Undefined => Skipped
    case Inherited => Failed
    case DayNumber(d) =>
      if e.hours == "Closed" then Written(HoursRow(d, DefaultOpen, DefaultClose, true))
      else
        var parts := Split(e.hours, " to ");
        if |parts| == 2 then
          Written(HoursRow(d, ConvertToTime(parts[0]), ConvertToTime(parts[1]), false))
        else
          Written(HoursRow(d, DefaultOpen, DefaultClose, false))
  }

  /** The times of an open day are converted exactly when " to " occurs in
      its hours and does not occur again after its first occurrence: the
      part before it is the opening time and the part after it the closing
      time. Any other text, and "Closed", keeps 09:00:00 to 17:00:00. */
  lemma OpeningTimes(e: HoursEntry)
    requires DayOfWeek(e.day).DayNumber?
    ensures var row := ParseOpeningHours(e).row;
      match IndexOf(e.hours, " to ")
      case Some(i) =>
        if e.hours != "Closed" && !Contains(e.hours[i + 4..], " to ") then
          row.openTime == ConvertToTime(e.hours[..i])
          && row.closeTime == ConvertToTime(e.hours[i + 4..])
        else
          row.openTime == DefaultOpen && row.closeTime == DefaultClose
      case None =>
        row.openTime == DefaultOpen && row.closeTime == DefaultClose
  {
    SplitInTwo(e.hours, " to ");
  }

  /** `j` is the last of `rows` that sets day `d`. */
  predicate LastRowFor(rows: seq<Option<HoursRow>>, d: nat, j: nat) {
    j < |rows| && rows[j].Some? && rows[j].value.dayOfWeek == d
    && forall k :: j < k < |rows| ==> rows[k].None? || rows[k].value.dayOfWeek != d
  }

  /** Upserting the rows in order, keyed by day: each day set by some row
      holds the last row that sets it, and no other day is present. */
  function Upsert(rows: seq<Option<HoursRow>>): (r: map<nat, HoursRow>)
    ensures forall d :: d in r ==> exists j: nat :: LastRowFor(rows, d, j)
    ensures forall d: nat, j: nat :: LastRowFor(rows, d, j) ==> d in r && r[d] == rows[j].value
    decreases |rows|
  {
    if rows == [] then map[]
    else
      var prefix := rows[..|rows| - 1];
      var m := Upsert(prefix);
      var r := match rows[|rows| - 1]
        case None => m
        case Some(row) => m[row.dayOfWeek := row];
      UpsertStep(rows, prefix, m, r);
      r
  }

  lemma UpsertStep(rows: seq<Option<HoursRow>>, prefix: seq<Option<HoursRow>>, m: map<nat, HoursRow>,
                   r: map<nat, HoursRow>)
    requires rows != [] && prefix == rows[..|rows| - 1]
    requires forall d :: d in m ==> exists j: nat :: LastRowFor(prefix, d, j)
    requires forall d: nat, j: nat :: LastRowFor(prefix, d, j) ==> d in m && m[d] == prefix[j].value
    requires r == match rows[|rows| - 1]
        case None => m
        case Some(row) => m[row.dayOfWeek := row]
    ensures forall d :: d in r ==> exists j: nat :: LastRowFor(rows, d, j)
    ensures forall d: nat, j: nat :: LastRowFor(rows, d, j) ==> d in r && r[d] == rows[j].value
  {
    var last := |rows| - 1;
    forall d | d in r ensures exists j: nat :: LastRowFor(rows, d, j) {
      if rows[last].Some? && d == rows[last].value.dayOfWeek {
        assert LastRowFor(rows, d, last);
      } else {
        var j: nat :| LastRowFor(prefix, d, j);
        assert LastRowFor(rows, d, j);
      }
    }
    forall d: nat, j: nat | LastRowFor(rows, d, j) ensures d in r && r[d] == rows[j].value {
      if j < last {
        assert LastRowFor(prefix, d, j);
      }
    }
  }

  /** Some entry names an inherited member as its day. */
  predicate AnyFails(es: seq<HoursEntry>) {
    exists j :: 0 <= j < |es| && ParseOpeningHours(es[j]).Failed?
  }

  /** The hour rows left by inserting the entries in order with
      `ON CONFLICT (facility_id, day_of_week) DO UPDATE`: one row per named
      day, taken from the last entry naming it; nothing when one of the
      inserts fails. */
  function HoursFromEntries(es: seq<HoursEntry>): (r: Option<map<nat, HoursRow>>)
    ensures r.None? <==> AnyFails(es)
    ensures r.Some? ==> forall d :: d in r.value ==> d < 7
    ensures r.Some? ==> forall d :: d in r.value ==> exists j: nat :: LastRowFor(ParsedEntries(es), d, j)
    ensures r.Some? ==> forall d: nat, j: nat :: LastRowFor(ParsedEntries(es), d, j) ==>
      d in r.value && r.value[d] == ParseOpeningHours(es[j]).row
  {
    if AnyFails(es) then None
    else
      var rows := ParsedEntries(es);
      var r := Upsert(rows);
      assert forall d :: d in r ==> d < 7 by {
        forall d | d in r ensures d < 7 {
          var j: nat :| LastRowFor(rows, d, j);
        }
      }
      Some(r)
  }

  /** The rows the entries upsert, `None` for an entry that writes none. */
  function ParsedEntries(es: seq<HoursEntry>): (rows: seq<Option<HoursRow>>)
    ensures |rows| == |es|
    ensures forall j :: 0 <= j < |es| ==>
      rows[j] == (if ParseOpeningHours(es[j]).Written? then Some(ParseOpeningHours(es[j]).row) else None)
  {
    seq(|es|, j requires 0 <= j < |es| =>
      if ParseOpeningHours(es[j]).Written? then Some(ParseOpeningHours(es[j]).row) else None)
  }

  /** An entry naming a day of the table decides that day unless a later
      entry names the same day, or some entry fails the import. */
  lemma LastEntryWins(es: seq<HoursEntry>, j: nat)
    requires j < |es| && DayOfWeek(es[j].day).DayNumber?
    requires forall k :: j < k < |es| ==> DayOfWeek(es[k].day) != DayOfWeek(es[j].day)
    ensures var d, h := DayOfWeek(es[j].day).n, HoursFromEntries(es);
      h.Some? ==> d in h.value && h.value[d] == ParseOpeningHours(es[j]).row
  {
    var rows := ParsedEntries(es);
    var d := DayOfWeek(es[j].day).n;
    assert LastRowFor(rows, d, j);
  }

  /** One entry naming an inherited member fails the facility's hours,
      wherever it stands in the list. */
  lemma InheritedDayFails(es: seq<HoursEntry>, j: nat)
    requires j < |es| && es[j].day in PrototypeKeys
    ensures HoursFromEntries(es).None?
  {
    assert ParseOpeningHours(es[j]).Failed?;
  }

  /** The schedule inserted when a facility lists no opening hours. */
  function DefaultSchedule(): (rows: seq<HoursRow>)
    ensures |rows| == 7
    ensures forall d :: 0 <= d < 7 ==> rows[d].dayOfWeek == d
    ensures forall d :: 1 <= d <= 5 ==> rows[d] == HoursRow(d, "09:00:00", "17:00:00", false)
    ensures rows[6] == HoursRow(6, "10:00:00", "16:00:00", true)
    ensures rows[0] == HoursRow(0, "12:00:00", "16:00:00", true)
  {
    seq(7, day requires 0 <= day < 7 =>
      HoursRow(day,
        if 1 <= day <= 5 then "09:00:00" else if day == 6 then "10:00:00" else "12:00:00",
        if 1 <= day <= 5 then "17:00:00" else if day == 6 then "16:00:00" else "16:00:00",
        day == 0 || day == 6))
  }

  /** The schedule as keyed rows. */
  function DefaultHours(): (r: map<nat, HoursRow>)
    ensures forall d: nat :: d in r <==> d < 7
    ensures forall d :: d in r ==> r[d] == DefaultSchedule()[d]
  {
    map d: nat | d < 7 :: DefaultSchedule()[d]
  }

  /** The hour rows of one imported facility: the listed opening hours when
      the list is non-empty (even if no entry names a known day), otherwise
      the default schedule; `None` when an insert fails. */
  function FacilityHours(f: JsonFacility): (r: Option<map<nat, HoursRow>>)
    ensures f.openingHours.Some? && |f.openingHours.value| > 0 ==>
      r == HoursFromEntries(f.openingHours.value)
    ensures f.openingHours.None? || |f.openingHours.value| == 0 ==> r == Some(DefaultHours())
  {
    if f.openingHours.Some? && |f.openingHours.value| > 0
    then HoursFromEntries(f.openingHours.value)
    else Some(DefaultHours())
  }

  // ------------------------------------------------------ facility types

  /** The type names one facility contributes: its `categories` when
      non-empty, else its `categoryName` when truthy. */
  function CategoriesOf(f: JsonFacility): set<string> {
    if f.categories.Some? && |f.categories.value| > 0 then set c | c in f.categories.value
    else if Truthy(f.categoryName) then {f.categoryName.value}
    else {}
  }

  /** `allTypes`: the union of the facilities' type names. */
  function TypeNames(fs: seq<JsonFacility>): (r: set<string>)
    ensures forall t :: t in r <==> exists i :: 0 <= i < |fs| && t in CategoriesOf(fs[i])
    decreases |fs|
  {
    if fs == [] then {}
    else
      var rest := TypeNames(fs[1..]);
      assert forall i :: 1 <= i < |fs| ==> fs[i] == fs[1..][i - 1];
      CategoriesOf(fs[0]) + rest
  }

  // ---------------------------------------------------- facility rows

  datatype Point = Point(lng: int, lat: int)

  /** The `facilities` row written for one JSON entry. */
  datatype FacilityRow = FacilityRow(
    name: Option<string>,
    description: Option<string>,
    address: Option<string>,
    city: Option<string>,
    state: string,
    zipCode: string,
    phone: Option<string>,
    website: Option<string>,
    isVerified: bool,
    location: Option<Point>)

  /** The row of one facility. The location is set only when both
      coordinates are non-zero; the city defaults to "" only on the branch
      without a location (with a location an absent city stays NULL). */
  function FacilityRowOf(f: JsonFacility): (r: FacilityRow)
    ensures r.isVerified
    ensures r.location.Some? <==> f.location.Some? && f.location.value.lat != 0 && f.location.value.lng != 0
    ensures r.location.Some? ==> r.location.value == Point(f.location.value.lng, f.location.value.lat)
    ensures r.location.None? ==> r.city == Some(Or(f.city, ""))
    ensures r.location.Some? ==> r.city == f.city
    ensures r.description == (if Truthy(f.categoryName) then f.categoryName else None)
    ensures r.zipCode == Or(f.postalCode, "") && r.state == Or(f.state, "")
  {
    var hasPoint := f.location.Some? && f.location.value.lat != 0 && f.location.value.lng != 0;
    FacilityRow(
      f.title,
      if Truthy(f.categoryName) then f.categoryName else None,
      f.address,
      if hasPoint then f.city else Some(Or(f.city, "")),
      Or(f.state, ""),
      Or(f.postalCode, ""),
      if Truthy(f.phone) then f.phone else None,
      if Truthy(f.url) then f.url else None,
      true,
      if hasPoint then Some(Point(f.location.value.lng, f.location.value.lat)) else None)
  }

  /** The item names linked to a facility: those marked accepted in its
      `additionalInfo.Recycling` lists. */
  function AcceptedItemNames(f: JsonFacility): (r: set<string>)
    ensures forall n :: n in r <==>
      exists i :: 0 <= i < |f.recycling| && (n, true) in f.recycling[i]
  {
    set i, p | 0 <= i < |f.recycling| && p in f.recycling[i] && p.1 :: p.0
  }

  /** Everything the import writes for one facility. */
  datatype ImportedFacility = ImportedFacility(
    row: FacilityRow,
    typeNames: set<string>,
    hours: map<nat, HoursRow>,
    items: set<string>)

  /** Everything one facility writes, or `None` when one of its writes
      fails (which fails the whole import). */
  function ImportOne(f: JsonFacility): (r: Option<ImportedFacility>)
    ensures r.None? <==> FacilityHours(f).None?
    ensures r.Some? ==> r.value.row == FacilityRowOf(f) && r.value.typeNames == CategoriesOf(f)
    ensures r.Some? ==> r.value.hours == FacilityHours(f).value && r.value.items == AcceptedItemNames(f)
  {
    match FacilityHours(f)
    case None => None
    case Some(hours) => Some(ImportedFacility(FacilityRowOf(f), CategoriesOf(f), hours, AcceptedItemNames(f)))
  }

  // ----------------------------------------------- inserted and skipped

  /** The (name, address) pair the duplicate check compares. SQL compares
      NULL with nothing, so a facility lacking either never matches. */
  function KeyOf(f: JsonFacility): Option<(string, string)> {
    if f.title.Some? && f.address.Some? then Some((f.title.value, f.address.value)) else None
  }

  /** The keys of the open facilities of `fs`. */
  function OpenKeys(fs: seq<JsonFacility>): set<(string, string)>
    decreases |fs|
  {
    if fs == [] then {}
    else
      var f := fs[|fs| - 1];
      OpenKeys(fs[..|fs| - 1]) + (if !f.permanentlyClosed && KeyOf(f).Some? then {KeyOf(f).value} else {})
  }

  /** The number of open facilities of `fs` that have no key. */
  function KeylessOpen(fs: seq<JsonFacility>): nat
    decreases |fs|
  {
    if fs == [] then 0
    else
      var f := fs[|fs| - 1];
      KeylessOpen(fs[..|fs| - 1]) + (if !f.permanentlyClosed && KeyOf(f).None? then 1 else 0)
  }

  /** The number of permanently closed facilities of `fs`. */
  function ClosedCount(fs: seq<JsonFacility>): nat
    decreases |fs|
  {
    if fs == [] then 0
    else ClosedCount(fs[..|fs| - 1]) + (if fs[|fs| - 1].permanentlyClosed then 1 else 0)
  }

  /** Whether the insert loop inserts facility `f` when the table holds
      `table`. */
  predicate Inserts(f: JsonFacility, table: set<(string, string)>) {
    !f.permanentlyClosed && (KeyOf(f).None? || KeyOf(f).value !in table)
  }

  /** The number of facilities of `fs` the loop inserts, facility by
      facility. */
  function InsertedCount(fs: seq<JsonFacility>, existing: set<(string, string)>): nat
    decreases |fs|
  {
    if fs == [] then 0
    else
      var prefix := fs[..|fs| - 1];
      InsertedCount(prefix, existing)
        + (if Inserts(fs[|fs| - 1], existing + OpenKeys(prefix)) then 1 else 0)
  }

  /** Every insertion either adds a key not yet in the table or has no key:
      the inserted count is the number of new keys plus the keyless open
      facilities. */
  lemma {:induction false} InsertedIsNewKeys(fs: seq<JsonFacility>, existing: set<(string, string)>)
    ensures InsertedCount(fs, existing) == |OpenKeys(fs) - existing| + KeylessOpen(fs)
    decreases |fs|
  {
    if fs != [] {
      var prefix := fs[..|fs| - 1];
      var f := fs[|fs| - 1];
      InsertedIsNewKeys(prefix, existing);
      var before := OpenKeys(prefix) - existing;
      var added: set<(string, string)> := if !f.permanentlyClosed && KeyOf(f).Some? then {KeyOf(f).value} else {};
      assert OpenKeys(fs) == OpenKeys(prefix) + added;
      if added == {} {
        assert OpenKeys(fs) - existing == before;
      } else {
        var k := KeyOf(f).value;
        if k in existing + OpenKeys(prefix) {
          assert OpenKeys(fs) - existing == before;
        } else {
          assert OpenKeys(fs) - existing == before + {k};
          assert k !in before;
        }
      }
    }
  }

  /** Facility `i` is inserted and then one of its hour rows fails. */
  predicate FailsAt(fs: seq<JsonFacility>, existing: set<(string, string)>, i: nat) {
    i < |fs| && Inserts(fs[i], existing + OpenKeys(fs[..i])) && ImportOne(fs[i]).None?
  }

  /** No facility before `i` fails. */
  predicate NoneFailBefore(fs: seq<JsonFacility>, existing: set<(string, string)>, i: nat) {
    forall k: nat :: k < i ==> !FailsAt(fs, existing, k)
  }

  lemma NoneFailStep(fs: seq<JsonFacility>, existing: set<(string, string)>, i: nat)
    requires i < |fs| && NoneFailBefore(fs, existing, i) && !FailsAt(fs, existing, i)
    ensures NoneFailBefore(fs, existing, i + 1)
  {
  }

  lemma NoneFailAll(fs: seq<JsonFacility>, existing: set<(string, string)>)
    requires NoneFailBefore(fs, existing, |fs|)
    ensures forall i: nat :: !FailsAt(fs, existing, i)
  {
  }

  /** The insert loop of the import: a permanently closed facility is
      skipped, so is one whose name and address are already in the table
      (including rows inserted earlier in the same run); every other one is
      inserted. Every facility is counted once, the table ends up holding
      the keys of all open facilities, and each insertion of a keyed facility
      adds a new key. The run commits exactly when no inserted facility
      fails; otherwise the transaction is rolled back and the table is
      left as it was. */
  method ImportCounts(fs: seq<JsonFacility>, existing: set<(string, string)>)
    returns (committed: bool, inserted: nat, skipped: nat, table: set<(string, string)>)
    ensures committed <==> forall i: nat :: !FailsAt(fs, existing, i)
    ensures !committed ==> table == existing
    ensures committed ==> inserted + skipped == |fs|
    ensures committed ==> skipped >= ClosedCount(fs)
    ensures committed ==> table == existing + OpenKeys(fs)
    ensures committed ==> inserted == |OpenKeys(fs) - existing| + KeylessOpen(fs)
  {
    inserted, skipped, table := 0, 0, existing;
    var i := 0;
    while i < |fs|
      invariant 0 <= i <= |fs|
      invariant inserted + skipped == i
      invariant skipped >= ClosedCount(fs[..i])
      invariant table == existing + OpenKeys(fs[..i])
      invariant inserted == InsertedCount(fs[..i], existing)
      invariant NoneFailBefore(fs, existing, i)
    {
      PrefixStep(fs, i);
      InsertStep(fs, existing, i);
      if Inserts(fs[i], table) {
        if ImportOne(fs[i]).None? {
          assert FailsAt(fs, existing, i);
          return false, 0, 0, existing;
        }
        inserted := inserted + 1;
        if KeyOf(fs[i]).Some? {
          table := table + {KeyOf(fs[i]).value};
        }
      } else {
        skipped := skipped + 1;
      }
      NoneFailStep(fs, existing, i);
      i := i + 1;
    }
    assert fs[..|fs|] == fs;
    InsertedIsNewKeys(fs, existing);
    NoneFailAll(fs, existing);
    committed := true;
  }

  /** One turn of the insert loop: the table gains the facility's key
      exactly when it is inserted with one, and the inserted count grows
      by one exactly when it is inserted. */
  lemma InsertStep(fs: seq<JsonFacility>, existing: set<(string, string)>, i: nat)
    requires i < |fs|
    ensures var table := existing + OpenKeys(fs[..i]);
      var key := KeyOf(fs[i]);
      existing + OpenKeys(fs[..i + 1])
        == (if Inserts(fs[i], table) && key.Some? then table + {key.value} else table)
      && InsertedCount(fs[..i + 1], existing)
        == InsertedCount(fs[..i], existing) + (if Inserts(fs[i], table) then 1 else 0)
  {
    assert fs[..i + 1][..i] == fs[..i];
    PrefixStep(fs, i);
  }

  /** How the per-prefix counts grow by one facility. */
  lemma PrefixStep(fs: seq<JsonFacility>, i: nat)
    requires i < |fs|
    ensures var closed, key := fs[i].permanentlyClosed, KeyOf(fs[i]);
      OpenKeys(fs[..i + 1]) == OpenKeys(fs[..i]) + (if !closed && key.Some? then {key.value} else {})
      && KeylessOpen(fs[..i + 1]) == KeylessOpen(fs[..i]) + (if !closed && key.None? then 1 else 0)
      && ClosedCount(fs[..i + 1]) == ClosedCount(fs[..i]) + (if closed then 1 else 0)
  {
    assert fs[..i + 1][..i] == fs[..i];
  }
}

=== FILE: import_script.dfy ===
/** The stand-alone import script: the first ten JSON entries are mapped
    with fixed defaults for every required column and inserted one by one;
    when the JSON file cannot be loaded, a built-in sample list is inserted
    instead. */
module ImportScript {
  import opened Outcomes
  import opened Text
  import opened FacilityJson
  import opened Classify
  import opened Tables
  import ImportFacilities
  import ImportCmd

  const ScriptLimit: nat := 10

  /** The record the script builds for one entry. Every `NOT NULL` text
      column gets a non-empty default, the rating defaults to 3, and an
      entry's own tag list wins over its category even when it is empty.
      Unlike the endpoint and the command, the script prefers `phone` to
      `phoneUnformatted`, and it keeps the website as it is. */
  function ScriptFacility(f: JsonFacility): (m: MappedFacility)
    ensures m.name != "" && m.address != "" && m.city != "" && m.state != "" && m.zipCode != ""
    ensures m.name == Or(OrElse(f.title, f.name), "Unknown Facility")
    ensures m.address == Or(f.address, "Unknown Address")
    ensures m.city == Or(f.city, "Unknown City") && m.state == Or(f.state, "Unknown State")
    ensures m.zipCode == Or(OrElse(f.postalCode, f.zipCodeField), "00000")
    ensures Truthy(f.phone) ==> m.phone == f.phone
    ensures !Truthy(f.phone) ==> m.phone == f.phoneUnformatted
    ensures m.website == f.website
    ensures ImportFacilities.NullIfFalsy(f.hours, m.hours)
    ensures f.acceptedItems.Some? ==> m.acceptedItems == f.acceptedItems.value
    ensures f.acceptedItems.None? ==> m.acceptedItems == []
    ensures f.rejectedItems.Some? ==> m.rejectedItems == f.rejectedItems.value
    ensures f.rejectedItems.None? ==> m.rejectedItems == []
    ensures ImportFacilities.NullIfFalsy(OrElse(f.description, f.categoryName), m.description)
    ensures m.kind == LooseType(LowerCategory(f))
    ensures m.rating != 0
    ensures m.rating == (if NumTruthy(f.rating) then f.rating.value
                         else if NumTruthy(f.totalScore) then f.totalScore.value else 3)
    ensures f.tags.Some? ==> m.tags == f.tags.value
    ensures f.tags.None? ==> (m.tags == [] <==> !Truthy(f.categoryName))
    ensures f.tags.None? && m.tags != [] ==> m.tags == [f.categoryName.value]
    ensures ImportFacilities.NumNullIfFalsy(Lat(f), m.latitude)
    ensures ImportFacilities.NumNullIfFalsy(Lng(f), m.longitude)
    ensures m.taxDeductible <==> f.taxDeductible || Contains(LowerCategory(f), "donat")
    ensures m.pickupAvailable == f.pickupAvailable
  {
    MappedFacility(
      Or(OrElse(f.title, f.name), "Unknown Facility"),
      LooseType(LowerCategory(f)),
      Or(f.address, "Unknown Address"),
      Or(f.city, "Unknown City"),
      Or(f.state, "Unknown State"),
      Or(OrElse(f.postalCode, f.zipCodeField), "00000"),
      OrElse(f.phone, f.phoneUnformatted),
      f.website,
      ImportFacilities.OrNull(f.hours),
      f.acceptedItems.GetOr([]),
      f.rejectedItems.GetOr([]),
      NumOr(f.rating, NumOr(f.totalScore, 3)),
      ImportFacilities.NumOrNull(Lat(f)),
      ImportFacilities.NumOrNull(Lng(f)),
      if f.tags.Some? then f.tags.value
      else if Truthy(f.categoryName) then [f.categoryName.value] else [],
      ImportFacilities.OrNull(OrElse(f.description, f.categoryName)),
      f.taxDeductible || Contains(LowerCategory(f), "donat"),
      f.pickupAvailable)
  }

  /** The values the insert binds: falsy optional columns become NULL,
      truthy ones are written as they are, and the other columns unchanged. */
  function ScriptStored(m: MappedFacility): (r: MappedFacility)
    ensures ImportFacilities.NullIfFalsy(m.phone, r.phone)
    ensures ImportFacilities.NullIfFalsy(m.website, r.website)
    ensures ImportFacilities.NullIfFalsy(m.hours, r.hours)
    ensures ImportFacilities.NullIfFalsy(m.description, r.description)
    ensures ImportFacilities.NumNullIfFalsy(m.latitude, r.latitude)
    ensures ImportFacilities.NumNullIfFalsy(m.longitude, r.longitude)
    ensures r.name == m.name && r.address == m.address && r.city == m.city && r.state == m.state
    ensures r.kind == m.kind && r.zipCode == m.zipCode && r.rating == m.rating && r.tags == m.tags
    ensures r.acceptedItems == m.acceptedItems && r.rejectedItems == m.rejectedItems
    ensures r.taxDeductible == m.taxDeductible && r.pickupAvailable == m.pickupAvailable
  {
    m.(phone := ImportFacilities.OrNull(m.phone),
       website := ImportFacilities.OrNull(m.website),
       hours := ImportFacilities.OrNull(m.hours),
       latitude := ImportFacilities.NumOrNull(m.latitude),
       longitude := ImportFacilities.NumOrNull(m.longitude),
       description := ImportFacilities.OrNull(m.description))
  }

  /** The insert's `|| null` is already applied by the mapping to hours,
      coordinates and description, so on a mapped entry it only changes the
      phone and the website, and applying it twice changes nothing. */
  lemma StoredOnlyTouchesLinks(f: JsonFacility)
    ensures var m := ScriptFacility(f);
      ScriptStored(m) == m.(phone := ImportFacilities.OrNull(m.phone),
                            website := ImportFacilities.OrNull(m.website))
    ensures ScriptStored(ScriptStored(ScriptFacility(f))) == ScriptStored(ScriptFacility(f))
  {
  }

  /** The two inserts bind the same values for a record whose required text
      columns are non-empty; otherwise they differ only in those columns,
      which the script leaves to the record and the endpoint fills with its
      "Unknown ..." defaults. Both are idempotent. */
  lemma ImportersStoreAlike(m: MappedFacility)
    ensures m.name != "" && m.address != "" && m.city != "" && m.state != "" ==>
      ScriptStored(m) == ImportFacilities.StoredRow(m)
    ensures ImportFacilities.StoredRow(m) == ImportFacilities.StoredRow(ScriptStored(m))
    ensures ScriptStored(ScriptStored(m)) == ScriptStored(m)
  {
  }

  /** The rows inserted: the first ten entries of a loaded file, or the
      sample list when the file could not be read or parsed. */
  method ScriptRun(loaded: Result<seq<JsonFacility>>, samples: seq<MappedFacility>)
    returns (rows: seq<MappedFacility>)
    ensures loaded.Err? ==> rows == samples
    ensures loaded.Ok? ==> |rows| == (if |loaded.value| < ScriptLimit then |loaded.value| else ScriptLimit)
    ensures loaded.Ok? ==> forall i :: 0 <= i < |rows| ==> rows[i] == ScriptFacility(loaded.value[i])
  {
    match loaded
    case Err(_) =>
      rows := samples;
    case Ok(fs) =>
      rows := MapFirst(fs, ScriptLimit, ScriptFacility);
  }

  /** The three importers agree in one direction on tax deduction: an entry
      the command marks deductible (its category mentions "donation") is
      marked deductible by the endpoint and by the script too, since
      "donat" is a prefix of "donation". */
  lemma DeductibleAcrossImporters(f: JsonFacility)
    requires ImportCmd.CmdFacility(f).taxDeductible
    ensures ImportFacilities.MapJsonToFacility(f).taxDeductible
    ensures ScriptFacility(f).taxDeductible
  {
    ContainsPrefix(LowerCategory(f), "donation", "donat");
  }

  /** The converse fails: an entry whose category is "charity" is deductible
      for the endpoint but for neither the command nor the script. */
  lemma CharityOnlyForEndpoint(f: JsonFacility)
    requires f.categoryName == Some("charity") && !f.taxDeductible
    ensures ImportFacilities.MapJsonToFacility(f).taxDeductible
    ensures !ImportCmd.CmdFacility(f).taxDeductible
    ensures !ScriptFacility(f).taxDeductible
  {
    var c := LowerCategory(f);
    assert c == "charity";
    assert OccursAt(c, "charity", 0);
    forall i | 0 <= i <= |c| - 5 ensures !OccursAt(c, "donat", i) {
      assert c[i] != 'd';
    }
  }

  /** The phone is the one field the importers take in opposite orders:
      with both numbers present, the script keeps `phone` while the
      endpoint and the command keep `phoneUnformatted`, so their records
      disagree exactly when the two numbers differ. */
  lemma PhoneOrderAcrossImporters(f: JsonFacility)
    requires Truthy(f.phone) && Truthy(f.phoneUnformatted)
    ensures ScriptFacility(f).phone == f.phone
    ensures ImportFacilities.MapJsonToFacility(f).phone == f.phoneUnformatted
    ensures ImportCmd.CmdFacility(f).phone == f.phoneUnformatted
    ensures ScriptFacility(f).phone != ImportFacilities.MapJsonToFacility(f).phone
        <==> f.phone.value != f.phoneUnformatted.value
  {
  }
}

=== FILE: migrations.dfy ===
/** The migration runner: the `.up.sql` files of the migrations directory,
    in sorted order, are applied one by one unless their version is already
    recorded; each is split into statements at `;`, executed, and its
    version inserted into `schema_migrations`, and the run stops at the
    first failure. */
module Migrations {
  import opened Outcomes
  import opened Text
  import opened Tables
  import opened Sorting

  const UpSuffix := ".up.sql"

  // ------------------------------------------------------------ versions

  /** The longest run of digits at the start of `s`. */
  function LeadingDigits(s: string): (r: string)
    ensures |r| <= |s| && r == s[..|r|] && AllDigits(r)
    ensures |r| < |s| ==> !IsDigit(s[|r|])
  {
    if s == [] || !IsDigit(s[0]) then []
    else
      var rest := LeadingDigits(s[1..]);
      assert [s[0]] + rest == s[..|rest| + 1];
      [s[0]] + rest
  }

  /** `file` starts with `k` digits followed by an underscore. */
  predicate VersionPrefix(file: string, k: nat) {
    0 < k < |file| && AllDigits(file[..k]) && file[k] == '_'
  }

  /** `file.match(/^(\d+)_/)?.[1]`: the leading digits, when there is at
      least one and an underscore follows them. */
  function Version(file: string): (v: Option<string>)
    ensures v.Some? ==> VersionPrefix(file, |v.value|) && v.value == file[..|v.value|]
    ensures v.None? <==> forall k: nat :: !VersionPrefix(file, k)
  {
    var run := LeadingDigits(file);
    if run != [] && |run| < |file| && file[|run|] == '_' then
      assert VersionPrefix(file, |run|);
      Some(run)
    else
      forall k: nat | VersionPrefix(file, k) ensures false {
      }
      None
  }

  /** The number `parseInt(version)` records, zero for a file without a
      version (such a file is never applied). */
  function VersionNumber(file: string): nat {
    match Version(file)
    case Some(v) => ParseDigits(v)
    case None => 0
  }

  /** The recorded versions as the runner reads them back: each `bigint`
      printed with `toString`. */
  function AppliedStrings(stored: seq<nat>): (r: seq<string>)
    ensures |r| == |stored| && forall i :: 0 <= i < |stored| ==> r[i] == NatToString(stored[i])
  {
    if stored == [] then [] else [NatToString(stored[0])] + AppliedStrings(stored[1..])
  }

  /** A file is applied when it has a version that is not among the
      recorded version strings. */
  predicate NeedsRun(applied: seq<string>, file: string) {
    Version(file).Some? && Version(file).value !in applied
  }

  /** A version with a leading zero is never among the recorded strings:
      `toString` prints no leading zero, so "001" never matches a stored 1
      and that migration is attempted again. */
  lemma PaddedVersionNeverSkipped(stored: seq<nat>, v: string)
    requires |v| > 1 && v[0] == '0'
    ensures v !in AppliedStrings(stored)
  {
    if v in AppliedStrings(stored) {
      var i :| 0 <= i < |stored| && AppliedStrings(stored)[i] == v;
      ParseNatToString(stored[i]);
    }
  }

  // ----------------------------------------------------------- the files

  /** `readdirSync(dir).filter(f => f.endsWith(".up.sql")).sort()`. */
  function Pending(files: seq<string>): (r: seq<string>)
    ensures SortedBy(r, (a: string, b: string) => LexLe(a, b))
    ensures multiset(r) == multiset(Where(files, (f: string) => EndsWith(f, UpSuffix)))
  {
    var le := (a: string, b: string) => LexLe(a, b);
    forall a: string, b: string ensures le(a, b) || le(b, a) {
      LexLeTotal(a, b);
    }
    Sort(Where(files, (f: string) => EndsWith(f, UpSuffix)), le)
  }

  /** `sql.split(';').filter(s => s.trim())`: the pieces between
      semicolons that are not blank. */
  function Statements(sql: string): (r: seq<string>)
    ensures forall st :: st in r ==> Trim(st) != "" && !Contains(st, ";")
    ensures forall p :: p in Split(sql, ";") ==> (p in r <==> Trim(p) != "")
  {
    SplitPiecesFree(sql, ";");
    Where(Split(sql, ";"), (p: string) => Trim(p) != "")
  }

  /** A piece without a semicolon is one statement, or none when blank. */
  lemma StatementsOfPiece(a: string)
    requires !Contains(a, ";")
    ensures Statements(a) == (if Trim(a) != "" then [a] else [])
  {
    assert Split(a, ";") == [a];
  }

  /** The statements of `a;b` are those of `a`, then those of `b`, in
      order and each once: the split keeps the file's order. */
  lemma StatementsCons(a: string, b: string)
    requires !Contains(a, ";")
    ensures Statements(a + ";" + b) == (if Trim(a) != "" then [a] else []) + Statements(b)
  {
    FreeSeparable(a, ";");
    SplitCons(a, b, ";");
    var pieces := Split(a + ";" + b, ";");
    assert pieces[0] == a && pieces[1..] == Split(b, ";");
  }

  // -------------------------------------------------------------- the run

  /** The result object of `runMigrations`. */
  datatype MigrationResult = MigrationResult(
    success: bool, message: string, applied: seq<string>, error: Option<string>)

  /** The error of the version insert when the number is already recorded:
      `version` is the primary key, whose constraint Postgres names
      "schema_migrations_pkey" by default. */
  const DuplicateVersion := "duplicate key value violates unique constraint \"schema_migrations_pkey\""

  /** The versions in the table before the run: none when the table had to
      be created. */
  function BaseTable(hasTable: bool, stored: seq<nat>): set<nat> {
    if hasTable then set i | 0 <= i < |stored| :: stored[i] else {}
  }

  /** The version numbers in the table after `done` were applied. */
  function TableAfter(base: set<nat>, done: seq<string>): (t: set<nat>)
    ensures base <= t
  {
    if done == [] then base else TableAfter(base, done[..|done| - 1]) + {VersionNumber(done[|done| - 1])}
  }

  /** Applying one file inside its transaction: the statements run in turn
      (`exec` gives the first statement error, if any), then the version is
      inserted, which fails when the number is already in the table. */
  function Attempt(file: string, body: string -> string, exec: seq<string> -> Option<string>,
                   table: set<nat>): (err: Option<string>)
    ensures err.None? <==> exec(Statements(body(file))).None? && VersionNumber(file) !in table
    ensures err.Some? ==> err == exec(Statements(body(file))) || err == Some(DuplicateVersion)
  {
    var statementError := exec(Statements(body(file)));
    if statementError.Some? then statementError
    else if VersionNumber(file) in table then Some(DuplicateVersion)
    else None
  }

  /** The success message. */
  function Summary(applied: seq<string>): (m: string)
    ensures m == "No new migrations to apply" <==> applied == []
  {
    if |applied| > 0 then
      var m := "Successfully applied " + NatToString(|applied|) + " migrations";
      assert m[0] != "No new migrations to apply"[0];
      m
    else "No new migrations to apply"
  }

  /** The version strings the skip check compares against. */
  function Recorded(hasTable: bool, stored: seq<nat>): seq<string> {
    if hasTable then AppliedStrings(stored) else []
  }

  function Due(applied: seq<string>): string -> bool {
    (f: string) => NeedsRun(applied, f)
  }

  /** The run stopped at `pending[i]`: every earlier file that was due had
      been applied, and this one failed against the table they left. */
  predicate FailedAt(r: MigrationResult, pending: seq<string>, applied: seq<string>, i: int,
                     body: string -> string, exec: seq<string> -> Option<string>, base: set<nat>) {
    0 <= i < |pending| && NeedsRun(applied, pending[i])
    && r.applied == Where(pending[..i], Due(applied))
    && r.message == "Failed to apply migration " + pending[i]
    && r.error == Attempt(pending[i], body, exec, TableAfter(base, r.applied))
    && r.error.Some?
  }

  /** The statements of every file in `fs` ran without error. */
  predicate Ran(fs: seq<string>, body: string -> string, exec: seq<string> -> Option<string>) {
    forall i :: 0 <= i < |fs| ==> exec(Statements(body(fs[i]))).None?
  }

  lemma RanSnoc(fs: seq<string>, f: string, body: string -> string, exec: seq<string> -> Option<string>)
    requires Ran(fs, body, exec) && exec(Statements(body(f))).None?
    ensures Ran(fs + [f], body, exec)
  {
  }

  /** Applying one more file adds its version to the table. */
  lemma TableSnoc(base: set<nat>, fs: seq<string>, f: string)
    ensures TableAfter(base, fs + [f]) == TableAfter(base, fs) + {VersionNumber(f)}
  {
    assert (fs + [f])[..|fs|] == fs;
  }

  /** The loop of `runMigrations` over the sorted pending files, against
      the version strings read before it and the table as it stood. */
  method ApplyAll(applied: seq<string>, base: set<nat>, pending: seq<string>,
                  body: string -> string, exec: seq<string> -> Option<string>)
    returns (r: MigrationResult)
    ensures r.success ==> r.applied == Where(pending, Due(applied))
                          && r.error.None? && r.message == Summary(r.applied)
    ensures r.success ==> Ran(r.applied, body, exec)
    ensures !r.success ==> exists i :: FailedAt(r, pending, applied, i, body, exec, base)
  {
    var due := Due(applied);
    var newly: seq<string> := [];
    var table := base;
    for i := 0 to |pending|
      invariant newly == Where(pending[..i], due)
      invariant table == TableAfter(base, newly)
      invariant Ran(newly, body, exec)
    {
      var file := pending[i];
      if due(file) {
        var err := Attempt(file, body, exec, table);
        if err.Some? {
          r := MigrationResult(false, "Failed to apply migration " + file, newly, err);
          assert FailedAt(r, pending, applied, i, body, exec, base);
          return;
        }
        RanSnoc(newly, file, body, exec);
        TableSnoc(base, newly, file);
        newly := AppliedStep(pending, i, due, newly);
        table := table + {VersionNumber(file)};
      } else {
        SkippedStep(pending, i, due);
      }
    }
    assert pending[..|pending|] == pending;
    r := MigrationResult(true, Summary(newly), newly, None);
  }

  // ------------------------------------------------------ the statements

  /** Running the statements of one file in turn from the `k`-th: the
      error of the first one that `run` rejects, if any. */
  function FirstErrorFrom(sts: seq<string>, run: string -> Option<string>, k: nat): (r: Option<string>)
    requires k <= |sts|
    decreases |sts| - k
    ensures r.None? <==> forall i :: k <= i < |sts| ==> run(sts[i]).None?
    ensures r.Some? ==> exists i :: k <= i < |sts| && run(sts[i]) == r
                                  && forall j :: k <= j < i ==> run(sts[j]).None?
  {
    if k == |sts| then None
    else if run(sts[k]).Some? then run(sts[k])
    else FirstErrorFrom(sts, run, k + 1)
  }

  /** Running all the statements of one file. */
  function FirstError(sts: seq<string>, run: string -> Option<string>): (r: Option<string>)
    ensures r.None? <==> forall i :: 0 <= i < |sts| ==> run(sts[i]).None?
    ensures r.Some? ==> exists i :: 0 <= i < |sts| && run(sts[i]) == r
                                  && forall j :: 0 <= j < i ==> run(sts[j]).None?
  {
    FirstErrorFrom(sts, run, 0)
  }

  /** What the server answers to the SQL text "$1": `db.exec` is a tagged
      template, so `${statement}` is sent as the text "$1" with the
      statement bound as its parameter, never as SQL. */
  const TemplateError := "syntax error at or near \"$1\""

  /** Every statement as the runner sends it: rejected, whatever it says. */
  function AsTemplate(st: string): Option<string> {
    Some(TemplateError)
  }

  /** Under the statements as sent, a file runs exactly when it has no
      statement, and otherwise fails on its first one. */
  lemma TemplateRunsOnlyEmpty(sts: seq<string>)
    ensures FirstError(sts, AsTemplate).None? <==> sts == []
    ensures sts != [] ==> FirstError(sts, AsTemplate) == Some(TemplateError)
  {
    if sts != [] {
      assert AsTemplate(sts[0]).Some?;
    }
  }

  /** A file's statements run in turn through `run`. */
  function Exec(run: string -> Option<string>): seq<string> -> Option<string> {
    (sts: seq<string>) => FirstError(sts, run)
  }

  /** `runMigrations`: the table is created when missing (and then holds no
      version), the recorded versions are read once, and the sorted
      `.up.sql` files are applied in turn, each statement going to `run`.
      Reading the versions only once means two files with the same version
      both pass the skip check and the second fails on the version insert. */
  method RunMigrations(hasTable: bool, stored: seq<nat>, files: seq<string>,
                       body: string -> string, run: string -> Option<string>)
    returns (r: MigrationResult)
    ensures r.success ==> r.applied == Where(Pending(files), Due(Recorded(hasTable, stored)))
                          && r.error.None? && r.message == Summary(r.applied)
    ensures r.success ==> forall f, i :: f in r.applied && 0 <= i < |Statements(body(f))| ==>
                            run(Statements(body(f))[i]).None?
    ensures !r.success ==> exists i ::
      FailedAt(r, Pending(files), Recorded(hasTable, stored), i, body, Exec(run), BaseTable(hasTable, stored))
  {
    r := ApplyAll(Recorded(hasTable, stored), BaseTable(hasTable, stored), Pending(files), body, Exec(run));
    if r.success {
      RanEveryStatement(r.applied, body, run);
    }
  }

  /** Files whose statements ran had every statement accepted. */
  lemma RanEveryStatement(fs: seq<string>, body: string -> string, run: string -> Option<string>)
    requires Ran(fs, body, Exec(run))
    ensures forall f, i :: f in fs && 0 <= i < |Statements(body(f))| ==> run(Statements(body(f))[i]).None?
  {
    forall f, i | f in fs && 0 <= i < |Statements(body(f))| ensures run(Statements(body(f))[i]).None? {
      var k :| 0 <= k < |fs| && fs[k] == f;
      assert Exec(run)(Statements(body(fs[k]))).None?;
    }
  }

  /** `runMigrations` as written: every statement reaches the server as the
      text "$1", so a run succeeds only when every file it applies has no
      statement, and a failure reports the template error or a duplicate
      version. */
  method RunMigrationsAsWritten(hasTable: bool, stored: seq<nat>, files: seq<string>,
                                body: string -> string)
    returns (r: MigrationResult)
    ensures r.success ==> r.applied == Where(Pending(files), Due(Recorded(hasTable, stored)))
    ensures r.success ==> forall f :: f in r.applied ==> Statements(body(f)) == []
    ensures !r.success ==> r.error == Some(TemplateError) || r.error == Some(DuplicateVersion)
  {
    r := ApplyAll(Recorded(hasTable, stored), BaseTable(hasTable, stored), Pending(files), body, Exec(AsTemplate));
    if r.success {
      TemplateRanOnlyEmpty(r.applied, body);
    } else {
      var i :| FailedAt(r, Pending(files), Recorded(hasTable, stored), i, body, Exec(AsTemplate),
                        BaseTable(hasTable, stored));
      TemplateFailure(r, Pending(files), Recorded(hasTable, stored), i, body, BaseTable(hasTable, stored));
    }
  }

  /** Under the statements as sent, the files that ran had no statement. */
  lemma TemplateRanOnlyEmpty(fs: seq<string>, body: string -> string)
    requires Ran(fs, body, Exec(AsTemplate))
    ensures forall f :: f in fs ==> Statements(body(f)) == []
  {
    forall f | f in fs ensures Statements(body(f)) == [] {
      var k :| 0 <= k < |fs| && fs[k] == f;
      assert Exec(AsTemplate)(Statements(body(fs[k]))).None?;
      TemplateRunsOnlyEmpty(Statements(body(f)));
    }
  }

  /** Under the statements as sent, a failed run reports the template
      error or a duplicate version. */
  lemma TemplateFailure(r: MigrationResult, pending: seq<string>, applied: seq<string>, i: int,
                        body: string -> string, base: set<nat>)
    requires FailedAt(r, pending, applied, i, body, Exec(AsTemplate), base)
    ensures r.error == Some(TemplateError) || r.error == Some(DuplicateVersion)
  {
    TemplateRunsOnlyEmpty(Statements(body(pending[i])));
  }

  /** The prefix filter after a due file. */
  function AppliedStep(pending: seq<string>, i: nat, due: string -> bool, newly: seq<string>): (r: seq<string>)
    requires i < |pending| && due(pending[i]) && newly == Where(pending[..i], due)
    ensures r == newly + [pending[i]] && r == Where(pending[..i + 1], due)
    ensures r[..|newly|] == newly
  {
    assert pending[..i + 1] == pending[..i] + [pending[i]];
    WhereSnoc(pending[..i], pending[i], due);
    newly + [pending[i]]
  }

  /** The prefix filter after a file that is not due. */
  lemma SkippedStep(pending: seq<string>, i: nat, due: string -> bool)
    requires i < |pending| && !due(pending[i])
    ensures Where(pending[..i + 1], due) == Where(pending[..i], due)
  {
    assert pending[..i + 1] == pending[..i] + [pending[i]];
    WhereSnoc(pending[..i], pending[i], due);
  }
}

=== FILE: outcomes.dfy ===
/** Option and Result types, and the error taxonomy of the backend's HTTP
    framework. A handler either returns a value or raises an `APIError`
    carrying one of the framework's error codes and a message. */
module Outcomes {

  datatype Option<+T> = None | Some(value: T) {

    function GetOr(default: T): T {
      match this
      case Some(v) => v
      case None => default
    }
  }

  /** The error codes of the framework's `APIError` (its `ErrCode` list). */
  datatype ErrorCode =
    | Canceled
    | Unknown
    | InvalidArgument
    | DeadlineExceeded
    | NotFound
    | AlreadyExists
    | PermissionDenied
    | ResourceExhausted
    | FailedPrecondition
    | Aborted
    | OutOfRange
    | Unimplemented
    | Internal
    | Unavailable
    | DataLoss
    | Unauthenticated

  datatype ApiError = ApiError(code: ErrorCode, message: string)

  /** The outcome of a handler: a value, or the error it raises. */
  datatype Result<+T> = Ok(value: T) | Err(error: ApiError) {

    predicate IsFailure() {
      Err?
    }

    function PropagateFailure<U>(): Result<U>
      requires Err?
    {
      Err(error)
    }

    function Extract(): T
      requires Ok?
    {
      value
    }

    /** True iff this is a failure with the given code. */
    predicate FailsWith(code: ErrorCode) {
      Err? && error.code == code
    }
  }

  function Fail<T>(code: ErrorCode, message: string): Result<T> {
    Err(ApiError(code, message))
  }
}

=== FILE: password.dfy ===
/** The password-reset flow over the `users` and `password_reset_tokens`
    tables. A reset token is live while it is unused and its expiry lies
    ahead; requesting a reset retires the user's live token before it
    issues a new one, and a reset spends every row carrying its token. */
module Passwords {
  import opened Outcomes
  import opened Text
  import opened Tables
  import opened Accounts

  /** A row of `password_reset_tokens`. */
  datatype ResetToken = ResetToken(id: string, userId: string, token: string, expiresAt: int, usedAt: Option<int>)

  /** `expires_at > NOW() AND used_at IS NULL`. */
  predicate Live(t: ResetToken, now: int) {
    t.expiresAt > now && t.usedAt.None?
  }

  /** No user holds two live reset tokens at `now`. */
  predicate AtMostOneLive(tokens: seq<ResetToken>, now: int) {
    forall i, j :: 0 <= i < j < |tokens| && Live(tokens[i], now) && Live(tokens[j], now)
      ==> tokens[i].userId != tokens[j].userId
  }

  /** A token live later was live earlier, so the invariant, once
      established, keeps holding as time passes. */
  lemma AtMostOneLiveLater(tokens: seq<ResetToken>, now: int, later: int)
    requires now <= later
    requires AtMostOneLive(tokens, now)
    ensures AtMostOneLive(tokens, later)
  {
  }

  /** The address check `forgotPassword` makes: non-empty and holding '@'. */
  predicate PlausibleEmail(email: string) {
    email != "" && Contains(email, "@")
  }

  /** The first live token of a user (`SELECT id ... WHERE user_id = $1 AND
      expires_at > NOW() AND used_at IS NULL`). */
  function LiveTokenOf(tokens: seq<ResetToken>, userId: string, now: int): (r: Option<ResetToken>)
    ensures r.Some? ==> r.value in tokens && r.value.userId == userId && Live(r.value, now)
    ensures r.None? <==> forall t :: t in tokens && t.userId == userId ==> !Live(t, now)
  {
    Lookup(tokens, (t: ResetToken) => t.userId == userId && Live(t, now))
  }

  /** `UPDATE password_reset_tokens SET used_at = NOW() WHERE id = $1`. */
  function SpendById(tokens: seq<ResetToken>, id: string, now: int): (r: seq<ResetToken>)
    ensures |r| == |tokens|
    ensures forall i :: 0 <= i < |tokens| ==>
      r[i] == (if tokens[i].id == id then tokens[i].(usedAt := Some(now)) else tokens[i])
  {
    UpdateWhere(tokens, (t: ResetToken) => t.id == id, (t: ResetToken) => t.(usedAt := Some(now)))
  }

  /** The tokens after a reset request for the user `u`: its first live
      token, if any, spent by id, and a new token expiring 24 hours later
      appended. */
  function Reissue(tokens: seq<ResetToken>, u: User, rowId: string, token: string, now: int): seq<ResetToken> {
    var spent := match LiveTokenOf(tokens, u.id, now)
      case None => tokens
      case Some(prev) => SpendById(tokens, prev.id, now);
    spent + [ResetToken(rowId, u.id, token, now + Day, None)]
  }

  /** `forgotPassword`. `rowId` and `token` are the two uuids it draws. An
      implausible address is refused; an unknown one succeeds and changes
      nothing, so the answer does not reveal whether an account exists. A
      known one gets a new token expiring 24 hours later, and at most one
      older row is spent, none otherwise changed. */
  function ForgotPassword(users: seq<User>, tokens: seq<ResetToken>, email: string,
                          rowId: string, token: string, now: int): (r: Result<seq<ResetToken>>)
    ensures r.Err? <==> !PlausibleEmail(email)
    ensures r.Err? ==> r.error == ApiError(InvalidArgument, "Invalid email format")
    ensures r.Ok? && UserByEmail(users, email).None? ==> r.value == tokens
    ensures r.Ok? && UserByEmail(users, email).Some? ==>
      var u := UserByEmail(users, email).value;
      |r.value| == |tokens| + 1
      && r.value[|tokens|] == ResetToken(rowId, u.id, token, now + Day, None)
      && (forall i :: 0 <= i < |tokens| ==> r.value[i].usedAt.None? ==> r.value[i] == tokens[i])
      && (forall i :: 0 <= i < |tokens| ==> r.value[i] != tokens[i] ==> r.value[i] == tokens[i].(usedAt := Some(now)))
      && (forall i :: 0 <= i < |tokens| && r.value[i] != tokens[i] ==>
            LiveTokenOf(tokens, u.id, now).Some? && tokens[i].id == LiveTokenOf(tokens, u.id, now).value.id)
  {
    if !PlausibleEmail(email) then Fail(InvalidArgument, "Invalid email format")
    else
      match UserByEmail(users, email)
      case None => Ok(tokens)
      case Some(u) => Ok(Reissue(tokens, u, rowId, token, now))
  }

  /** A reset request keeps every user at one live token at most: the
      requesting user's live token, if it had one, is spent, so the new
      token is its only live one. */
  lemma ForgotKeepsOneLive(users: seq<User>, tokens: seq<ResetToken>, email: string,
                           rowId: string, token: string, now: int)
    requires AtMostOneLive(tokens, now)
    ensures var r := ForgotPassword(users, tokens, email, rowId, token, now);
      r.Ok? ==> AtMostOneLive(r.value, now)
    ensures var r := ForgotPassword(users, tokens, email, rowId, token, now);
      r.Ok? && UserByEmail(users, email).Some? ==>
        forall i :: 0 <= i < |tokens| && r.value[i].userId == UserByEmail(users, email).value.id ==> !Live(r.value[i], now)
  {
    var r := ForgotPassword(users, tokens, email, rowId, token, now);
    if r.Ok? && UserByEmail(users, email).Some? {
      var u := UserByEmail(users, email).value;
      var t := r.value;
      forall i | 0 <= i < |tokens| && t[i].userId == u.id ensures !Live(t[i], now) {
      }
      forall i, j | 0 <= i < j < |t| && Live(t[i], now) && Live(t[j], now) ensures t[i].userId != t[j].userId {
        if j < |tokens| {
          assert t[i] == tokens[i] && t[j] == tokens[j];
        }
      }
    }
  }

  /** The token can be presented: `!token || token.trim().length === 0`
      fails. */
  predicate Blank(token: string) {
    AllWhitespace(token)
  }

  /** The first live row carrying the token (`SELECT user_id, token ...
      WHERE token = $1 AND expires_at > NOW() AND used_at IS NULL`). */
  function TokenRow(tokens: seq<ResetToken>, token: string, now: int): (r: Option<ResetToken>)
    ensures r.Some? ==> r.value in tokens && r.value.token == token && Live(r.value, now)
    ensures r.None? <==> forall t :: t in tokens && t.token == token ==> !Live(t, now)
  {
    Lookup(tokens, (x: ResetToken) => x.token == token && Live(x, now))
  }

  /** `UPDATE users SET password_hash = $1 WHERE id = $2`. */
  function SetHash(users: seq<User>, id: string, hash: string): (r: seq<User>)
    ensures |r| == |users|
    ensures forall i :: 0 <= i < |users| ==> r[i] == (if users[i].id == id then users[i].(passwordHash := hash) else users[i])
  {
    UpdateWhere(users, (u: User) => u.id == id, (u: User) => u.(passwordHash := hash))
  }

  /** `UPDATE password_reset_tokens SET used_at = NOW() WHERE token = $1`:
      every row with the token, live or not. */
  function SpendToken(tokens: seq<ResetToken>, token: string, now: int): (r: seq<ResetToken>)
    ensures |r| == |tokens|
    ensures forall i :: 0 <= i < |tokens| ==> r[i] == (if tokens[i].token == token then tokens[i].(usedAt := Some(now)) else tokens[i])
  {
    UpdateWhere(tokens, (x: ResetToken) => x.token == token, (x: ResetToken) => x.(usedAt := Some(now)))
  }

  /** `resetPassword`. `newHash` is the bcrypt hash of `newPassword`. The
      two argument checks come before any lookup; on success the user's
      hash is replaced and every row carrying the token is marked used. */
  function ResetPassword(users: seq<User>, tokens: seq<ResetToken>, token: string, newPassword: string,
                         newHash: string, now: int): (r: Result<(seq<User>, seq<ResetToken>)>)
    ensures Blank(token) ==> r == Fail(InvalidArgument, "Reset token is required")
    ensures !Blank(token) && |newPassword| < 8 ==> r == Fail(InvalidArgument, "Password must be at least 8 characters")
    ensures !Blank(token) && |newPassword| >= 8 && TokenRow(tokens, token, now).None? ==>
      r == Fail(InvalidArgument, "Invalid or expired reset token")
    ensures !Blank(token) && |newPassword| >= 8 && TokenRow(tokens, token, now).Some? ==>
      var owner := TokenRow(tokens, token, now).value.userId;
      (UserById(users, owner).None? ==> r == Fail(NotFound, "User not found"))
      && (UserById(users, owner).Some? ==> r == Ok((SetHash(users, owner, newHash), SpendToken(tokens, token, now))))
  {
    TrimEmptyIffBlank(token);
    if token == "" || Trim(token) == [] then Fail(InvalidArgument, "Reset token is required")
    else if |newPassword| < 8 then Fail(InvalidArgument, "Password must be at least 8 characters")
    else
      match TokenRow(tokens, token, now)
      case None => Fail(InvalidArgument, "Invalid or expired reset token")
      case Some(rt) =>
        match UserById(users, rt.userId)
        case None => Fail(NotFound, "User not found")
        case Some(_) => Ok((SetHash(users, rt.userId, newHash), SpendToken(tokens, token, now)))
  }

  /** A token is single use: once a reset with it succeeded, any later
      reset with it fails as invalid, whatever the password. */
  lemma ResetTwiceFails(users: seq<User>, tokens: seq<ResetToken>, token: string,
                        newPassword: string, newHash: string, now: int,
                        password2: string, hash2: string, later: int)
    requires ResetPassword(users, tokens, token, newPassword, newHash, now).Ok?
    ensures var s := ResetPassword(users, tokens, token, newPassword, newHash, now).value;
      ResetPassword(s.0, s.1, token, password2, hash2, later).FailsWith(InvalidArgument)
  {
    SpentTokenDead(tokens, token, now, later);
  }

  /** Once spent, no row carries the token live. */
  lemma SpentTokenDead(tokens: seq<ResetToken>, token: string, now: int, later: int)
    ensures TokenRow(SpendToken(tokens, token, now), token, later).None?
  {
    var spent := SpendToken(tokens, token, now);
    forall t | t in spent && t.token == token ensures !Live(t, later) {
      var i :| 0 <= i < |spent| && spent[i] == t;
    }
  }

  /** The token a reset request issues works: within 24 hours, with a
      password of eight characters or more, it resets the hash of the
      user who asked, provided no other row already carries that token. */
  lemma ForgotThenReset(users: seq<User>, tokens: seq<ResetToken>, email: string, rowId: string,
                        token: string, now: int, newPassword: string, newHash: string, t: int)
    requires PlausibleEmail(email) && UserByEmail(users, email).Some?
    requires forall x :: x in tokens ==> x.token != token
    requires !Blank(token) && |newPassword| >= 8
    requires t < now + Day
    ensures var tokens' := ForgotPassword(users, tokens, email, rowId, token, now).value;
      var id := UserByEmail(users, email).value.id;
      ResetPassword(users, tokens', token, newPassword, newHash, t)
        == Ok((SetHash(users, id, newHash), SpendToken(tokens', token, t)))
  {
    var u := UserByEmail(users, email).value;
    var tokens' := ForgotPassword(users, tokens, email, rowId, token, now).value;
    assert Live(tokens'[|tokens|], t);
    var p := (x: ResetToken) => x.token == token && Live(x, t);
    forall j | 0 <= j < |tokens| ensures !p(tokens'[j]) {
      assert tokens'[j].token == tokens[j].token;
      assert tokens[j] in tokens;
    }
    var f := First(tokens', p);
    assert p(tokens'[|tokens|]);
    assert f.Some? && f.value == |tokens|;
    assert UserById(users, u.id).Some?;
  }
}

=== FILE: payment_methods.dfy ===
/** The payment-method handlers: listing, adding and removing a user's
    stored methods, and the one-default-per-user rule adding keeps. */
module PaymentMethods {
  import opened Outcomes
  import opened Text
  import opened Tables
  import opened Sorting
  import opened Billing

  // ---------------------------------------------------------------- list

  /** `ORDER BY is_default DESC, created_at DESC`. */
  function ListOrder(): (le: (PaymentMethod, PaymentMethod) -> bool)
    ensures Total(le)
    ensures forall a, b, c :: le(a, b) && le(b, c) ==> le(a, c)
  {
    (a: PaymentMethod, b: PaymentMethod) =>
      (a.isDefault && !b.isDefault) || (a.isDefault == b.isDefault && a.createdAt >= b.createdAt)
  }

  /** `getPaymentMethods`: the caller's methods, each once, in list order. */
  function ListMethods(methods: seq<PaymentMethod>, userId: string): (r: seq<PaymentMethod>)
    ensures SortedBy(r, ListOrder())
    ensures multiset(r) == multiset(Where(methods, (m: PaymentMethod) => m.userId == userId))
    ensures forall m :: m in r <==> m in methods && m.userId == userId
  {
    var w := Where(methods, (m: PaymentMethod) => m.userId == userId);
    var r := Sort(w, ListOrder());
    forall m ensures m in r <==> m in w {
      assert m in r <==> m in multiset(r);
      assert m in w <==> m in multiset(w);
    }
    r
  }

  /** The default method comes first, and methods of one kind run from
      newest to oldest. */
  lemma DefaultsFirst(methods: seq<PaymentMethod>, userId: string, i: nat, j: nat)
    requires i < j < |ListMethods(methods, userId)|
    ensures var r := ListMethods(methods, userId);
      (r[j].isDefault ==> r[i].isDefault)
      && (r[i].isDefault == r[j].isDefault ==> r[i].createdAt >= r[j].createdAt)
  {
    SortedPairs(ListMethods(methods, userId), ListOrder(), i, j);
  }

  // ----------------------------------------------------------------- add

  /** `value || null` on an optional number: zero counts as absent. */
  function Expiry(x: Option<int>): (r: Option<int>)
    ensures r.Some? <==> x.Some? && x.value != 0
    ensures r.Some? ==> r == x
  {
    if x.Some? && x.value != 0 then x else None
  }

  /** No user has two default methods. */
  predicate AtMostOneDefault(methods: seq<PaymentMethod>) {
    forall i, j :: 0 <= i < j < |methods| && methods[i].isDefault && methods[j].isDefault
      ==> methods[i].userId != methods[j].userId
  }

  /** `UPDATE payment_methods SET is_default = false WHERE user_id = $1 AND
      is_default = true`. */
  function ClearDefaults(methods: seq<PaymentMethod>, userId: string): (r: seq<PaymentMethod>)
    ensures |r| == |methods|
    ensures forall i :: 0 <= i < |methods| ==>
      r[i] == (if methods[i].userId == userId then methods[i].(isDefault := false) else methods[i])
  {
    UpdateWhere(methods, (m: PaymentMethod) => m.userId == userId && m.isDefault,
      (m: PaymentMethod) => m.(isDefault := false))
  }

  /** `addPaymentMethod`. `id` and `providerUuid` are the uuids it draws;
      the card token is not looked at. Only an `isDefault` of true clears
      the user's other defaults; the new row is default exactly then. */
  function AddMethod(methods: seq<PaymentMethod>, userId: string, kind: string, lastFour: string,
                     expiryMonth: Option<int>, expiryYear: Option<int>, isDefault: Option<bool>,
                     id: string, providerUuid: string, now: int): (r: (string, seq<PaymentMethod>))
    ensures r.0 == id
    ensures |r.1| == |methods| + 1
    ensures r.1[|methods|] == PaymentMethod(id, userId, kind, "test_" + providerUuid, lastFour,
                                            Expiry(expiryMonth), Expiry(expiryYear), isDefault == Some(true), now)
    ensures isDefault == Some(true) ==> forall i :: 0 <= i < |methods| ==>
      r.1[i] == (if methods[i].userId == userId then methods[i].(isDefault := false) else methods[i])
    ensures isDefault != Some(true) ==> r.1[..|methods|] == methods
  {
    var kept := if isDefault == Some(true) then ClearDefaults(methods, userId) else methods;
    var row := PaymentMethod(id, userId, kind, "test_" + providerUuid, lastFour,
                             Expiry(expiryMonth), Expiry(expiryYear), isDefault == Some(true), now);
    assert (kept + [row])[..|methods|] == kept;
    (id, kept + [row])
  }

  /** Adding keeps at most one default per user; a method added as default
      is its user's only default. */
  lemma AddKeepsOneDefault(methods: seq<PaymentMethod>, userId: string, kind: string, lastFour: string,
                           expiryMonth: Option<int>, expiryYear: Option<int>, isDefault: Option<bool>,
                           id: string, providerUuid: string, now: int)
    requires AtMostOneDefault(methods)
    ensures var r := AddMethod(methods, userId, kind, lastFour, expiryMonth, expiryYear, isDefault, id, providerUuid, now).1;
      AtMostOneDefault(r)
      && (isDefault == Some(true) ==> forall i :: 0 <= i < |methods| && r[i].userId == userId ==> !r[i].isDefault)
  {
    var r := AddMethod(methods, userId, kind, lastFour, expiryMonth, expiryYear, isDefault, id, providerUuid, now).1;
    forall i, j | 0 <= i < j < |r| && r[i].isDefault && r[j].isDefault ensures r[i].userId != r[j].userId {
      if j < |methods| {
        assert r[i] == methods[i] && r[j] == methods[j];
      }
    }
  }

  // -------------------------------------------------------------- remove

  predicate IsTarget(m: PaymentMethod, id: string, userId: string) {
    m.id == id && m.userId == userId
  }

  /** `user_id = $1`. */
  function OwnedBy(userId: string): PaymentMethod -> bool {
    (m: PaymentMethod) => m.userId == userId
  }

  /** `removePaymentMethod`: `NotFound` unless the caller owns the method;
      the last method of a user with an active subscription is kept;
      otherwise every row with that id and owner is deleted. */
  function RemoveMethod(methods: seq<PaymentMethod>, subs: seq<Subscription>, userId: string, id: string)
    : (r: Result<seq<PaymentMethod>>)
    ensures OwnedMethod(methods, id, userId).None? ==> r == Fail(NotFound, "Payment method not found")
    ensures OwnedMethod(methods, id, userId).Some? && ActiveSubscription(subs, userId).Some?
            && Count(methods, OwnedBy(userId)) == 1 ==>
      r == Fail(InvalidArgument, "Cannot remove last payment method with active subscription")
    ensures r.Ok? <==> (OwnedMethod(methods, id, userId).Some?
      && (ActiveSubscription(subs, userId).None? || Count(methods, OwnedBy(userId)) != 1))
    ensures r.Ok? ==> forall m :: m in r.value <==> m in methods && !IsTarget(m, id, userId)
  {
    if OwnedMethod(methods, id, userId).None? then Fail(NotFound, "Payment method not found")
    else if ActiveSubscription(subs, userId).Some? && Count(methods, OwnedBy(userId)) == 1 then
      Fail(InvalidArgument, "Cannot remove last payment method with active subscription")
    else Ok(DeleteWhere(methods, (m: PaymentMethod) => IsTarget(m, id, userId)))
  }

  /** Method ids are unique (they are the table's key). */
  predicate UniqueIds(methods: seq<PaymentMethod>) {
    forall i, j :: 0 <= i < j < |methods| ==> methods[i].id != methods[j].id
  }

  /** Of two methods of a user, at most one has a given id. */
  lemma AnotherOwned(methods: seq<PaymentMethod>, userId: string, id: string)
    requires UniqueIds(methods)
    requires Count(methods, OwnedBy(userId)) >= 2
    ensures exists m :: m in methods && m.userId == userId && m.id != id
  {
    TwoCounted(methods, OwnedBy(userId));
    var i, j :| 0 <= i < j < |methods| && OwnedBy(userId)(methods[i]) && OwnedBy(userId)(methods[j]);
    if methods[i].id == id {
      assert methods[j] in methods;
    } else {
      assert methods[i] in methods;
    }
  }

  /** While a user has an active subscription, removal never leaves them
      without a payment method. */
  lemma RemoveKeepsAMethod(methods: seq<PaymentMethod>, subs: seq<Subscription>, userId: string, id: string)
    requires UniqueIds(methods)
    requires ActiveSubscription(subs, userId).Some?
    requires RemoveMethod(methods, subs, userId, id).Ok?
    ensures exists m :: m in RemoveMethod(methods, subs, userId, id).value && m.userId == userId
  {
    var target := OwnedMethod(methods, id, userId).value;
    var k :| 0 <= k < |methods| && methods[k] == target;
    CountPositive(methods, OwnedBy(userId), k);
    AnotherOwned(methods, userId, id);
    var m :| m in methods && m.userId == userId && m.id != id;
    assert m in RemoveMethod(methods, subs, userId, id).value;
  }
}

=== FILE: premium.dfy ===
/** The premium-feature handlers: the catalogue of active features, and
    switching a feature on and off for a premium user. */
module Premium {
  import opened Outcomes
  import opened Text
  import opened Tables
  import opened Sorting
  import opened Accounts
  import opened Billing
  import SharedMiddleware

  /** A row of `premium_features`. */
  datatype Feature = Feature(id: string, name: string, description: string, icon: string, isActive: bool)

  /** `ORDER BY name ASC`. */
  function ByName(): (le: (Feature, Feature) -> bool)
    ensures Total(le)
  {
    forall x: Feature, y: Feature ensures LexLe(x.name, y.name) || LexLe(y.name, x.name) {
      LexLeTotal(x.name, y.name);
    }
    (x: Feature, y: Feature) => LexLe(x.name, y.name)
  }

  /** `listPremiumFeatures`: the active features, each once, by name. */
  function ListFeatures(features: seq<Feature>): (r: seq<Feature>)
    ensures SortedBy(r, ByName())
    ensures multiset(r) == multiset(Where(features, (f: Feature) => f.isActive))
    ensures forall f :: f in r <==> f in features && f.isActive
  {
    var w := Where(features, (f: Feature) => f.isActive);
    var r := Sort(w, ByName());
    forall f ensures f in r <==> f in w {
      assert f in r <==> f in multiset(r);
      assert f in w <==> f in multiset(w);
    }
    r
  }

  /** `SELECT is_premium FROM users WHERE id = $1` is true. */
  predicate IsPremium(users: seq<User>, userId: string) {
    UserById(users, userId).Some? && UserById(users, userId).value.isPremium
  }

  /** `SELECT * FROM premium_features WHERE id = $1 AND is_active = true`. */
  function ActiveFeature(features: seq<Feature>, id: string): (r: Option<Feature>)
    ensures r.Some? ==> r.value in features && r.value.id == id && r.value.isActive
    ensures r.None? <==> forall f :: f in features ==> !(f.id == id && f.isActive)
  {
    Lookup(features, (f: Feature) => f.id == id && f.isActive)
  }

  predicate Pairs(a: Activation, userId: string, featureId: string) {
    a.userId == userId && a.featureId == featureId
  }

  /** `activateFeature`: the premium check comes before the feature
      lookup; the pair is inserted once (`ON CONFLICT DO NOTHING`). */
  function Activate(users: seq<User>, features: seq<Feature>, acts: seq<Activation>,
                    userId: string, featureId: string, now: int): (r: Result<seq<Activation>>)
    ensures !IsPremium(users, userId) ==> r == Fail(PermissionDenied, "Premium subscription required")
    ensures IsPremium(users, userId) && ActiveFeature(features, featureId).None? ==>
      r == Fail(NotFound, "Premium feature not found")
    ensures r.Ok? <==> IsPremium(users, userId) && ActiveFeature(features, featureId).Some?
    ensures r.Ok? && (exists a :: a in acts && Pairs(a, userId, featureId)) ==> r.value == acts
    ensures r.Ok? && (forall a :: a in acts ==> !Pairs(a, userId, featureId)) ==>
      r.value == acts + [Activation(userId, featureId, now)]
  {
    if !IsPremium(users, userId) then Fail(PermissionDenied, "Premium subscription required")
    else if ActiveFeature(features, featureId).None? then Fail(NotFound, "Premium feature not found")
    else if Lookup(acts, (a: Activation) => Pairs(a, userId, featureId)).Some? then Ok(acts)
    else Ok(acts + [Activation(userId, featureId, now)])
  }

  /** Activating again changes nothing, at any later time. */
  lemma ActivateIdempotent(users: seq<User>, features: seq<Feature>, acts: seq<Activation>,
                           userId: string, featureId: string, now: int, later: int)
    requires Activate(users, features, acts, userId, featureId, now).Ok?
    ensures var acts' := Activate(users, features, acts, userId, featureId, now).value;
      Activate(users, features, acts', userId, featureId, later) == Ok(acts')
  {
    var acts' := Activate(users, features, acts, userId, featureId, now).value;
    if forall a :: a in acts ==> !Pairs(a, userId, featureId) {
      assert acts'[|acts|] in acts';
    }
  }

  /** The handler's own premium check refuses exactly the users the shared
      premium gate refuses. */
  lemma ActivateAgreesWithGate(users: seq<User>, features: seq<Feature>, acts: seq<Activation>,
                               userId: string, featureId: string, now: int, role: string)
    requires userId != ""
    ensures Activate(users, features, acts, userId, featureId, now).FailsWith(PermissionDenied)
        <==> SharedMiddleware.PremiumGate(Some(SharedMiddleware.AuthData(userId, role)), users).FailsWith(PermissionDenied)
  {
  }

  /** `deactivateFeature`: the pair is removed whether or not it was there,
      and every other row stays. */
  function Deactivate(acts: seq<Activation>, userId: string, featureId: string): (r: seq<Activation>)
    ensures forall a :: a in r <==> a in acts && !Pairs(a, userId, featureId)
  {
    DeleteWhere(acts, (a: Activation) => Pairs(a, userId, featureId))
  }

  /** Deactivating undoes an activation: the rows are those from before,
      when the pair was not there yet. */
  lemma DeactivateUndoesActivate(users: seq<User>, features: seq<Feature>, acts: seq<Activation>,
                                 userId: string, featureId: string, now: int)
    requires forall a :: a in acts ==> !Pairs(a, userId, featureId)
    requires Activate(users, features, acts, userId, featureId, now).Ok?
    ensures var acts' := Activate(users, features, acts, userId, featureId, now).value;
      forall a :: a in Deactivate(acts', userId, featureId) <==> a in acts
  {
  }

  // ---------------------------------------------------- getActiveFeatures

  /** The features a row of `user_premium_features` joins with: the active
      ones with its feature id, each with the activation time. */
  function Joined(a: Activation, features: seq<Feature>): (r: seq<(Feature, int)>)
    ensures forall x :: x in r <==> x.0 in features && x.0.id == a.featureId && x.0.isActive && x.1 == a.activatedAt
  {
    if features == [] then []
    else
      assert forall f :: f in features <==> f == features[0] || f in features[1..];
      var f := features[0];
      (if f.id == a.featureId && f.isActive then [(f, a.activatedAt)] else []) + Joined(a, features[1..])
  }

  /** A joined row: an active feature the user switched on, with the time
      of switching. */
  predicate Listed(x: (Feature, int), features: seq<Feature>, acts: seq<Activation>, userId: string) {
    exists a :: a in acts && a.userId == userId
                 && x.0 in features && x.0.id == a.featureId && x.0.isActive && x.1 == a.activatedAt
  }

  /** `premium_features JOIN user_premium_features ... WHERE user_id = $1
      AND is_active = true`, in table order. */
  function Join(acts: seq<Activation>, features: seq<Feature>, userId: string): (r: seq<(Feature, int)>)
    ensures forall x :: x in r <==> Listed(x, features, acts, userId)
  {
    if acts == [] then []
    else
      assert forall a :: a in acts <==> a == acts[0] || a in acts[1..];
      (if acts[0].userId == userId then Joined(acts[0], features) else []) + Join(acts[1..], features, userId)
  }

  /** `ORDER BY upf.activated_at DESC`. */
  function Newest(): (le: ((Feature, int), (Feature, int)) -> bool)
    ensures Total(le)
  {
    (x: (Feature, int), y: (Feature, int)) => x.1 >= y.1
  }

  /** `getActiveFeatures`: the active features the user switched on, each
      with its activation time, newest first. */
  function GetActiveFeatures(features: seq<Feature>, acts: seq<Activation>, userId: string): (r: seq<(Feature, int)>)
    ensures SortedBy(r, Newest())
    ensures forall x :: x in r <==> Listed(x, features, acts, userId)
  {
    var w := Join(acts, features, userId);
    var r := Sort(w, Newest());
    forall x ensures x in r <==> x in w {
      assert x in r <==> x in multiset(r);
      assert x in w <==> x in multiset(w);
    }
    r
  }

  /** A feature just activated is listed among the user's active features,
      and once deactivated it is not. */
  lemma ActivatedThenListed(users: seq<User>, features: seq<Feature>, acts: seq<Activation>,
                            userId: string, featureId: string, now: int)
    requires Activate(users, features, acts, userId, featureId, now).Ok?
    ensures var acts' := Activate(users, features, acts, userId, featureId, now).value;
      (exists x :: x in GetActiveFeatures(features, acts', userId) && x.0.id == featureId)
      && (forall x :: x in GetActiveFeatures(features, Deactivate(acts', userId, featureId), userId) ==> x.0.id != featureId)
  {
    var acts' := Activate(users, features, acts, userId, featureId, now).value;
    var f := ActiveFeature(features, featureId).value;
    var a :| a in acts' && Pairs(a, userId, featureId) by {
      if forall b :: b in acts ==> !Pairs(b, userId, featureId) {
        assert acts'[|acts|] in acts';
      }
    }
    assert (f, a.activatedAt) in GetActiveFeatures(features, acts', userId);
  }
}

=== FILE: shared_middleware.dfy ===
/** The shared middleware: bearer-token authentication against `users`,
    guest-session and premium gates, the error classifier and the
    validation pass-through. Each gate is a function from the request's
    headers and the tables to the identity it attaches or the error it
    raises. */
module SharedMiddleware {
  import opened Outcomes
  import opened Text
  import opened Accounts

  /** What an authenticating middleware attaches to the request. */
  datatype AuthData = AuthData(userId: string, role: string)

  /** The token: the header with its first "Bearer " removed. */
  function TokenOf(header: string): string {
    ReplaceFirst(header, "Bearer ", "")
  }

  /** A header of the form "Bearer <token>" yields the token. */
  lemma BearerToken(token: string)
    ensures TokenOf("Bearer " + token) == token
  {
    ReplaceLeadingPrefix("Bearer ", token);
  }

  /** The user a header authenticates: its token verifies and names a
      user that exists. */
  predicate Authenticates(header: string, keyring: Keyring, users: seq<User>, now: int) {
    var token := TokenOf(header);
    Verifies(keyring, token, now) && UserById(users, keyring[token].userId).Some?
  }

  /** `authMiddleware`: a missing header and every later failure are both
      `Unauthenticated`, the later ones with one message whatever went
      wrong; on success the id and role come from the user row, not from
      the token. */
  function Authenticate(header: Option<string>, keyring: Keyring, users: seq<User>, now: int): (r: Result<AuthData>)
    ensures !Present(header) ==> r == Fail(Unauthenticated, "Missing authorization header")
    ensures Present(header) && r.Err? ==> r.error == ApiError(Unauthenticated, "Invalid authentication token")
    ensures r.Ok? <==> Present(header) && Authenticates(header.value, keyring, users, now)
    ensures r.Ok? ==> exists u :: u in users && u.id == keyring[TokenOf(header.value)].userId
                                  && r.value == AuthData(u.id, u.role)
  {
    if !Present(header) then Fail(Unauthenticated, "Missing authorization header")
    else
      var token := TokenOf(header.value);
      if !Verifies(keyring, token, now) then Fail(Unauthenticated, "Invalid authentication token")
      else
        match UserById(users, keyring[token].userId)
        case None => Fail(Unauthenticated, "Invalid authentication token")
        case Some(u) => Ok(AuthData(u.id, u.role))
  }

  /** A token issued for an existing user authenticates as that user, with
      the role the row holds now, until it expires. */
  lemma IssuedTokenAuthenticates(keyring: Keyring, token: string, users: seq<User>, i: nat,
                                 role: string, issuedAt: int, now: int)
    requires i < |users| && forall j :: 0 <= j < i ==> users[j].id != users[i].id
    requires now < issuedAt + Day
    ensures Authenticate(Some("Bearer " + token), keyring[token := Issue(users[i].id, role, issuedAt)], users, now)
            == Ok(AuthData(users[i].id, users[i].role))
  {
    BearerToken(token);
    FirstUserById(users, i);
  }

  /** `guestMiddleware` of the shared module: the guest id it attaches is
      the session id of a live session, that is the header itself. */
  function GuestAccess(header: Option<string>, sessions: seq<GuestSession>, now: int): (r: Result<string>)
    ensures !Present(header) ==> r == Fail(Unauthenticated, "Missing guest session header")
    ensures Present(header) && r.Err? ==> r.error == ApiError(Unauthenticated, "Invalid or expired guest session")
    ensures r.Ok? <==> Present(header) && exists s :: s in sessions && LiveSession(s, header.value, now)
    ensures r.Ok? ==> r.value == header.value
  {
    if !Present(header) then Fail(Unauthenticated, "Missing guest session header")
    else
      match FindLiveSession(sessions, header.value, now)
      case None => Fail(Unauthenticated, "Invalid or expired guest session")
      case Some(s) => Ok(s.sessionId)
  }

  /** The premium gate lets a request through when its user is premium. */
  predicate PremiumUser(auth: Option<AuthData>, users: seq<User>) {
    auth.Some? && auth.value.userId != ""
    && UserById(users, auth.value.userId).Some? && UserById(users, auth.value.userId).value.isPremium
  }

  /** `premiumMiddleware`: no authenticated user id is `Unauthenticated`,
      checked first; a missing or non-premium user is `PermissionDenied`. */
  function PremiumGate(auth: Option<AuthData>, users: seq<User>): (r: Result<AuthData>)
    ensures r.FailsWith(Unauthenticated) <==> auth.None? || auth.value.userId == ""
    ensures r.FailsWith(PermissionDenied) <==>
      auth.Some? && auth.value.userId != "" && !PremiumUser(auth, users)
    ensures r.Ok? <==> PremiumUser(auth, users)
    ensures r.Ok? ==> r.value == auth.value
  {
    if auth.None? || auth.value.userId == "" then Fail(Unauthenticated, "Authentication required for premium features")
    else
      match UserById(users, auth.value.userId)
      case Some(u) =>
        if u.isPremium then Ok(auth.value)
        else Fail(PermissionDenied, "This feature requires a premium subscription")
      case None => Fail(PermissionDenied, "This feature requires a premium subscription")
  }

  // ------------------------------------------------------------- errors

  /** What a handler can throw: an `APIError` (which is also an `Error`),
      another `Error`, or a value that is not an `Error` at all. */
  datatype Thrown =
    | Raised(code: ErrorCode, message: string, cause: Option<string>)
    | Failed(message: string)
    | NotAnError

  predicate MentionsDatabase(m: string) {
    Contains(m, "connection") || Contains(m, "database")
  }

  predicate MentionsDuplicate(m: string) {
    Contains(m, "duplicate key") || Contains(m, "unique constraint")
  }

  /** The `x-request-id` header, or "unknown" when it is missing or empty. */
  function RequestId(header: Option<string>): (r: string)
    ensures Present(header) ==> r == header.value
    ensures r == "unknown" <==> !Present(header) || header.value == "unknown"
  {
    if Present(header) then header.value else "unknown"
  }

  /** `errorMiddleware` on a thrown value. The message tests apply to every
      `Error`, an `APIError` included, before the `APIError` test. */
  function Classify(e: Thrown, requestId: Option<string>): (r: Thrown)
    ensures r.Raised?
    ensures !e.NotAnError? && MentionsDatabase(e.message) ==>
      r == Raised(Internal, "A database error occurred", Some("Database error. Request ID: " + RequestId(requestId)))
    ensures !e.NotAnError? && !MentionsDatabase(e.message) && MentionsDuplicate(e.message) ==>
      r == Raised(InvalidArgument, "This record already exists", Some("Duplicate record. Request ID: " + RequestId(requestId)))
    ensures e.Raised? && !MentionsDatabase(e.message) && !MentionsDuplicate(e.message) ==>
      r == Raised(e.code, e.message + " (Request ID: " + RequestId(requestId) + ")", None)
    ensures (e.NotAnError? || (e.Failed? && !MentionsDatabase(e.message) && !MentionsDuplicate(e.message))) ==>
      r == Raised(Internal, "An unexpected error occurred", Some("Internal error occurred. Request ID: " + RequestId(requestId)))
  {
    var rid := RequestId(requestId);
    if !e.NotAnError? && MentionsDatabase(e.message) then
      Raised(Internal, "A database error occurred", Some("Database error. Request ID: " + rid))
    else if !e.NotAnError? && MentionsDuplicate(e.message) then
      Raised(InvalidArgument, "This record already exists", Some("Duplicate record. Request ID: " + rid))
    else if e.Raised? then
      Raised(e.code, e.message + " (Request ID: " + rid + ")", None)
    else
      Raised(Internal, "An unexpected error occurred", Some("Internal error occurred. Request ID: " + rid))
  }

  /** The outcome of the rest of the chain: a value or a thrown one. */
  datatype Outcome<T> = Returned(value: T) | Threw(thrown: Thrown)

  /** `errorMiddleware`: values pass through, thrown values are classified. */
  function ErrorMiddleware<T>(o: Outcome<T>, requestId: Option<string>): (r: Outcome<T>)
    ensures o.Returned? ==> r == o
    ensures o.Threw? ==> r.Threw? && r.thrown.Raised?
    ensures o.Threw? ==> r == Threw(Classify(o.thrown, requestId))
  {
    match o
    case Returned(_) => o
    case Threw(e) => Threw(Classify(e, requestId))
  }

  /** The classifier only ever produces three codes of its own; any other
      code is an `APIError`'s code carried through, which happens exactly
      when its message mentions neither the database nor a duplicate. */
  lemma ClassifiedCodes(e: Thrown, requestId: Option<string>)
    ensures var c := Classify(e, requestId).code;
      c == Internal || c == InvalidArgument
      || (e.Raised? && c == e.code && !MentionsDatabase(e.message) && !MentionsDuplicate(e.message))
    ensures e.Raised? && e.code != Internal && e.code != InvalidArgument ==>
      (Classify(e, requestId).code == e.code <==> !MentionsDatabase(e.message) && !MentionsDuplicate(e.message))
  {
  }

  /** The text the classified error carries: its cause when present, else
      its message. */
  function Report(r: Thrown): string {
    match r
    case Raised(_, message, cause) => if cause.Some? then cause.value else message
    case Failed(message) => message
    case NotAnError => ""
  }

  /** Whatever is thrown, the report carries the request's `x-request-id`,
      or "unknown" without one; for anything but an `APIError` it is the
      report's last part. */
  lemma RequestIdReported(e: Thrown, requestId: Option<string>)
    ensures Contains(Report(Classify(e, requestId)), RequestId(requestId))
    ensures Present(requestId) ==> Contains(Report(Classify(e, requestId)), requestId.value)
    ensures !e.Raised? ==> EndsWith(Report(Classify(e, requestId)), RequestId(requestId))
  {
    var rid := RequestId(requestId);
    var text := Report(Classify(e, requestId));
    var prefix, suffix := ReportPrefix(e), ReportSuffix(e);
    assert text == prefix + rid + suffix;
    Infix(prefix, rid, suffix);
    if !e.Raised? {
      assert text == prefix + rid;
      assert text[|text| - |rid|..] == rid;
    }
  }

  /** What the report puts before the request id. */
  function ReportPrefix(e: Thrown): string {
    if !e.NotAnError? && MentionsDatabase(e.message) then "Database error. Request ID: "
    else if !e.NotAnError? && MentionsDuplicate(e.message) then "Duplicate record. Request ID: "
    else if e.Raised? then e.message + " (Request ID: "
    else "Internal error occurred. Request ID: "
  }

  /** What the report puts after the request id. */
  function ReportSuffix(e: Thrown): string {
    if !e.NotAnError? && (MentionsDatabase(e.message) || MentionsDuplicate(e.message)) then ""
    else if e.Raised? then ")"
    else ""
  }

  /** An `APIError` whose message mentions the database loses its code:
      a `NotFound` about a "database row" is reported as `Internal`. */
  lemma ApiErrorAboutDatabase(requestId: Option<string>)
    ensures Classify(Raised(NotFound, "database row missing", None), requestId).code == Internal
  {
    assert OccursAt("database row missing", "database", 0);
  }

  /** `validationMiddleware`: an `InvalidArgument` is raised again with
      the same message and that message as its cause; anything else passes
      through untouched. */
  function Validate(e: Thrown): (r: Thrown)
    ensures r.Raised? <==> e.Raised?
    ensures e.Raised? ==> r.code == e.code && r.message == e.message
    ensures e.Raised? && e.code == InvalidArgument ==> r.cause == Some(e.message)
    ensures !(e.Raised? && e.code == InvalidArgument) ==> r == e
  {
    if e.Raised? && e.code == InvalidArgument then Raised(InvalidArgument, e.message, Some(e.message)) else e
  }

  /** Passing through the validation middleware twice is passing once. */
  lemma ValidateIdempotent(e: Thrown)
    ensures Validate(Validate(e)) == Validate(e)
  {
  }
}

=== FILE: sorting.dfy ===
/** Ordering of result rows (`ORDER BY`, `Array.prototype.sort`) as an
    insertion sort by a total comparison `le`. Sortedness is stated on
    adjacent elements; the result is a permutation of the input. */
module Sorting {

  /** `le` relates every pair one way or the other. */
  ghost predicate Total<T(!new)>(le: (T, T) -> bool) {
    forall a, b :: le(a, b) || le(b, a)
  }

  predicate SortedBy<T>(s: seq<T>, le: (T, T) -> bool) {
    forall i :: 0 < i < |s| ==> le(s[i - 1], s[i])
  }

  function Insert<T(!new)>(x: T, s: seq<T>, le: (T, T) -> bool): (r: seq<T>)
    requires Total(le)
    requires SortedBy(s, le)
    ensures SortedBy(r, le)
    ensures multiset(r) == multiset(s) + multiset{x}
    ensures |r| == |s| + 1
    ensures r[0] == x || (s != [] && r[0] == s[0])
  {
    if s == [] then [x]
    else if le(x, s[0]) then [x] + s
    else
      var t := Insert(x, s[1..], le);
      assert s == [s[0]] + s[1..];
      [s[0]] + t
  }

  /** The elements of `s` in `le` order. */
  function Sort<T(!new)>(s: seq<T>, le: (T, T) -> bool): (r: seq<T>)
    requires Total(le)
    ensures SortedBy(r, le)
    ensures multiset(r) == multiset(s)
    ensures |r| == |s|
  {
    if s == [] then []
    else
      assert s == [s[0]] + s[1..];
      Insert(s[0], Sort(s[1..], le), le)
  }

  /** Adjacent sortedness under a transitive `le` orders every pair. */
  lemma {:induction false} SortedPairs<T(!new)>(s: seq<T>, le: (T, T) -> bool, i: nat, j: nat)
    requires SortedBy(s, le)
    requires forall a, b, c :: le(a, b) && le(b, c) ==> le(a, c)
    requires i <= j < |s| && i < j
    ensures le(s[i], s[j])
    decreases j - i
  {
    if i + 1 < j {
      SortedPairs(s, le, i + 1, j);
    }
  }
}

=== FILE: subscription.dfy ===
/** The subscription handlers: subscribing with an owned payment method,
    cancelling the active subscription and reading it back with the
    features the user switched on. */
module Subscriptions {
  import opened Outcomes
  import opened Tables
  import opened Calendar
  import opened Accounts
  import opened Billing
  import SharedMiddleware

  /** `UPDATE users SET is_premium = true WHERE id = $1`. */
  function SetPremium(users: seq<User>, userId: string): (r: seq<User>)
    ensures |r| == |users|
    ensures forall i :: 0 <= i < |users| ==> r[i] == (if users[i].id == userId then users[i].(isPremium := true) else users[i])
  {
    UpdateWhere(users, (u: User) => u.id == userId, (u: User) => u.(isPremium := true))
  }

  /** What `subscribe` answers and leaves behind. */
  datatype Subscribed = Subscribed(subscriptionId: string, periodEnd: Moment,
                                   subscriptions: seq<Subscription>, users: seq<User>)

  /** `subscribe`. `subscriptionId` is the uuid it draws and `now` the
      request time. The new subscription is active from `now` for one
      calendar month and is not set to end early; the user becomes
      premium. An existing active subscription is not looked at. */
  function Subscribe(users: seq<User>, methods: seq<PaymentMethod>, subs: seq<Subscription>,
                     userId: string, planId: string, paymentMethodId: string,
                     subscriptionId: string, now: Moment): (r: Result<Subscribed>)
    requires Valid(now.date)
    ensures r.Err? <==> OwnedMethod(methods, paymentMethodId, userId).None?
    ensures r.Err? ==> r.error == ApiError(NotFound, "Payment method not found")
    ensures r.Ok? ==> r.value.subscriptionId == subscriptionId
    ensures r.Ok? ==> r.value.periodEnd.seconds == now.seconds && Valid(r.value.periodEnd.date)
    ensures r.Ok? ==>
      Ordinal(r.value.periodEnd.date) == Ordinal(now.date) + DaysIn(now.date.year, now.date.month)
    ensures r.Ok? ==>
      r.value.subscriptions == subs + [Subscription(subscriptionId, userId, planId, "active", now, r.value.periodEnd, false)]
    ensures r.Ok? ==> r.value.users == SetPremium(users, userId)
  {
    if OwnedMethod(methods, paymentMethodId, userId).None? then Fail(NotFound, "Payment method not found")
    else
      var end := AddMonthAt(now);
      Ok(Subscribed(subscriptionId, end,
                    subs + [Subscription(subscriptionId, userId, planId, "active", now, end, false)],
                    SetPremium(users, userId)))
  }

  /** After subscribing, the user has an active subscription and passes
      the premium gate. */
  lemma SubscribeOpensPremium(users: seq<User>, methods: seq<PaymentMethod>, subs: seq<Subscription>,
                              userId: string, planId: string, paymentMethodId: string,
                              subscriptionId: string, now: Moment, role: string)
    requires Valid(now.date)
    requires userId != "" && UserById(users, userId).Some?
    requires Subscribe(users, methods, subs, userId, planId, paymentMethodId, subscriptionId, now).Ok?
    ensures var s := Subscribe(users, methods, subs, userId, planId, paymentMethodId, subscriptionId, now).value;
      ActiveSubscription(s.subscriptions, userId).Some?
      && SharedMiddleware.PremiumGate(Some(SharedMiddleware.AuthData(userId, role)), s.users).Ok?
  {
    var s := Subscribe(users, methods, subs, userId, planId, paymentMethodId, subscriptionId, now).value;
    assert s.subscriptions[|subs|] in s.subscriptions;
    LookupAfterUpdate(users, (u: User) => u.id == userId, (u: User) => u.id == userId,
      (u: User) => u.(isPremium := true));
  }

  /** `cancelSubscription`: the first active subscription of the user is
      set to 'canceled' and to end at the period's end; `is_premium` is
      not touched. */
  function Cancel(subs: seq<Subscription>, userId: string): (r: Result<seq<Subscription>>)
    ensures r.Err? <==> forall s :: s in subs ==> !ActiveFor(s, userId)
    ensures r.Err? ==> r.error == ApiError(NotFound, "No active subscription found")
    ensures r.Ok? ==> var id := ActiveSubscription(subs, userId).value.id;
      |r.value| == |subs|
      && forall i :: 0 <= i < |subs| ==>
        r.value[i] == (if subs[i].id == id then subs[i].(status := "canceled", cancelAtPeriodEnd := true) else subs[i])
  {
    match ActiveSubscription(subs, userId)
    case None => Fail(NotFound, "No active subscription found")
    case Some(s) =>
      Ok(UpdateWhere(subs, (x: Subscription) => x.id == s.id,
        (x: Subscription) => x.(status := "canceled", cancelAtPeriodEnd := true)))
  }

  /** The user has one active subscription at most. */
  predicate OneActive(subs: seq<Subscription>, userId: string) {
    forall i, j :: 0 <= i < j < |subs| && ActiveFor(subs[i], userId) ==> !ActiveFor(subs[j], userId)
  }

  /** With one active subscription, cancelling leaves none, so a second
      cancel fails `NotFound`. */
  lemma CancelTwiceFails(subs: seq<Subscription>, userId: string)
    requires OneActive(subs, userId)
    requires Cancel(subs, userId).Ok?
    ensures Cancel(Cancel(subs, userId).value, userId).FailsWith(NotFound)
  {
    var r := Cancel(subs, userId).value;
    var s := ActiveSubscription(subs, userId).value;
    var k :| 0 <= k < |subs| && subs[k] == s;
    forall x | x in r ensures !ActiveFor(x, userId) {
      var i :| 0 <= i < |r| && r[i] == x;
    }
  }

  /** A subscription just taken out can be cancelled. */
  lemma SubscribeThenCancel(users: seq<User>, methods: seq<PaymentMethod>, subs: seq<Subscription>,
                            userId: string, planId: string, paymentMethodId: string,
                            subscriptionId: string, now: Moment)
    requires Valid(now.date)
    requires Subscribe(users, methods, subs, userId, planId, paymentMethodId, subscriptionId, now).Ok?
    ensures Cancel(Subscribe(users, methods, subs, userId, planId, paymentMethodId, subscriptionId, now)
                     .value.subscriptions, userId).Ok?
  {
    var s := Subscribe(users, methods, subs, userId, planId, paymentMethodId, subscriptionId, now).value;
    assert s.subscriptions[|subs|] in s.subscriptions;
  }

  // ---------------------------------------------------- getSubscription

  /** The feature ids the user switched on, in table order. */
  function FeatureIds(acts: seq<Activation>, userId: string): (r: seq<string>)
    ensures forall x :: x in r <==> exists a :: a in acts && a.userId == userId && a.featureId == x
    ensures r == [] <==> forall a :: a in acts ==> a.userId != userId
  {
    if acts == [] then []
    else
      var rest := FeatureIds(acts[1..], userId);
      assert forall a :: a in acts <==> a == acts[0] || a in acts[1..];
      if acts[0].userId == userId then [acts[0].featureId] + rest else rest
  }

  function Lift(ids: seq<string>): (r: seq<Option<string>>)
    ensures |r| == |ids| && forall i :: 0 <= i < |ids| ==> r[i] == Some(ids[i])
  {
    seq(|ids|, i requires 0 <= i < |ids| => Some(ids[i]))
  }

  /** `array_agg(upf.feature_id)` over `subscriptions LEFT JOIN
      user_premium_features`: with no feature rows the join still yields
      one row, whose feature id is NULL, so the aggregate is `[NULL]`. */
  function Aggregate(acts: seq<Activation>, userId: string): (r: seq<Option<string>>)
    ensures r != []
    ensures FeatureIds(acts, userId) == [] ==> r == [None]
    ensures FeatureIds(acts, userId) != [] ==> r == Lift(FeatureIds(acts, userId))
  {
    var ids := FeatureIds(acts, userId);
    if ids == [] then [None] else Lift(ids)
  }

  datatype SubscriptionView =
    | NoSubscription
    | Current(id: string, planId: string, status: string, periodEnd: Moment,
              cancelAtPeriodEnd: bool, activeFeatures: seq<Option<string>>)

  /** `getSubscription` as written: `active_features || []` falls back only
      on a missing array, and the aggregate is never missing. */
  function GetSubscription(subs: seq<Subscription>, acts: seq<Activation>, userId: string): (r: SubscriptionView)
    ensures r.NoSubscription? <==> forall s :: s in subs ==> !ActiveFor(s, userId)
    ensures r.Current? ==>
      exists s :: s in subs && ActiveFor(s, userId)
        && r == Current(s.id, s.planId, s.status, s.periodEnd, s.cancelAtPeriodEnd, Aggregate(acts, userId))
  {
    match ActiveSubscription(subs, userId)
    case None => NoSubscription
    case Some(s) => Current(s.id, s.planId, s.status, s.periodEnd, s.cancelAtPeriodEnd, Aggregate(acts, userId))
  }

  /** `getSubscription` as intended: the features the user switched on,
      and none when there are none. */
  function GetSubscriptionIntended(subs: seq<Subscription>, acts: seq<Activation>, userId: string): (r: SubscriptionView)
    ensures r.NoSubscription? <==> forall s :: s in subs ==> !ActiveFor(s, userId)
    ensures r.Current? ==> forall f :: f in r.activeFeatures ==> f.Some?
    ensures r.Current? ==>
      forall x :: Some(x) in r.activeFeatures <==> exists a :: a in acts && a.userId == userId && a.featureId == x
    ensures r.Current? ==> GetSubscription(subs, acts, userId) == r.(activeFeatures := GetSubscription(subs, acts, userId).activeFeatures)
  {
    match ActiveSubscription(subs, userId)
    case None => NoSubscription
    case Some(s) =>
      var ids := FeatureIds(acts, userId);
      var fs := Lift(ids);
      forall x ensures Some(x) in fs <==> x in ids {
        if Some(x) in fs {
          var i :| 0 <= i < |fs| && fs[i] == Some(x);
        }
        if x in ids {
          var i :| 0 <= i < |ids| && ids[i] == x;
          assert fs[i] == Some(x);
        }
      }
      Current(s.id, s.planId, s.status, s.periodEnd, s.cancelAtPeriodEnd, fs)
  }

  /** The discrepancy: a subscriber with no features gets `[null]` where
      the fallback meant an empty list. */
  lemma NoFeaturesAggregateNull(subs: seq<Subscription>, acts: seq<Activation>, userId: string)
    requires exists s :: s in subs && ActiveFor(s, userId)
    requires forall a :: a in acts ==> a.userId != userId
    ensures GetSubscription(subs, acts, userId).activeFeatures == [None]
    ensures GetSubscriptionIntended(subs, acts, userId).activeFeatures == []
  {
  }

  /** With at least one feature switched on, the two agree. */
  lemma AggregateWithFeatures(subs: seq<Subscription>, acts: seq<Activation>, userId: string)
    requires exists a :: a in acts && a.userId == userId
    ensures GetSubscription(subs, acts, userId) == GetSubscriptionIntended(subs, acts, userId)
  {
    var a :| a in acts && a.userId == userId;
    assert a.featureId in FeatureIds(acts, userId);
  }
}

=== FILE: tables.dfy ===
/** Database tables as sequences of rows. `queryRow` returns the first row
    matching a condition, `query` the matching rows, `UPDATE ... WHERE`
    rewrites every matching row and `DELETE ... WHERE` drops them. */
module Tables {
  import opened Outcomes

  function FirstFrom<T>(rows: seq<T>, p: T -> bool, k: nat): (r: Option<nat>)
    requires k <= |rows|
    decreases |rows| - k
    ensures r.Some? ==> k <= r.value < |rows| && p(rows[r.value])
    ensures r.Some? ==> forall j :: k <= j < r.value ==> !p(rows[j])
    ensures r.None? ==> forall j :: k <= j < |rows| ==> !p(rows[j])
  {
    if k == |rows| then None
    else if p(rows[k]) then Some(k)
    else FirstFrom(rows, p, k + 1)
  }

  /** The position of the first row satisfying `p` (what `queryRow` reads). */
  function First<T>(rows: seq<T>, p: T -> bool): (r: Option<nat>)
    ensures r.Some? ==> r.value < |rows| && p(rows[r.value])
    ensures r.Some? ==> forall j :: 0 <= j < r.value ==> !p(rows[j])
    ensures r.None? <==> forall j :: 0 <= j < |rows| ==> !p(rows[j])
  {
    FirstFrom(rows, p, 0)
  }

  /** The first row satisfying `p`, if any. */
  function Lookup<T>(rows: seq<T>, p: T -> bool): (r: Option<T>)
    ensures r.Some? ==> r.value in rows && p(r.value)
    ensures r.None? <==> forall x :: x in rows ==> !p(x)
  {
    match First(rows, p)
    case None => None
    case Some(i) => Some(rows[i])
  }

  /** The rows satisfying `p`, in table order. */
  function Where<T(!new)>(rows: seq<T>, p: T -> bool): (r: seq<T>)
    ensures |r| <= |rows|
    ensures forall x :: x in r <==> x in rows && p(x)
    ensures multiset(r) <= multiset(rows)
  {
    if rows == [] then []
    else
      assert rows == [rows[0]] + rows[1..];
      if p(rows[0]) then [rows[0]] + Where(rows[1..], p) else Where(rows[1..], p)
  }

  /** The number of rows satisfying `p` (`SELECT COUNT(*) ... WHERE`). */
  function Count<T(!new)>(rows: seq<T>, p: T -> bool): nat {
    |Where(rows, p)|
  }

  /** Rewrites every row satisfying `p` with `f` and keeps the others. */
  function UpdateWhere<T>(rows: seq<T>, p: T -> bool, f: T -> T): (r: seq<T>)
    ensures |r| == |rows|
    ensures forall i :: 0 <= i < |rows| ==> r[i] == if p(rows[i]) then f(rows[i]) else rows[i]
  {
    seq(|rows|, i requires 0 <= i < |rows| => if p(rows[i]) then f(rows[i]) else rows[i])
  }

  /** Drops every row satisfying `p`. */
  function DeleteWhere<T(!new)>(rows: seq<T>, p: T -> bool): (r: seq<T>)
    ensures forall x :: x in r <==> x in rows && !p(x)
    ensures |r| == |rows| - Count(rows, p)
  {
    if rows == [] then []
    else if p(rows[0]) then DeleteWhere(rows[1..], p)
    else [rows[0]] + DeleteWhere(rows[1..], p)
  }

  /** Row counts add up over a concatenation. */
  lemma {:induction false} CountAppend<T(!new)>(a: seq<T>, b: seq<T>, p: T -> bool)
    ensures Count(a + b, p) == Count(a, p) + Count(b, p)
    decreases |a|
  {
    if a == [] {
      assert a + b == b;
    } else {
      assert (a + b)[1..] == a[1..] + b;
      assert (a + b)[0] == a[0];
      CountAppend(a[1..], b, p);
      var h: seq<T> := if p(a[0]) then [a[0]] else [];
      assert Where(a + b, p) == h + Where(a[1..] + b, p);
      assert Where(a, p) == h + Where(a[1..], p);
    }
  }

  /** Filtering a prefix extended by one row. */
  lemma {:induction false} WhereSnoc<T(!new)>(rows: seq<T>, x: T, p: T -> bool)
    ensures Where(rows + [x], p) == Where(rows, p) + (if p(x) then [x] else [])
    decreases |rows|
  {
    if rows == [] {
      assert [] + [x] == [x];
      assert [x][1..] == [];
    } else {
      assert (rows + [x])[0] == rows[0];
      assert (rows + [x])[1..] == rows[1..] + [x];
      WhereSnoc(rows[1..], x, p);
    }
  }

  /** A row that satisfies `p` is counted. */
  lemma {:induction false} CountPositive<T(!new)>(rows: seq<T>, p: T -> bool, i: nat)
    requires i < |rows| && p(rows[i])
    ensures Count(rows, p) >= 1
  {
    assert rows[i] in Where(rows, p);
  }

  /** Two counted rows sit at two different positions. */
  lemma {:induction false} TwoCounted<T(!new)>(rows: seq<T>, p: T -> bool)
    requires Count(rows, p) >= 2
    ensures exists i, j :: 0 <= i < j < |rows| && p(rows[i]) && p(rows[j])
    decreases |rows|
  {
    var tail := rows[1..];
    var rest := Where(tail, p);
    if p(rows[0]) {
      assert Where(rows, p) == [rows[0]] + rest;
      assert rest[0] in tail && p(rest[0]);
      var k :| 0 <= k < |tail| && tail[k] == rest[0];
      assert rows[k + 1] == tail[k];
    } else {
      assert Where(rows, p) == rest;
      TwoCounted(tail, p);
      var i, j :| 0 <= i < j < |tail| && p(tail[i]) && p(tail[j]);
      assert rows[i + 1] == tail[i] && rows[j + 1] == tail[j];
    }
  }

  /** An update that never changes whether a row satisfies `p` leaves the
      row `queryRow` finds in place, rewritten when the update touched it. */
  lemma LookupAfterUpdate<T>(rows: seq<T>, p: T -> bool, q: T -> bool, f: T -> T)
    requires forall x :: q(x) ==> p(f(x)) == p(x)
    ensures Lookup(UpdateWhere(rows, q, f), p) ==
      match Lookup(rows, p)
      case None => None
      case Some(x) => Some(if q(x) then f(x) else x)
  {
    var rows' := UpdateWhere(rows, q, f);
    var a := First(rows, p);
    var b := First(rows', p);
    assert forall j :: 0 <= j < |rows| ==> p(rows'[j]) == p(rows[j]);
    if a.Some? {
      assert b.Some? && b.value == a.value;
    }
  }

  /** `xs.slice(0, limit).map(f)`, one element at a time. */
  method MapFirst<A, B>(xs: seq<A>, limit: nat, f: A -> B) returns (ys: seq<B>)
    ensures |ys| == if |xs| < limit then |xs| else limit
    ensures forall i :: 0 <= i < |ys| ==> ys[i] == f(xs[i])
  {
    var n := if |xs| < limit then |xs| else limit;
    ys := [];
    for i := 0 to n
      invariant |ys| == i
      invariant forall k :: 0 <= k < i ==> ys[k] == f(xs[k])
    {
      ys := ys + [f(xs[i])];
    }
  }
}

=== FILE: text.dfy ===
/** The JavaScript string operations the backend relies on, over `string`
    (a sequence of characters): substring search, `includes`, `replace` with
    a string pattern, `split`, `trim`, ASCII case mapping, decimal printing
    and parsing, `padStart` and `substr(-n)`. */
module Text {
  import opened Outcomes

  /** `sub` occurs in `s` starting at index `i`. */
  predicate OccursAt(s: string, sub: string, i: nat) {
    i + |sub| <= |s| && s[i..i + |sub|] == sub
  }

  /** `s.includes(sub)`. */
  predicate Contains(s: string, sub: string) {
    exists i :: 0 <= i <= |s| - |sub| && OccursAt(s, sub, i)
  }

  /** A string contains whatever is spliced into it. */
  lemma Infix(prefix: string, tag: string, suffix: string)
    ensures Contains(prefix + tag + suffix, tag)
  {
    assert OccursAt(prefix + tag + suffix, tag, |prefix|);
  }

  /** The leftmost occurrence of `sub` in `s` at or after index `k`. */
  function IndexOfFrom(s: string, sub: string, k: nat): (r: Option<nat>)
    requires k <= |s|
    decreases |s| - k
    ensures r.Some? ==> k <= r.value && OccursAt(s, sub, r.value)
    ensures r.Some? ==> forall j :: k <= j < r.value ==> !OccursAt(s, sub, j)
    ensures r.None? ==> forall j :: k <= j <= |s| ==> !OccursAt(s, sub, j)
  {
    if k + |sub| > |s| then None
    else if OccursAt(s, sub, k) then Some(k)
    else IndexOfFrom(s, sub, k + 1)
  }

  /** `s.indexOf(sub)`, with `None` for -1. */
  function IndexOf(s: string, sub: string): (r: Option<nat>)
    ensures r.Some? ==> OccursAt(s, sub, r.value)
    ensures r.Some? ==> forall j :: 0 <= j < r.value ==> !OccursAt(s, sub, j)
    ensures r.None? <==> !Contains(s, sub)
  {
    IndexOfFrom(s, sub, 0)
  }

  // ---------------------------------------------------------------- case

  function LowerChar(c: char): char {
    if 'A' <= c <= 'Z' then (c as int - 'A' as int + 'a' as int) as char else c
  }

  function UpperChar(c: char): char {
    if 'a' <= c <= 'z' then (c as int - 'a' as int + 'A' as int) as char else c
  }

  /** `s.toLowerCase()` on the ASCII letters. */
  function ToLower(s: string): (r: string)
    ensures |r| == |s|
    ensures forall i :: 0 <= i < |s| ==> r[i] == LowerChar(s[i])
  {
    seq(|s|, i requires 0 <= i < |s| => LowerChar(s[i]))
  }

  /** `s` holds the lower-case word `w` at `i`, in any mix of cases. */
  predicate OccursAnyCase(s: string, w: string, i: nat) {
    i + |w| <= |s| && ToLower(s[i..i + |w|]) == w
  }

  /** `s` holds the lower-case word `w` somewhere, in any mix of cases. */
  predicate SpelledAnyCase(s: string, w: string) {
    exists i :: 0 <= i <= |s| - |w| && OccursAnyCase(s, w, i)
  }

  /** `s.toLowerCase().includes(w)` for a lower-case `w` finds `w` spelled
      in any mix of cases, and nothing else. */
  lemma ContainsAnyCase(s: string, w: string)
    requires ToLower(w) == w
    ensures Contains(ToLower(s), w) <==> SpelledAnyCase(s, w)
  {
    forall i: nat | i + |w| <= |s|
      ensures OccursAt(ToLower(s), w, i) <==> OccursAnyCase(s, w, i)
    {
      assert ToLower(s)[i..i + |w|] == ToLower(s[i..i + |w|]);
    }
    if Contains(ToLower(s), w) {
      var i :| 0 <= i <= |s| - |w| && OccursAt(ToLower(s), w, i);
      assert OccursAnyCase(s, w, i);
    }
    if SpelledAnyCase(s, w) {
      var i :| 0 <= i <= |s| - |w| && OccursAnyCase(s, w, i);
      assert OccursAt(ToLower(s), w, i);
    }
  }

  /** `s.toUpperCase()` on the ASCII letters. */
  function ToUpper(s: string): (r: string)
    ensures |r| == |s|
    ensures forall i :: 0 <= i < |s| ==> r[i] == UpperChar(s[i])
  {
    seq(|s|, i requires 0 <= i < |s| => UpperChar(s[i]))
  }

  // --------------------------------------------------------- whitespace

  /** The characters JavaScript's `trim` removes: WhiteSpace (tab, vertical
      tab, form feed, space, no-break space, byte-order mark and the Zs
      category) and LineTerminator (LF, CR, LS, PS). */
  predicate IsJsWhitespace(c: char) {
    c == '\t' || c == '\n' || c == '\U{000B}' || c == '\U{000C}' || c == '\r'
    || c == ' ' || c == '\U{00A0}' || c == '\U{1680}'
    || ('\U{2000}' <= c <= '\U{200A}')
    || c == '\U{2028}' || c == '\U{2029}' || c == '\U{202F}' || c == '\U{205F}'
    || c == '\U{3000}' || c == '\U{FEFF}'
  }

  predicate AllWhitespace(s: string) {
    forall i :: 0 <= i < |s| ==> IsJsWhitespace(s[i])
  }

  function TrimStart(s: string): (r: string)
    ensures |r| <= |s| && r == s[|s| - |r|..]
    ensures AllWhitespace(s[..|s| - |r|])
    ensures r == [] || !IsJsWhitespace(r[0])
  {
    if |s| > 0 && IsJsWhitespace(s[0]) then
      var r := TrimStart(s[1..]);
      assert s[..|s| - |r|] == [s[0]] + s[1..][..|s| - 1 - |r|];
      r
    else s
  }

  function TrimEnd(s: string): (r: string)
    ensures |r| <= |s| && r == s[..|r|]
    ensures AllWhitespace(s[|r|..])
    ensures r == [] || !IsJsWhitespace(r[|r| - 1])
  {
    if |s| > 0 && IsJsWhitespace(s[|s| - 1]) then
      var r := TrimEnd(s[..|s| - 1]);
      assert s[|r|..] == s[..|s| - 1][|r|..] + [s[|s| - 1]];
      r
    else s
  }

  /** `s.trim()`. */
  function Trim(s: string): string {
    TrimEnd(TrimStart(s))
  }

  /** A string trims to the empty string exactly when it is all whitespace. */
  lemma TrimEmptyIffBlank(s: string)
    ensures Trim(s) == [] <==> AllWhitespace(s)
  {
    var t := TrimStart(s);
    assert t != [] ==> t[0] == s[|s| - |t|];
    assert s == s[..|s| - |t|] + t;
    if Trim(s) == [] {
      assert AllWhitespace(t[0..]);
      assert t[0..] == t;
      assert t == [];
      assert s[..|s|] == s;
    }
  }

  // ------------------------------------------------------------- digits

  predicate IsDigit(c: char) {
    '0' <= c <= '9'
  }

  predicate AllDigits(s: string) {
    forall i :: 0 <= i < |s| ==> IsDigit(s[i])
  }

  function DigitChar(d: nat): (c: char)
    requires d < 10
    ensures IsDigit(c)
  {
    ('0' as int + d) as char
  }

  function DigitValue(c: char): (d: nat)
    requires IsDigit(c)
    ensures d < 10 && DigitChar(d) == c
  {
    c as int - '0' as int
  }

  /** `s.replace(/[^0-9]/g, "")`: the digit characters of `s`, in order. */
  function KeepDigits(s: string): (r: string)
    ensures AllDigits(r)
    ensures |r| <= |s|
  {
    if s == [] then []
    else if IsDigit(s[0]) then [s[0]] + KeepDigits(s[1..])
    else KeepDigits(s[1..])
  }

  /** `n.toString()` for a non-negative integer. */
  function NatToString(n: nat): (r: string)
    ensures |r| > 0 && AllDigits(r)
  {
    if n < 10 then [DigitChar(n)] else NatToString(n / 10) + [DigitChar(n % 10)]
  }

  /** `i.toString()` for an integer. */
  function IntToString(i: int): string {
    if i < 0 then "-" + NatToString(-i) else NatToString(i)
  }

  /** The value of a decimal digit string (`parseInt(s, 10)` on digits). */
  function ParseDigits(s: string): nat
    requires AllDigits(s)
  {
    if s == [] then 0 else ParseDigits(s[..|s| - 1]) * 10 + DigitValue(s[|s| - 1])
  }

  /** The canonical decimal spelling: digits, and no leading zero unless the
      numeral is "0" itself. */
  predicate Canonical(s: string) {
    |s| > 0 && AllDigits(s) && (s[0] != '0' || |s| == 1)
  }

  lemma {:induction false} ParseNatToString(n: nat)
    ensures ParseDigits(NatToString(n)) == n
    ensures Canonical(NatToString(n))
  {
    if n >= 10 {
      ParseNatToString(n / 10);
      var s := NatToString(n);
      assert s[..|s| - 1] == NatToString(n / 10);
    }
  }

  lemma {:induction false} NatToStringParse(s: string)
    requires Canonical(s)
    ensures NatToString(ParseDigits(s)) == s
    decreases |s|
  {
    if |s| > 1 {
      var p := s[..|s| - 1];
      assert Canonical(p);
      NatToStringParse(p);
      LeadingDigitPositive(p);
      assert s == p + [s[|s| - 1]];
    }
  }

  lemma {:induction false} LeadingDigitPositive(s: string)
    requires Canonical(s) && s[0] != '0'
    ensures ParseDigits(s) >= 1
    decreases |s|
  {
    if |s| > 1 {
      var p := s[..|s| - 1];
      assert p[0] == s[0];
      assert Canonical(p);
      LeadingDigitPositive(p);
    }
  }

  /** `n.toString()` spells `s` exactly when `s` is a canonical numeral of
      value `n`: a zero-padded numeral such as "001" is never the spelling of
      any number. */
  lemma NatToStringIff(n: nat, s: string)
    ensures NatToString(n) == s <==> Canonical(s) && AllDigits(s) && ParseDigits(s) == n
  {
    ParseNatToString(n);
    if Canonical(s) && ParseDigits(s) == n {
      NatToStringParse(s);
    }
  }

  /** `s.padStart(width, c)`. */
  function PadStart(s: string, width: nat, c: char): (r: string)
    ensures |r| == if |s| >= width then |s| else width
    ensures r[|r| - |s|..] == s
    ensures forall i :: 0 <= i < |r| - |s| ==> r[i] == c
  {
    if |s| >= width then s else seq(width - |s|, _ => c) + s
  }

  /** `s.substr(-n)`: the last `n` characters, or all of `s` when shorter. */
  function LastChars(s: string, n: nat): (r: string)
    ensures |r| == if |s| < n then |s| else n
    ensures s == s[..|s| - |r|] + r
  {
    if |s| <= n then s else s[|s| - n..]
  }

  // ---------------------------------------------- replace, split, join

  /** `s.replace(pat, rep)` with a string pattern: only the leftmost
      occurrence is replaced. */
  function ReplaceFirst(s: string, pat: string, rep: string): (r: string)
    ensures !Contains(s, pat) ==> r == s
  {
    match IndexOf(s, pat)
    case None => s
    case Some(i) => s[..i] + rep + s[i + |pat|..]
  }

  /** When `s` starts with the pattern, the replacement strips that prefix. */
  lemma ReplaceLeadingPrefix(pat: string, t: string)
    ensures ReplaceFirst(pat + t, pat, "") == t
  {
    var s := pat + t;
    assert OccursAt(s, pat, 0);
    assert IndexOf(s, pat) == Some(0);
  }

  /** `parts.join(sep)`. */
  function Join(parts: seq<string>, sep: string): string {
    if |parts| == 0 then ""
    else if |parts| == 1 then parts[0]
    else parts[0] + sep + Join(parts[1..], sep)
  }

  /** `s.split(sep)` for a non-empty string separator: the pieces between
      the non-overlapping occurrences found scanning left to right. */
  function Split(s: string, sep: string): (r: seq<string>)
    requires |sep| > 0
    ensures |r| >= 1
    decreases |s|
  {
    match IndexOf(s, sep)
    case None => [s]
    case Some(i) => [s[..i]] + Split(s[i + |sep|..], sep)
  }

  /** Joining the pieces of a split with the separator restores the string. */
  lemma {:induction false} JoinSplit(s: string, sep: string)
    requires |sep| > 0
    ensures Join(Split(s, sep), sep) == s
    decreases |s|
  {
    var k := IndexOf(s, sep);
    if k.Some? {
      var i := k.value;
      var rest := s[i + |sep|..];
      JoinSplit(rest, sep);
      JoinCons(s[..i], Split(rest, sep), sep);
      Decompose(s, i, |sep|);
    }
  }

  /** Joining a piece in front of a non-empty list puts the separator
      between them. */
  lemma JoinCons(head: string, tail: seq<string>, sep: string)
    requires |tail| >= 1
    ensures Join([head] + tail, sep) == head + sep + Join(tail, sep)
  {
    assert ([head] + tail)[1..] == tail;
  }

  lemma Decompose(s: string, i: nat, n: nat)
    requires i + n <= |s|
    ensures s == s[..i] + s[i..i + n] + s[i + n..]
  {
  }

  /** No piece of a split contains the separator. */
  lemma {:induction false} SplitPiecesFree(s: string, sep: string)
    requires |sep| > 0
    ensures forall p :: p in Split(s, sep) ==> !Contains(p, sep)
    decreases |s|
  {
    match IndexOf(s, sep)
    case None =>
    case Some(i) =>
      var rest := s[i + |sep|..];
      SplitPiecesFree(rest, sep);
      var head := s[..i];
      assert Split(s, sep) == [head] + Split(rest, sep);
      forall j | 0 <= j <= |head| - |sep| ensures !OccursAt(head, sep, j) {
        SliceOfPrefix(s, i, j, j + |sep|);
        assert !OccursAt(s, sep, j);
      }
  }

  /** No occurrence of `sep` starts inside `p` when `sep` follows it: `p`
      holds no `sep` and no tail of `p` begins one. */
  predicate Separable(p: string, sep: string) {
    forall j :: 0 <= j < |p| ==> !OccursAt(p + sep, sep, j)
  }

  /** Splitting a join gives the parts back when each part is separable. */
  lemma {:induction false} SplitJoin(parts: seq<string>, sep: string)
    requires |sep| > 0 && |parts| >= 1
    requires forall i :: 0 <= i < |parts| ==> Separable(parts[i], sep)
    ensures Split(Join(parts, sep), sep) == parts
    decreases |parts|
  {
    var p := parts[0];
    assert Separable(p, sep);
    if |parts| == 1 {
      forall j | 0 <= j <= |p| - |sep| ensures !OccursAt(p, sep, j) {
        assert (p + sep)[j..j + |sep|] == p[j..j + |sep|];
        assert !OccursAt(p + sep, sep, j);
      }
      assert IndexOf(p, sep).None?;
    } else {
      var tail := parts[1..];
      var rest := Join(tail, sep);
      assert Join(parts, sep) == p + sep + rest;
      SplitCons(p, rest, sep);
      forall i | 0 <= i < |tail| ensures Separable(tail[i], sep) {
        assert tail[i] == parts[i + 1];
      }
      SplitJoin(tail, sep);
    }
  }

  /** Splitting at a separable first piece yields that piece, then the
      pieces of the rest. */
  lemma SplitCons(p: string, rest: string, sep: string)
    requires |sep| > 0 && Separable(p, sep)
    ensures Split(p + sep + rest, sep) == [p] + Split(rest, sep)
  {
    var s := p + sep + rest;
    assert s[|p|..|p| + |sep|] == sep;
    assert OccursAt(s, sep, |p|);
    forall j | 0 <= j < |p| ensures !OccursAt(s, sep, j) {
      assert s[j..j + |sep|] == (p + sep)[j..j + |sep|];
      assert !OccursAt(p + sep, sep, j);
    }
    assert IndexOf(s, sep) == Some(|p|);
    assert s[..|p|] == p && s[|p| + |sep|..] == rest;
  }

  /** A piece free of a one-character separator is separable. */
  lemma FreeSeparable(p: string, sep: string)
    requires |sep| == 1 && !Contains(p, sep)
    ensures Separable(p, sep)
  {
    forall j | 0 <= j < |p| ensures !OccursAt(p + sep, sep, j) {
      if OccursAt(p + sep, sep, j) {
        assert p[j..j + 1] == (p + sep)[j..j + 1];
        assert OccursAt(p, sep, j);
      }
    }
  }

  /** A slice of a prefix is the same slice of the whole string. */
  lemma SliceOfPrefix(s: string, i: nat, a: nat, b: nat)
    requires a <= b <= i <= |s|
    ensures s[..i][a..b] == s[a..b]
  {
    assert forall k :: 0 <= k < b - a ==> s[..i][a..b][k] == s[a + k];
  }

  /** A split yields exactly two pieces iff the separator occurs and does
      not occur again after its leftmost occurrence. */
  lemma SplitInTwo(s: string, sep: string)
    requires |sep| > 0
    ensures |Split(s, sep)| == 2 <==>
      (IndexOf(s, sep).Some? && !Contains(s[IndexOf(s, sep).value + |sep|..], sep))
    ensures |Split(s, sep)| == 2 ==>
      var i := IndexOf(s, sep).value;
      Split(s, sep) == [s[..i], s[i + |sep|..]]
  {
  }

  // ---------------------------------------------------------- ordering

  /** Code-point lexicographic order. The default `Array.prototype.sort`
      compares UTF-16 code units, which gives the same order unless a
      character above U+FFFF is involved; `ORDER BY` on a text column gives
      it under a byte-order (C) collation. */
  predicate LexLe(a: string, b: string) {
    a == [] || (b != [] && (a[0] < b[0] || (a[0] == b[0] && LexLe(a[1..], b[1..]))))
  }

  lemma {:induction false} LexLeTotal(a: string, b: string)
    ensures LexLe(a, b) || LexLe(b, a)
  {
    if a != [] && b != [] && a[0] == b[0] {
      LexLeTotal(a[1..], b[1..]);
    }
  }

  /** `s.endsWith(suffix)`. */
  predicate EndsWith(s: string, suffix: string) {
    |suffix| <= |s| && s[|s| - |suffix|..] == suffix
  }
}

=== FILE: text_facts.dfy ===
/** Facts about the string functions of `Text` on concatenations: which
    digits `KeepDigits` keeps, when `Trim` and `ToUpper` leave a string
    unchanged, where "PM" occurs, and numeral values. */
module TextFacts {
  import opened Text

  /** Zero-padding a numeral keeps its value. */
  lemma PadParse(s: string)
    requires |s| > 0 && AllDigits(s)
    ensures AllDigits(PadStart(s, 2, '0'))
    ensures ParseDigits(PadStart(s, 2, '0')) == ParseDigits(s)
  {
    if |s| < 2 {
      var p := PadStart(s, 2, '0');
      assert p == ['0', s[0]];
      assert p[..1] == ['0'];
      assert s[..0] == [];
    }
  }

  lemma TrimReading(digits: string, suffix: string)
    requires digits != [] && AllDigits(digits)
    requires suffix != [] && !IsJsWhitespace(suffix[|suffix| - 1])
    ensures Trim(digits + suffix) == digits + suffix
  {
    var s := digits + suffix;
    assert IsDigit(digits[0]);
    assert s[0] == digits[0];
    assert s[|s| - 1] == suffix[|suffix| - 1];
    NoTrim(s);
  }

  lemma DigitsOfReading(digits: string, suffix: string)
    requires AllDigits(digits)
    requires forall i :: 0 <= i < |suffix| ==> !IsDigit(suffix[i])
    ensures KeepDigits(digits + suffix) == digits
  {
    KeepDigitsAppend(digits, suffix);
    KeepAllDigits(digits);
    NoDigitsKept(suffix);
  }

  lemma {:induction false} NoDigitsKept(s: string)
    requires forall i :: 0 <= i < |s| ==> !IsDigit(s[i])
    ensures KeepDigits(s) == []
    decreases |s|
  {
    if s != [] {
      NoDigitsKept(s[1..]);
    }
  }

  predicate IsLower(c: char) {
    'a' <= c <= 'z'
  }

  lemma NoLowerAppend(a: string, b: string)
    requires forall i :: 0 <= i < |a| ==> !IsLower(a[i])
    requires forall i :: 0 <= i < |b| ==> !IsLower(b[i])
    ensures forall i :: 0 <= i < |a + b| ==> !IsLower((a + b)[i])
  {
  }

  lemma MinutesDigitsKept(digits: string, mm: string, suffix: string)
    requires AllDigits(digits) && AllDigits(mm)
    requires forall i :: 0 <= i < |suffix| ==> !IsDigit(suffix[i])
    ensures KeepDigits(digits + ":" + mm + suffix) == digits + mm
  {
    var colon := ":";
    var a := digits + colon;
    var t := a + mm;
    assert KeepDigits(colon) == [];
    KeepDigitsAppend(digits, colon);
    KeepAllDigits(digits);
    assert KeepDigits(a) == digits;
    KeepDigitsAppend(a, mm);
    KeepAllDigits(mm);
    assert KeepDigits(t) == digits + mm;
    KeepDigitsAppend(t, suffix);
    NoDigitsKept(suffix);
  }

  /** The first character of "H:MM<suffix>" is a digit and its last is the
      suffix's. */
  lemma FirstLastOfReading(digits: string, mm: string, suffix: string)
    requires digits != [] && AllDigits(digits) && suffix != []
    ensures var s := digits + ":" + mm + suffix;
      s != [] && IsDigit(s[0]) && !IsJsWhitespace(s[0]) && s[|s| - 1] == suffix[|suffix| - 1]
  {
    assert IsDigit(digits[0]);
  }

  lemma UpperFixed(s: string)
    requires forall i :: 0 <= i < |s| ==> !IsLower(s[i])
    ensures ToUpper(s) == s
  {
  }

  lemma PmMarked(t: string)
    ensures Contains(t + " PM", "PM")
  {
    var s := t + " PM";
    assert s[|t| + 1..|t| + 3] == "PM";
    assert OccursAt(s, "PM", |t| + 1);
  }

  lemma AmUnmarked(t: string)
    requires forall i :: 0 <= i < |t| ==> t[i] != 'P'
    ensures !Contains(t + " AM", "PM")
  {
    var s := t + " AM";
    forall i | 0 <= i <= |s| - 2 ensures !OccursAt(s, "PM", i) {
      if i < |t| {
        assert s[i] == t[i];
      } else {
        assert s[i] == " AM"[i - |t|];
      }
    }
  }

  /** Appending two digits to a numeral multiplies its value by 100 and adds
      theirs. */
  lemma ParseTwoMore(a: string, mm: string)
    requires AllDigits(a) && AllDigits(mm) && |mm| == 2
    ensures ParseDigits(a + mm) == ParseDigits(a) * 100 + ParseDigits(mm)
  {
    var x, y := mm[0], mm[1];
    assert (a + mm)[..|a + mm| - 1] == a + [x];
    assert ParseDigits(a + mm) == ParseDigits(a + [x]) * 10 + DigitValue(y);
    assert (a + [x])[..|a|] == a;
    assert ParseDigits(a + [x]) == ParseDigits(a) * 10 + DigitValue(x);
    assert mm[..1] == [x] && [x][..0] == [];
    assert ParseDigits([x]) == DigitValue(x);
    assert ParseDigits(mm) == DigitValue(x) * 10 + DigitValue(y);
  }

  lemma LongNumeral(n: nat)
    requires n >= 10
    ensures |NatToString(n)| >= 2
    ensures PadStart(NatToString(n), 2, '0') == NatToString(n)
  {
  }

  lemma NoTrim(s: string)
    requires |s| > 0 && !IsJsWhitespace(s[0]) && !IsJsWhitespace(s[|s| - 1])
    ensures Trim(s) == s
  {
  }

  lemma {:induction false} KeepDigitsAppend(a: string, b: string)
    ensures KeepDigits(a + b) == KeepDigits(a) + KeepDigits(b)
    decreases |a|
  {
    if a == [] {
      assert a + b == b;
    } else {
      assert (a + b)[1..] == a[1..] + b;
      assert (a + b)[0] == a[0];
      KeepDigitsAppend(a[1..], b);
    }
  }

  lemma {:induction false} KeepAllDigits(s: string)
    requires AllDigits(s)
    ensures KeepDigits(s) == s
    decreases |s|
  {
    if s != [] {
      KeepAllDigits(s[1..]);
    }
  }

  lemma UpperOfDigits(s: string)
    requires AllDigits(s)
    ensures ToUpper(s) == s
  {
  }

  lemma UpperAppend(a: string, b: string)
    ensures ToUpper(a + b) == ToUpper(a) + ToUpper(b)
  {
  }
}
